=== FILE: README.md ===
# yieldshift rebalancing core, modelled in Dafny

This project models yieldshift's rebalancing pipeline and the small pure
helpers of its client pages, and proves properties of them. The pipeline
starts from a yield catalog and a user's positions. It generates rebalance
recommendations, gates their execution by subscription tier and monthly
quota, and executes them through a swap gateway. Settlement is then
monitored, and billing events move users between tiers.

Every database table is a sequence of rows in insertion order. A
`.single()` read is "exactly one matching row", and an `update().eq()` is
a map over the matching rows. The network is replaced by an input:
DefiLlama, DeBank, the swap gateway and the LLM become an `Option` or
oracle parameter, or a reply datatype. So are clocks, and the outcome of
each database write whose error the code checks. Writes whose result the
code never looks at are modelled as succeeding (see "Left out"). Amounts,
balances, APYs and TVLs are `real`. Text is `seq<char>`, with ASCII case mapping.

Modules, one per source file:

- `YieldCatalog`: `fetchTopYields`.
- `AiRecommendations`: the rule-based fallback, the validate-or-fallback step of `generateRecommendations`, and `saveRecommendations`.
- `Rebalancing`: executor state machine, batch, monitor, and the asset-to-coin table.
- `Breakeven`: `simulateRebalance` and `isRebalanceWorthwhile`.
- `Entitlement`: the `requirePlan` and `checkRebalanceLimit` middleware.
- `RecommendationRoutes`: the listing and execute routes.
- `Billing`: the Stripe webhook handlers and the checkout plan check.
- `WalletScanner`: position inference, the DeBank mapping, `savePositions`, and the RPC-chain and native-symbol choice.
- `DefiLlama`: the supported-yield-token pipeline, `YIELD_TOKEN_MAP` and `formatTvl`.
- Client pages: `ComparePage`, `PortfolioPage`, `OrdersPage`, `AllCoins` and `RecommendationsPage`.
- `OrderStatus`: the status variant and icon shared by the Portfolio and Orders pages.
- Shared helpers: `Wrappers`, `Seqs`, `Sorting` (a stable insertion sort proved sorted, a permutation and stable), `Text` and `Records`.

Where the code and its own comments differ, the model follows the code:

- Generating recommendations only inserts new rows. It does not delete the user's older pending ones.
- The execute route checks ownership and status, then returns the recommendation. It does not change its status.
- A `past_due` subscription update keeps the user's tier. Only `canceled` and `unpaid` downgrade to free.
- An unknown tier string passes `checkRebalanceLimit` but fails `requirePlan('starter')`. The two gates disagree on it (`Entitlement.UnknownTierDiverges`).
- A tier string naming a member every JavaScript object inherits, such as "toString", reads a function from the plan hierarchy. That value survives `|| 0` and compares false with every level, so it passes every plan gate (`Entitlement.InheritedKeyPassesAll`).
- A failed status write after a successful order still reports success. The recommendation then stays `pending` and can be executed again. `Rebalancing.ExecuteRebalance` promises a settled status only when that write succeeds.
- `getSupportedYieldTokens` ignores its `supportedCoinIds` argument. The model has no such parameter.
- A total APY whose base and reward parts sum to zero falls back to `apy`, which is what the JavaScript `||` does.
- The `chain` of a position is not stored by `savePositions`.
- A failed delete in `savePositions` is ignored: the wallet's old rows stay and the new ones are appended after them.

## Model

| member | source | states |
|---|---|---|
| YieldCatalog.FetchTopYields | backend/src/services/ai-recommendations.ts:114-139 | A failed fetch gives []. Otherwise the result has min(limit, number of eligible pools) pools, and no pool occurs more often than it was fetched. Each has TVL ≥ minTvl, 0 < APY < 1000, and a non-empty symbol and project. The result is sorted by APY, descending, and no eligible pool left out has a higher APY than any pool kept |
| YieldCatalog.TopListableFacts | backend/src/services/ai-recommendations.ts:122-132 | Filter, sort and slice give min(limit, eligible count) eligible pools, a sub-multiset of the input, sorted by APY descending, and no eligible pool left out beats one kept |
| AiRecommendations.RiskBands | backend/src/services/ai-recommendations.ts:232-238 | A pool passes the risk filter: always above tolerance 70; above 40 unless it has IL risk and TVL under 10M; otherwise only without IL risk |
| AiRecommendations.ConservativeExcludesIlRisk | backend/src/services/ai-recommendations.ts:232-238 | At tolerance ≤ 40 no pool with IL risk survives the filter |
| AiRecommendations.DraftFor | backend/src/services/ai-recommendations.ts:242-266 | A position gets at most one draft. It gets none exactly when no surviving pool contains its asset with an APY more than 2 points higher. Otherwise the draft targets the first such pool, copies pool id, protocol, asset, amount and APY from the position, has net gain balance·(target−current)/100, and has risk 6 with IL risk, else 3 |
| AiRecommendations.PerPosition | backend/src/services/ai-recommendations.ts:241-267 | The position loop yields no more drafts than there are positions |
| AiRecommendations.PerPositionSpec | backend/src/services/ai-recommendations.ts:241-267 | The drafts correspond to a strictly increasing selection of positions, in position order. Each draft is the best draft for its position, and every position without a draft has no improving pool |
| AiRecommendations.PerPositionNoCandidates | backend/src/services/ai-recommendations.ts:241-267 | With no surviving pools, no position yields a draft |
| AiRecommendations.NewDepositFor | backend/src/services/ai-recommendations.ts:270-290 | At most one draft, present exactly when some surviving pool's symbol contains USDC, USDT or DAI. It is built from the first such pool: no source pool, protocol or current APY, amount 1000, net gain 10·APY, risk 5 with IL risk, else 2 |
| AiRecommendations.Fallback | backend/src/services/ai-recommendations.ts:224-293 | At most 5 drafts, and none for an empty catalog. With positions, the result is the first min(5, n) of the n per-position drafts. Without positions, it is the new-deposit draft |
| AiRecommendations.FallbackDraftsFromPositions | backend/src/services/ai-recommendations.ts:241-292 | With positions, every fallback draft is the best draft for a distinct position, in position order |
| AiRecommendations.GenerateRecommendations | backend/src/services/ai-recommendations.ts:166-220 | A well-formed model reply on a non-empty catalog is returned unchanged and uncapped. An empty catalog, a malformed reply or a failed call gives the fallback on the same inputs, which is [] when the fetch fails and at most 5 drafts otherwise |
| AiRecommendations.SaveRecommendations | backend/src/services/ai-recommendations.ts:296-327 | A failed insert is an error. Success appends one pending row per draft, in order, carrying the user, the draft and a fresh id, with no shift id. Existing rows and history are unchanged |
| AiRecommendations.SaveKeepsPending | backend/src/services/ai-recommendations.ts:296-327 | Saving never removes an existing recommendation |
| Rebalancing.MapAssetToSideShiftCoin | backend/src/services/rebalancing.ts:47-68 | The coin id is always lower-case. An unmapped symbol maps to its lower-cased self |
| Rebalancing.CoinCaseInsensitive | backend/src/services/rebalancing.ts:67 | Symbols equal up to case map to the same coin |
| Rebalancing.CoinTableExamples | backend/src/services/rebalancing.ts:48-67 | WETH and ETH map to eth, and WBTC and BTC to btc, in either case |
| Rebalancing.StablecoinCoins | backend/src/services/rebalancing.ts:53-54 | usdc maps to usdcarbitrum and USDT to usdttrc20 |
| Rebalancing.UnmappedCoinFallback | backend/src/services/rebalancing.ts:67 | stETH, which is not in the table, maps to steth |
| Rebalancing.ExecuteRebalance | backend/src/services/rebalancing.ts:151-245 | A missing recommendation fails with "not found", a non-pending one with "already processed", and one with a source protocol with manual-required, each without a gateway call. Otherwise one same-coin quote is requested for the asset's coin and amount; no quote fails with the quote error, and an order for the quote to the wallet is then placed: the result is that order when the service returns one, and the order error when not. Only the target recommendation can change, and never its id, owner or body; a row left pending is unchanged. A failure adds no history, and one other than manual-required writes nothing. A source protocol marks it manual_required with `updated_at` set to now once the status write succeeds, and leaves it unchanged when that write fails. On success a successful status write makes the recommendation executed with the order's id as shift id and `executed_at` set to now, leaving `updated_at` as it was; a failed one leaves every recommendation unchanged. Success appends exactly one pending history row with the recommendation's user, asset, amount and protocols when the history write succeeds |
| Rebalancing.SwapSucceedsIffServiceAnswers | backend/src/services/rebalancing.ts:198-210 | For a pending recommendation without a source protocol, the execution succeeds exactly when the swap service returns a quote and then an order; the result is that order, and a failure (quote or order error) leaves the store unchanged |
| Rebalancing.SettledFails | backend/src/services/rebalancing.ts:163-169 | A recommendation that is not pending is refused with no write and no gateway call |
| Rebalancing.ExecuteKeepsSettled | backend/src/services/rebalancing.ts:151-245 | No execution returns any recommendation to pending |
| Rebalancing.SourcedNeverSwaps | backend/src/services/rebalancing.ts:178-196 | A recommendation with a source protocol never reaches the gateway. When pending, it fails with the manual-required error and becomes manual_required once the status write succeeds |
| Rebalancing.Outcome | backend/src/services/rebalancing.ts:262-266 | A batch entry carries the id, and its success flag is set exactly when the execution succeeded and no error is reported |
| Rebalancing.BatchStep | backend/src/services/rebalancing.ts:260-273 | One more execution keeps the batch invariant: an id that succeeded with a persisted status write cannot succeed again later in the batch |
| Rebalancing.Attempt | backend/src/services/rebalancing.ts:260-273 | One loop iteration executes the next id against the current store: the new store and the appended entry are exactly that execution's store and outcome, and the batch invariant is kept |
| Rebalancing.BatchEntry | backend/src/services/rebalancing.ts:260-273 | Entry k of any batch prefix is the outcome of executing id k against the store left by the first k executions |
| Rebalancing.BatchExecuteRebalances | backend/src/services/rebalancing.ts:248-279 | One result per id, in input order. Result k is the outcome of executing id k against the store left by the first k executions, and the final store is the one left by all of them. successful is the number of successes, and successful + failed equals the number of ids. A repeated id succeeds at most once after a persisted status write |
| Rebalancing.MonitorShiftOrder | backend/src/services/rebalancing.ts:282-305 | No status means no change. Otherwise each history row of that shift becomes the same row with the lower-cased status, and every other history row is unchanged. A recommendation becomes completed exactly when it carries that shift id and the lower-cased status is settled; every other one is unchanged |
| Rebalancing.MonitorCompletesOnSettled | backend/src/services/rebalancing.ts:296-302 | A settled status in any case completes every recommendation linked to the shift |
| Rebalancing.MonitorOtherStatusKeepsRecommendations | backend/src/services/rebalancing.ts:296-302 | Any other status leaves the recommendations untouched |
| Rebalancing.MonitorIdempotent | backend/src/services/rebalancing.ts:290-302 | Monitoring twice with the same status equals monitoring once |
| Breakeven.Div | backend/src/services/rebalancing.ts:354 | JavaScript division: the real quotient for a non-zero divisor, and ±Infinity or NaN by the dividend's sign for zero |
| Breakeven.Ceil | backend/src/services/rebalancing.ts:341 | Math.ceil: the least integer not below x |
| Breakeven.SimulateRebalance | backend/src/services/rebalancing.ts:308-343 | Fails exactly when the recommendation is not found. Otherwise the cost is 50, annual gain·100 = amount·(target − current, with a missing current APY read as 0), and daily gain·365 = annual gain. Break-even is undefined exactly for zero daily gain. For positive gain it is the least whole day count that covers the cost; for negative gain it is ≤ 0 |
| Breakeven.CeilBrackets | backend/src/services/rebalancing.ts:335-341 | ceil(cost/gain) is the least positive day count covering the cost when gain > 0, and is ≤ 0 when gain < 0 |
| Breakeven.SimulateAgreesWithWorthwhile | backend/src/services/rebalancing.ts:326-356 | The simulated break-even is within m days exactly when the worthwhile check's day test passes with threshold m |
| Breakeven.IsRebalanceWorthwhile | backend/src/services/rebalancing.ts:346-357 | The two-part test: the cost divided by the daily gain (a JavaScript quotient) is at most the allowed days, and the yearly gain exceeds twice the cost; a pass implies amount·diff > 200·cost. The default arguments (cost 50, 30 days) appear only in `DefaultThresholdExamples` |
| Breakeven.WorthwhileIffGain | backend/src/services/rebalancing.ts:346-357 | With a positive cost, worthwhile ⇔ amount·diff > 200·cost and 36500·cost ≤ minDays·amount·diff |
| Breakeven.WorthwhileMonotoneInAmount | backend/src/services/rebalancing.ts:346-357 | With a positive APY difference, a worthwhile amount stays worthwhile when the amount grows |
| Breakeven.NoGainNotWorthwhile | backend/src/services/rebalancing.ts:346-357 | No APY improvement is never worthwhile |
| Breakeven.DefaultThresholdExamples | backend/src/services/rebalancing.ts:346-357 | With the defaults, (10000, 3) is not worthwhile and (100000, 5) is |
| Entitlement.KnownTierIsPlanName | backend/src/middleware/auth.ts:46-51 | The known tier strings are exactly the four plan names |
| Entitlement.Rank | backend/src/middleware/auth.ts:46-59 | Each plan name has its hierarchy level 0-3. A name inherited from the object prototype has no numeric level, and any other tier string has level 0 |
| Entitlement.RequirePlan | backend/src/middleware/auth.ts:45-73 | No user gives 401. Otherwise the request passes exactly when the plan is free, the tier is an inherited object member, or the tier names a plan ranked at least as high. It is refused with 403 naming the required and current plan |
| Entitlement.RequirePlanMonotone | backend/src/middleware/auth.ts:53-72 | Passing a gate implies passing every lower gate, and every user with at least that level also passes |
| Entitlement.ExtremeTiers | backend/src/middleware/auth.ts:59-72 | Institutional passes every plan gate, and free passes only the free gate |
| Entitlement.UnknownTierIsFree | backend/src/middleware/auth.ts:59 | A tier string that is neither a plan name nor an inherited member passes only the free gate |
| Entitlement.CheckRebalanceLimit | backend/src/middleware/auth.ts:76-126 | No user gives 401, and professional and institutional always pass. Free gets 403 subscription-required. Starter gets 500 when the count read fails, 403 with limit 4 and the count used when the count is ≥ 4, and passes otherwise, including when no row exists |
| Entitlement.StarterQuotaExamples | backend/src/middleware/auth.ts:88-113 | A starter with 3 used or no row passes; with 4 used the request is refused with limit 4, used 4 |
| Entitlement.LimitAgreesWithPlan | backend/src/middleware/auth.ts:76-126 | For known tiers under the quota, the limit gate passes exactly when requirePlan('starter') does |
| Entitlement.UnknownTierDiverges | backend/src/middleware/auth.ts:76-126 | A tier string that is neither a plan name nor an inherited member passes the limit gate but not requirePlan('starter') |
| Entitlement.InheritedKeyPassesAll | backend/src/middleware/auth.ts:59-62 | An inherited member name such as "toString" as tier passes every plan gate and the limit gate |
| RecommendationRoutes.ListRecommendations | backend/src/routes/recommendations.ts:8-22 | Refused exactly when requirePlan('starter') refuses, with its status, and 500 exactly when the read fails. Otherwise the list is a permutation of the user's pending recommendations, sorted by net gain, descending |
| RecommendationRoutes.ListedExactlyOwnPending | backend/src/routes/recommendations.ts:10-18 | A recommendation is listed exactly when it is the user's and pending, and rows of equal net gain keep their table order |
| RecommendationRoutes.ExecuteRoute | backend/src/routes/recommendations.ts:37-75 | Refused exactly when the limit gate refuses, with its status. Otherwise, with the read itself succeeding: not found exactly when the user does not have exactly one row with that id; already processed exactly when that one row is not pending; accepted exactly when it is pending, returning that row |
| RecommendationRoutes.ForeignRecommendationHidden | backend/src/routes/recommendations.ts:42-51 | Another user's recommendation is reported as not found |
| RecommendationRoutes.ExecuteRouteRepeatable | backend/src/routes/recommendations.ts:37-75 | An accepted recommendation is the user's single row with that id, and is still pending |
| Billing.ValidateCheckoutPlan | backend/src/services/stripe.ts:8-29 | Checkout accepts exactly starter and professional, as plans of level 1 or 2 |
| Billing.UpdateTier | backend/src/services/stripe.ts:93-97 | Only the user with the given id changes, and only its tier; nothing changes when the id or the tier is missing |
| Billing.Upsert | backend/src/services/stripe.ts:77-86 | After the upsert the user has a row with the given customer, subscription id, status and cancel flag, and with the plan when one is given. An existing row of the user is merged in place and nothing is added; otherwise exactly that row is appended. Other users' rows are unchanged |
| Billing.TierAfterUpdate | backend/src/services/stripe.ts:122-136 | A subscription update sets a tier exactly when the subscription is active with a plan, or is canceled or unpaid |
| Billing.HandleStripeWebhook | backend/src/services/stripe.ts:70-187 | Fails exactly when the checkout's subscription retrieval or upsert fails or the update write fails. Invoice and other events change nothing, and users keep their ids. A deletion sets status canceled on exactly the rows of that subscription id and makes exactly that user free. An update rewrites status, cancel flag and plan (starter when missing) on exactly the rows of that subscription id and applies the tier rule. A checkout upserts the session's row and sets the user's tier to the session plan |
| Billing.PastDueKeepsTier | backend/src/services/stripe.ts:122-136 | An update with any status other than active, canceled or unpaid leaves every tier unchanged |
| Billing.TiersStayKnown | backend/src/services/stripe.ts:161-187 | When events carry paid plans, every tier stays one of the four known tiers |
| Billing.WebhookIdempotent | backend/src/services/stripe.ts:161-187 | Replaying a handled event changes nothing |
| Billing.UpsertIdempotent | backend/src/services/stripe.ts:77-86 | Upserting the same row twice equals upserting it once |
| WalletScanner.RpcChain | backend/src/services/wallet-scanner.ts:43-51 | The provider chain is the lower-cased chain when it has an RPC URL. A lower-cased name the URL object inherits from `Object.prototype` yields no configured endpoint, since the inherited member is truthy and skips the fallback. Every other chain uses ethereum |
| WalletScanner.RpcChainMissesOnlyTwoNames | backend/src/services/wallet-scanner.ts:44-51 | Exactly "constructor" and "__proto__", in any letter case, reach an inherited member instead of an endpoint |
| WalletScanner.RpcChainMissesExamples | backend/src/services/wallet-scanner.ts:44-51 | "Constructor" and "__PROTO__" reach no configured endpoint |
| WalletScanner.NativeSymbolAsWritten | backend/src/services/wallet-scanner.ts:131-133 | The label compares the chain case-sensitively: MATIC exactly for polygon, ETH exactly for ethereum or arbitrum, AVAX for everything else |
| WalletScanner.NativeSymbolMislabels | backend/src/services/wallet-scanner.ts:131-133 | "Polygon" is read from the polygon RPC but labelled AVAX, and "bsc" is read from ethereum but labelled AVAX |
| WalletScanner.NativeSymbol | backend/src/services/wallet-scanner.ts:131-133 | The label is the native coin of the chain whose RPC is actually read, and there is none when no configured RPC is read |
| WalletScanner.NativeSymbolAgrees | backend/src/services/wallet-scanner.ts:131-133 | The corrected label equals the original on the four configured chains, and ignores case |
| WalletScanner.TopPool | backend/src/services/wallet-scanner.ts:331 | The reference pool has the highest APY among the relevant pools, and no relevant pool listed before it has that APY: the stable sort picks the first maximal pool |
| WalletScanner.PositionOf | backend/src/services/wallet-scanner.ts:329-341 | An inferred position keeps the token's symbol, balance and chain |
| WalletScanner.PositionOfIsBest | backend/src/services/wallet-scanner.ts:325-341 | The position takes protocol, pool, APY and TVL from a relevant pool (symbol contains the token, TVL > 100000) whose APY no relevant pool exceeds and no earlier relevant pool equals |
| WalletScanner.InferFrom | backend/src/services/wallet-scanner.ts:321-344 | No more positions than tokens |
| WalletScanner.InferFromIsPositionsOfKept | backend/src/services/wallet-scanner.ts:321-344 | The positions are exactly, in order, those of the tokens above dust that have a relevant pool |
| WalletScanner.InferPositionsFromBalances | backend/src/services/wallet-scanner.ts:311-351 | A failed pool fetch gives []. Otherwise one position for each qualifying token, in token order |
| WalletScanner.InferConcat | backend/src/services/wallet-scanner.ts:321-344 | Inference distributes over concatenation of the token list |
| WalletScanner.InferredAreNotDust | backend/src/services/wallet-scanner.ts:322-341 | Every inferred position comes from a token with balance > 0.01 and carries its symbol and balance |
| WalletScanner.TextOr | backend/src/services/wallet-scanner.ts:291-292 | The value if present and non-empty, else the default |
| WalletScanner.DebankPosition | backend/src/services/wallet-scanner.ts:288-297 | A kept item gives a position with positive balance, the protocol's name and chain, and the item's USD value as balance. The pool id is the pool's id when present and non-empty, else "unknown"; APY is 100× the pool's and TVL the pool's, each 0 when missing; the asset is the supplied symbol when non-empty, else "UNKNOWN" |
| WalletScanner.ProtocolPositions | backend/src/services/wallet-scanner.ts:287-299 | One position per item with positive USD value, in item order |
| WalletScanner.AllPositions | backend/src/services/wallet-scanner.ts:285-301 | Every reported position has a positive balance and non-empty pool id and asset |
| WalletScanner.AllPositionsConcat | backend/src/services/wallet-scanner.ts:285-301 | The mapping distributes over protocol lists, and its length is the number of kept items |
| WalletScanner.ScanWithDeBank | backend/src/services/wallet-scanner.ts:264-308 | No key or a failed request gives []. Otherwise it gives the mapped positions, all reported |
| WalletScanner.SavePositions | backend/src/services/wallet-scanner.ts:230-261 | Throws exactly when there are positions and the insert fails. Other wallets' rows are untouched. After a successful delete the wallet's rows are the new positions, in order, or none if the insert threw. After a failed delete the new rows follow the wallet's old ones, and a failed insert leaves the table as it was |
| WalletScanner.SaveTwiceIsSaveOnce | backend/src/services/wallet-scanner.ts:230-261 | Saving the same positions twice leaves the wallet's rows as after one save |
| DefiLlama.TotalApy | src/services/defillama.ts:99 | The sum of base and reward APY when non-zero; zero exactly when that sum and apy are both zero or missing |
| DefiLlama.TotalApyExamples | src/services/defillama.ts:99 | Base 3 and reward −3 fall back to apy 7; a missing base counts as 0; all missing give 0 |
| DefiLlama.SymbolKey | src/services/defillama.ts:102 | The key holds only upper-case ASCII letters and is no longer than the symbol |
| DefiLlama.SymbolKeyIdempotent | src/services/defillama.ts:102 | Normalising a key again changes nothing |
| DefiLlama.SymbolKeyIgnoresCase | src/services/defillama.ts:102 | Lower-casing the symbol first gives the same key |
| DefiLlama.SymbolKeyExample | src/services/defillama.ts:102 | jitoSOL normalises to JITOSOL |
| DefiLlama.TokenMapSharesIds | src/services/defillama.ts:56-68 | JITOSOLSTAKE, DSOL and JUPSOL share their ids with JITOSOL, BSOL and MSOL |
| DefiLlama.ToYieldToken | src/services/defillama.ts:127-143 | The token carries the mapped non-empty SideShift id, the total APY, TVL, pool and symbol |
| DefiLlama.YieldBeforeIsTotalPreorder | src/services/defillama.ts:144-150 | APY-then-TVL descending is a total preorder, so the sort is well defined |
| DefiLlama.SupportedTokens | src/services/defillama.ts:96-143 | The converted tokens are exactly those of pools that pass the filter: mapped symbol, id offered by SideShift, TVL > minTvl, not an outlier, total APY > 0 |
| DefiLlama.Candidates | src/services/defillama.ts:96-150 | The same tokens, sorted by APY then TVL, descending |
| DefiLlama.DedupKeepsFirsts | src/services/defillama.ts:152-163 | On a sorted list the Map-based dedup keeps, in order, the first token of each non-empty id. Ids are distinct, every id appears, and the order stays sorted |
| DefiLlama.DedupStep | src/services/defillama.ts:154-161 | One Map update keeps the first-of-each-id property |
| DefiLlama.GetSupportedYieldTokens | src/services/defillama.ts:85-170 | Fails exactly when either fetch fails, with the message "Failed to fetch supported yield tokens". Otherwise it gives the first token of each id from the sorted candidates |
| DefiLlama.FirstIsBest | src/services/defillama.ts:152-163 | A kept token has total APY at least that of any candidate with the same id |
| DefiLlama.ListedAreBest | src/services/defillama.ts:85-170 | Every listed token comes from a supported pool, and beats every supported pool with its id |
| DefiLlama.ListedIdsExactlyOnce | src/services/defillama.ts:152-163 | Every supported pool's id is listed exactly once, and the list is in descending APY |
| DefiLlama.FormatTvl | src/services/defillama.ts:178-187 | Unit B from 1e9, M from 1e6, K from 1e3, none below. The scaled value times the unit gives back the TVL; with a unit it is ≥ 1, and for M and K it is < 1000 |
| ComparePage.GetRiskLevel | src/pages/Compare.tsx:21-33 | The risk rank is the number of risk factors: IL risk, and TVL under 100M |
| ComparePage.RiskFallsWithTvl | src/pages/Compare.tsx:21-33 | Raising TVL never raises the risk |
| ComparePage.ToggleToken | src/pages/Compare.tsx:57-67 | Only the clicked id can change. It ends selected exactly when it was not and fewer than 4 were selected, so the selection never grows past 4 |
| ComparePage.DisabledIffNoOp | src/pages/Compare.tsx:57-67 | The row is disabled exactly when a click on it would change nothing |
| ComparePage.ToggleTwice | src/pages/Compare.tsx:57-67 | Two clicks on an enabled row restore the selection |
| ComparePage.SelectionStaysSmall | src/pages/Compare.tsx:57-67 | Any click sequence keeps at most 4 selected |
| ComparePage.ComparedTokens | src/pages/Compare.tsx:69 | Without data nothing is compared. Otherwise exactly the listed tokens whose id is selected |
| ComparePage.ComparedKeepsOrder | src/pages/Compare.tsx:69 | The compared tokens keep the catalog order: comparison distributes over concatenation |
| ComparePage.ComparedBounded | src/pages/Compare.tsx:69 | On a list with distinct ids no more tokens are compared than are selected |
| OrderStatus.StatusVariant | src/pages/Portfolio.tsx:71-82 | Never outline. Default exactly for settled and destructive exactly for refunded or expired, ignoring case |
| OrderStatus.StatusIcon | src/pages/Portfolio.tsx:55-69 | The clock icon exactly for pending or processing, ignoring case |
| OrderStatus.VariantMarksTerminal | src/pages/Portfolio.tsx:55-82 | The variant differs from secondary exactly for final statuses. The check and cross icons match the default and destructive variants, and everything ignores case |
| PortfolioPage.AddOrder | src/pages/Portfolio.tsx:114-121 | The trimmed id is appended exactly when it is non-empty and not yet tracked; otherwise the list is unchanged |
| PortfolioPage.AddKeepsDistinct | src/pages/Portfolio.tsx:114-121 | Adding never creates a duplicate |
| PortfolioPage.RemoveOrder | src/pages/Portfolio.tsx:123-125 | The id is gone and every other tracked id remains |
| PortfolioPage.RemoveKeepsOrder | src/pages/Portfolio.tsx:123-125 | Removal distributes over concatenation, so the remaining ids keep their order |
| PortfolioPage.RemoveUndoesAdd | src/pages/Portfolio.tsx:114-125 | Removing the id just added restores the list |
| PortfolioPage.PollInterval | src/pages/Portfolio.tsx:98-107 | Polling stops exactly without data or when every order is final, and otherwise runs every 10 s |
| PortfolioPage.PortfolioStats | src/pages/Portfolio.tsx:127-138 | All counts are 0 before loading. Once loaded, the total is the number of orders, and the settled, in-flight and failed cards count the orders whose status (in any letter case) is settled, pending or processing, and refunded or expired; the three never exceed the total |
| PortfolioPage.BucketsDisjoint | src/pages/Portfolio.tsx:127-138 | The buckets are disjoint, and settled plus failed count exactly the final statuses |
| PortfolioPage.PollStopsIffAllCounted | src/pages/Portfolio.tsx:98-138 | On loaded data polling stops exactly when settled plus failed equals the total |
| OrdersPage.HandleSearch | src/pages/Orders.tsx:16-20 | A non-blank input replaces the searched id with its trimmed form, and a blank one keeps it |
| OrdersPage.SearchIdempotent | src/pages/Orders.tsx:16-20 | Searching the same input twice equals searching once |
| OrdersPage.PollInterval | src/pages/Orders.tsx:31-39 | Polling stops exactly without data or on a final status, and otherwise runs every 10 s |
| OrdersPage.SameRuleAsPortfolio | src/pages/Orders.tsx:31-39 | The single-order rule is the portfolio rule on a one-order list |
| AllCoins.HandleSort | src/pages/AllCoins.tsx:47-54 | Clicking the current column flips the direction, and clicking another column selects it ascending |
| AllCoins.HandleSortTwice | src/pages/AllCoins.tsx:47-54 | Two clicks on the current column restore the state; two on another column leave it descending |
| AllCoins.MatchesFacts | src/pages/AllCoins.tsx:30-34 | The empty query matches every coin, and the search ignores the query's case |
| AllCoins.FilteredAndSortedCoins | src/pages/AllCoins.tsx:28-45 | Without data nothing is shown. Otherwise exactly the non-deprecated coins whose name or ticker contains the query, each at most as often as in the input |
| AllCoins.CoinOrderIsTotalPreorder | src/pages/AllCoins.tsx:35-45 | The network-count orders are always total preorders; the name orders are when the name comparison is one |
| AllCoins.ShownInOrder | src/pages/AllCoins.tsx:28-45 | The shown coins are sorted by the chosen column and direction |
| AllCoins.ResultsCount | src/pages/AllCoins.tsx:160 | "Showing n of m": (0, 0) before loading; n is the number of coins shown by the filter and sort, m counts the non-deprecated coins, and n ≤ m |
| RecommendationsPage.RiskLabel | src/pages/Recommendations.tsx:132-136 | Low for scores ≤ 3, Medium for scores in (3, 6], High above 6 |
| RecommendationsPage.RiskColor | src/pages/Recommendations.tsx:126-130 | One of green, yellow or red |
| RecommendationsPage.LabelAndColorAgree | src/pages/Recommendations.tsx:126-136 | Two scores share a label exactly when they share a colour, and an integer score is Medium exactly for 4-6 |
| RecommendationsPage.ToggleSelect | src/pages/Recommendations.tsx:116-124 | The clicked id flips membership and nothing else changes |
| RecommendationsPage.ToggleSelectInvolution | src/pages/Recommendations.tsx:116-124 | Two clicks on the same id restore the selection, and clicks on different ids commute |
| RecommendationsPage.HandleExecute | src/pages/Recommendations.tsx:103-114 | No call without a wallet address; otherwise one call with that id and address |
| RecommendationsPage.ActionFor | src/pages/Recommendations.tsx:338-357 | The execute button exactly for pending and the executed badge exactly for executed. Any other status shows a badge with its text |
| RecommendationsPage.ExecuteOfferedIffPending | src/pages/Recommendations.tsx:338-357 | Of the stored statuses, only pending offers execution |

## Left out

- Network and SDK calls are parameters: the LLM chain, the axios requests, ethers providers and the Stripe SDK. Their results enter as `Option`s, oracle functions or an `AiReply`. The LLM prompt and the text formatting of positions and yields are not modelled.
- What an ethers provider does when `getProvider` hands it an inherited `Object.prototype` member instead of a URL is not modelled: `WalletScanner.RpcChain` only says that no configured endpoint is read.
- Timestamps are a `Time` parameter. The current-month key of the quota gate and the route's history upsert with the `increment` RPC are not modelled: they only write the counter that `checkRebalanceLimit` reads.
- The one-second delay between batch executions is left out, as are concurrent requests.
- Number formatting (`toFixed`, the `$…` strings) is left out. `formatTvl` returns the scaled value and its unit. `formatApy` is not modelled.
- IEEE floating point is not modelled: rounding, NaN from non-numeric input, `parseFloat`, and signed zero. Reals are exact. Division by zero is modelled where the source divides by a quantity that can be zero (`Breakeven.Div`).
- Case mapping covers ASCII letters only. `localeCompare` is an abstract name comparison, assumed a total preorder where sortedness is proved (`AllCoins.ShownInOrder`).
- AiRecommendations.GenerateRecommendations: the model's reply is not validated item by item (as in the source). The catch path's second read of positions and yields is modelled as returning the same data.
- Billing.ValidateCheckoutPlan: `PLANS[plan]` would also accept inherited object keys such as "toString". The route's explicit list check runs first, and the model follows that check.
- The `POST /generate` route is a stub that returns a message and is not modelled.
- `scanWallet`, `scanWithAlchemy`, `scanWithRPC`'s token loop and `scanProtocolPositions` are not modelled: they are network reads. Only the chain and native-symbol choice of `scanWithRPC` is.
- `getUserPositions` is not modelled. Its result is a parameter of `GenerateRecommendations`.
- The Landing, Vault, Pricing, Account, Swap and Dashboard pages, and the vault and wallet routes, are not modelled.
- RecommendationsPage.RiskColor: the contract states only the colour set. The band of each colour is stated against `RiskLabel` in `LabelAndColorAgree`.
- WalletScanner.InferFrom: the contract states only the length bound. The full characterisation is the separate lemma `InferFromIsPositionsOfKept`, which keeps the recursive proof small.
- AiRecommendations.PerPosition: the contract states only the length bound. Its full characterisation is `PerPositionSpec`.
- Writes whose result the code ignores are modelled as always succeeding: the users-tier updates in backend/src/services/stripe.ts (lines 93-97, 122-136 and 151-155), the cancellation update (lines 145-149) and the two updates of `monitorShiftOrder` in backend/src/services/rebalancing.ts (lines 291-302). A failed one leaves its table unchanged, which the model does not show.
- Single-row reads of a recommendation are assumed to return without a database error: the execute route (backend/src/routes/recommendations.ts:42-51), `executeRebalance` (backend/src/services/rebalancing.ts:157-165) and `simulateRebalance` (backend/src/services/rebalancing.ts:316-324). Each answers a read error as it answers a missing row ("not found"), so the model's not-found cases cover only the missing or duplicated row, not a failed read.
- Billing.Upsert: the upsert names no conflict column, so the database resolves it on the table's unique key, and the schema is not part of this model. The model assumes the key is `user_id`: one subscription row per user. `UpsertIdempotent` and `WebhookIdempotent` rest on that assumption.
- RecommendationRoutes.ListedExactlyOwnPending: rows of equal `net_gain` are stated to keep table order. The database leaves the order of ties unspecified, so that part is a modelling choice, not a promise of the query.

## Findings

| source | as written | input that shows it | evidently intended | confidence | as-written member | corrected member |
|---|---|---|---|---|---|---|
| backend/src/services/wallet-scanner.ts:131-133 | The native symbol compares the raw chain case-sensitively and falls back to AVAX. `getProvider` lower-cases the chain and falls back to the ethereum RPC | chain "Polygon": the balance is read from the polygon RPC but labelled AVAX. Chain "bsc": read from ethereum, labelled AVAX | Label the balance with the native coin of the RPC actually read | medium, not executed | WalletScanner.NativeSymbolAsWritten | WalletScanner.NativeSymbol |

=== FILE: ai_recommendations.dfy ===
/** The recommendation engine of backend/src/services/ai-recommendations.ts:
    the deterministic rule-based generator, the validate-or-fall-back logic
    around the language-model call (whose reply is an input), and the record
    mapping of `saveRecommendations`. */
module AiRecommendations {
  import opened Wrappers
  import opened Seqs
  import opened Text
  import opened Records
  import opened YieldCatalog

  /** A user's current position (`UserPosition`); `balance` is the parsed
      decimal string. */
  datatype Position = Position(
    id: string,
    protocol: string,
    poolId: string,
    asset: string,
    balance: real,
    apy: real,
    tvlUsd: real)

  /** An APY gain must exceed this many percentage points. */
  const MIN_APY_GAIN: real := 2.0
  const MAX_RECOMMENDATIONS: nat := 5
  /** Pools below this TVL add to the risk score. */
  const LOW_TVL: real := 10000000.0
  /** The placeholder amount of a "new deposit" recommendation. */
  const NEW_DEPOSIT_AMOUNT: real := 1000.0
  const DEFAULT_RISK_TOLERANCE: real := 50.0

  // ----------------------------------------------------------- risk filter

  /** The largest pool risk a tolerance accepts. */
  function MaxRisk(riskTolerance: real): int {
    if riskTolerance > 70.0 then 10 else if riskTolerance > 40.0 then 6 else 3
  }

  /** 4 for impermanent-loss risk plus 3 for a small pool. */
  function PoolRisk(y: YieldPool): int {
    (if HasIlRisk(y) then 4 else 0) + (if y.tvlUsd < LOW_TVL then 3 else 0)
  }

  function WithinRisk(maxRisk: int): YieldPool -> bool {
    (y: YieldPool) => PoolRisk(y) <= maxRisk
  }

  /** The pools the fallback may recommend at a tolerance. */
  function RiskFiltered(catalog: seq<YieldPool>, riskTolerance: real): seq<YieldPool> {
    Filter(catalog, WithinRisk(MaxRisk(riskTolerance)))
  }

  /** The risk filter by tolerance band: above 70 everything passes, above 40
      everything but a small pool with impermanent-loss risk, otherwise only
      pools without impermanent-loss risk. */
  lemma RiskBands(y: YieldPool, riskTolerance: real)
    ensures WithinRisk(MaxRisk(riskTolerance))(y)
      <==> if riskTolerance > 70.0 then true
           else if riskTolerance > 40.0 then !(HasIlRisk(y) && y.tvlUsd < LOW_TVL)
           else !HasIlRisk(y)
  {
  }

  /** No pool with impermanent-loss risk survives a tolerance of 40 or less. */
  lemma {:induction false} ConservativeExcludesIlRisk(catalog: seq<YieldPool>, riskTolerance: real)
    requires riskTolerance <= 40.0
    ensures forall y :: y in RiskFiltered(catalog, riskTolerance) ==> !HasIlRisk(y)
  {
    forall y | y in RiskFiltered(catalog, riskTolerance)
      ensures !HasIlRisk(y)
    {
      var i :| 0 <= i < |RiskFiltered(catalog, riskTolerance)| && RiskFiltered(catalog, riskTolerance)[i] == y;
      RiskBands(y, riskTolerance);
    }
  }

  // ------------------------------------------------------ per-position rule

  /** `y` is a better home for the position's asset. */
  predicate Improves(y: YieldPool, pos: Position) {
    Includes(y.symbol, pos.asset) && y.apy > pos.apy + MIN_APY_GAIN
  }

  function ImprovesOn(pos: Position): YieldPool -> bool {
    (y: YieldPool) => Improves(y, pos)
  }

  /** `candidates[j]` is the first candidate improving on `pos`. */
  ghost predicate FirstImproving(candidates: seq<YieldPool>, pos: Position, j: int) {
    && 0 <= j < |candidates|
    && Improves(candidates[j], pos)
    && forall j' :: 0 <= j' < j ==> !Improves(candidates[j'], pos)
  }

  /** No candidate improves on `pos`. */
  ghost predicate NoImprovement(pos: Position, candidates: seq<YieldPool>) {
    forall j :: 0 <= j < |candidates| ==> !Improves(candidates[j], pos)
  }

  /** The draft moves the whole position: its source fields are the
      position's. */
  predicate CopiesPosition(d: Draft, pos: Position) {
    && d.fromPoolId == Some(pos.poolId)
    && d.fromProtocol == Some(pos.protocol)
    && d.asset == pos.asset
    && d.amount == pos.balance
    && d.currentApy == Some(pos.apy)
  }

  /** The yearly gain of moving `amount` from `fromApy` to `toApy` (APYs in
      percent). */
  function YearlyGain(amount: real, fromApy: real, toApy: real): real {
    amount * (toApy - fromApy) / 100.0
  }

  /** The draft targets `y`, with the yearly gain of moving the balance and
      risk score 6 for impermanent-loss risk, 3 otherwise. */
  predicate MovesTo(d: Draft, pos: Position, y: YieldPool) {
    && d.toPoolId == y.pool
    && d.toProtocol == y.project
    && d.targetApy == y.apy
    && d.netGain == YearlyGain(pos.balance, pos.apy, y.apy)
    && d.riskScore == (if HasIlRisk(y) then 6 else 3)
  }

  /** `d` is the recommendation the rule makes for `pos`. */
  ghost predicate BestDraftFor(d: Draft, pos: Position, candidates: seq<YieldPool>) {
    exists j :: FirstImproving(candidates, pos, j) && CopiesPosition(d, pos) && MovesTo(d, pos, candidates[j])
  }

  function PositionDraft(pos: Position, best: YieldPool): Draft {
    Draft(
      Some(pos.poolId), Some(pos.protocol), best.pool, best.project, pos.asset,
      pos.balance, Some(pos.apy), best.apy,
      YearlyGain(pos.balance, pos.apy, best.apy),
      if HasIlRisk(best) then 6 else 3,
      HigherApy(best.apy, pos.apy, best.apy - pos.apy))
  }

  /** The rule for one position: the first candidate improving on it, if
      any. */
  function DraftFor(pos: Position, candidates: seq<YieldPool>): (r: seq<Draft>)
    ensures |r| <= 1
    ensures |r| == 1 ==> BestDraftFor(r[0], pos, candidates)
    ensures |r| == 0 <==> NoImprovement(pos, candidates)
  {
    match FindFirst(candidates, ImprovesOn(pos))
    case None => []
    case Some(j) =>
      var d := PositionDraft(pos, candidates[j]);
      assert FirstImproving(candidates, pos, j) && CopiesPosition(d, pos) && MovesTo(d, pos, candidates[j]);
      [d]
  }

  /** The rule applied to each position in turn, before the cap. */
  function PerPosition(positions: seq<Position>, candidates: seq<YieldPool>): (r: seq<Draft>)
    ensures |r| <= |positions|
  {
    if |positions| == 0 then []
    else DraftFor(positions[0], candidates) + PerPosition(positions[1..], candidates)
  }

  /** `idx` maps every draft of `r` to its position, in increasing position
      order, each draft being its position's best move, and every position
      without a draft has no improving candidate. */
  ghost predicate IndexedBy(r: seq<Draft>, idx: seq<nat>, positions: seq<Position>, candidates: seq<YieldPool>) {
    && |idx| == |r|
    && (forall k :: 0 <= k < |idx| ==> idx[k] < |positions|)
    && (forall k, l :: 0 <= k < l < |idx| ==> idx[k] < idx[l])
    && (forall k :: 0 <= k < |idx| ==> BestDraftFor(r[k], positions[idx[k]], candidates))
    && (forall i :: 0 <= i < |positions| && i !in idx ==> NoImprovement(positions[i], candidates))
  }

  /** With no candidate no position is drafted. */
  lemma {:induction false} PerPositionNoCandidates(positions: seq<Position>)
    ensures PerPosition(positions, []) == []
    decreases |positions|
  {
    if |positions| > 0 {
      PerPositionNoCandidates(positions[1..]);
    }
  }

  /** An indexing of the drafts of `positions[1..]`, shifted by one, indexes
      the same drafts against `positions`, leaving position 0 out. */
  lemma ShiftIndex(positions: seq<Position>, candidates: seq<YieldPool>, rest: seq<Draft>, tailIdx: seq<nat>)
    returns (shifted: seq<nat>)
    requires |positions| > 0
    requires IndexedBy(rest, tailIdx, positions[1..], candidates)
    ensures |shifted| == |rest|
    ensures forall k :: 0 <= k < |shifted| ==> 0 < shifted[k] < |positions|
    ensures forall k, l :: 0 <= k < l < |shifted| ==> shifted[k] < shifted[l]
    ensures forall k :: 0 <= k < |shifted| ==> BestDraftFor(rest[k], positions[shifted[k]], candidates)
    ensures forall i :: 1 <= i < |positions| && i !in shifted ==> NoImprovement(positions[i], candidates)
  {
    shifted := seq(|tailIdx|, k requires 0 <= k < |tailIdx| => tailIdx[k] + 1);
    forall k | 0 <= k < |shifted|
      ensures BestDraftFor(rest[k], positions[shifted[k]], candidates)
    {
      assert positions[shifted[k]] == positions[1..][tailIdx[k]];
    }
    forall i | 1 <= i < |positions| && i !in shifted
      ensures NoImprovement(positions[i], candidates)
    {
      assert i - 1 !in tailIdx by {
        forall k | 0 <= k < |tailIdx|
          ensures tailIdx[k] != i - 1
        {
          assert shifted[k] == tailIdx[k] + 1;
        }
      }
      assert positions[i] == positions[1..][i - 1];
    }
  }

  /** Each position yields at most one recommendation, in position order, and
      a position yields none only when no candidate improves on it. */
  lemma {:induction false} PerPositionSpec(positions: seq<Position>, candidates: seq<YieldPool>)
    returns (idx: seq<nat>)
    ensures IndexedBy(PerPosition(positions, candidates), idx, positions, candidates)
    decreases |positions|
  {
    if |positions| == 0 {
      idx := [];
    } else {
      var tailIdx := PerPositionSpec(positions[1..], candidates);
      var rest := PerPosition(positions[1..], candidates);
      var head := DraftFor(positions[0], candidates);
      var shifted := ShiftIndex(positions, candidates, rest, tailIdx);
      var r := PerPosition(positions, candidates);
      assert r == head + rest;
      if |head| == 0 {
        idx := shifted;
        assert r == rest;
        assert 0 !in idx;
      } else {
        idx := [0] + shifted;
        PrependIndex(head, rest, shifted);
        forall k | 0 <= k < |idx|
          ensures BestDraftFor(r[k], positions[idx[k]], candidates)
        {
          if k > 0 {
            assert r[k] == rest[k - 1] && idx[k] == shifted[k - 1];
          }
        }
        forall i | 0 <= i < |positions| && i !in idx
          ensures NoImprovement(positions[i], candidates)
        {
          assert i >= 1 && i !in shifted;
        }
      }
    }
  }

  /** Index bookkeeping for a draft put in front of the later ones. */
  lemma PrependIndex<D>(head: seq<D>, rest: seq<D>, shifted: seq<nat>)
    requires |head| == 1 && |shifted| == |rest|
    requires forall k :: 0 <= k < |shifted| ==> 0 < shifted[k]
    requires forall k, l :: 0 <= k < l < |shifted| ==> shifted[k] < shifted[l]
    ensures forall k, l :: 0 <= k < l < |[0] + shifted| ==> ([0] + shifted)[k] < ([0] + shifted)[l]
    ensures forall k :: 0 < k < |[0] + shifted| ==>
              (head + rest)[k] == rest[k - 1] && ([0] + shifted)[k] == shifted[k - 1]
    ensures 0 in [0] + shifted
  {
  }

  // --------------------------------------------------- new-deposit rule

  /** The pool looks like a stablecoin pool (`USDC`, `USDT` or `DAI`). */
  predicate IsStablecoinPool(y: YieldPool) {
    Includes(y.symbol, "USDC") || Includes(y.symbol, "USDT") || Includes(y.symbol, "DAI")
  }

  function StablecoinPool(): YieldPool -> bool {
    (y: YieldPool) => IsStablecoinPool(y)
  }

  /** The "new deposit" recommendation for pool `y`: no source, a reference
      amount of 1000, the yearly gain on that amount, and risk score 5 for
      impermanent-loss risk, 2 otherwise. */
  predicate IsNewDeposit(d: Draft, y: YieldPool) {
    && d.fromPoolId.None?
    && d.fromProtocol.None?
    && d.currentApy.None?
    && d.toPoolId == y.pool
    && d.toProtocol == y.project
    && d.asset == y.symbol
    && d.amount == NEW_DEPOSIT_AMOUNT
    && d.targetApy == y.apy
    && d.netGain == 10.0 * y.apy
    && d.riskScore == (if HasIlRisk(y) then 5 else 2)
  }

  function NewDepositDraft(y: YieldPool): Draft {
    Draft(None, None, y.pool, y.project, y.symbol, NEW_DEPOSIT_AMOUNT, None, y.apy,
          NEW_DEPOSIT_AMOUNT * (y.apy / 100.0),
          if HasIlRisk(y) then 5 else 2,
          TopStablecoin(y.apy, y.project))
  }

  // --------------------------------------------------------------- fallback

  /** `candidates[j]` is the first stablecoin pool among the candidates. */
  ghost predicate FirstStablecoin(candidates: seq<YieldPool>, j: int) {
    && 0 <= j < |candidates|
    && IsStablecoinPool(candidates[j])
    && forall j' :: 0 <= j' < j ==> !IsStablecoinPool(candidates[j'])
  }

  /** The recommendation for a user without positions: a new deposit into the
      first stablecoin pool, if there is one. */
  function NewDepositFor(candidates: seq<YieldPool>): (r: seq<Draft>)
    ensures |r| <= 1
    ensures |r| == 1 <==> exists j :: 0 <= j < |candidates| && IsStablecoinPool(candidates[j])
    ensures |r| == 1 ==> exists j :: FirstStablecoin(candidates, j) && IsNewDeposit(r[0], candidates[j])
  {
    match FindFirst(candidates, StablecoinPool())
    case None => []
    case Some(j) =>
      var d := NewDepositDraft(candidates[j]);
      assert FirstStablecoin(candidates, j) && IsNewDeposit(d, candidates[j]);
      [d]
  }

  /** `generateFallbackRecommendations`: the per-position rule, or for a user
      without positions the first stablecoin pool that passes the risk
      filter; capped at five. */
  function Fallback(positions: seq<Position>, catalog: seq<YieldPool>, riskTolerance: real): (r: seq<Draft>)
    ensures |r| <= MAX_RECOMMENDATIONS
    ensures |catalog| == 0 ==> r == []
    ensures |positions| > 0 ==>
      var all := PerPosition(positions, RiskFiltered(catalog, riskTolerance));
      |r| == Min(MAX_RECOMMENDATIONS, |all|) && r == all[..|r|]
    ensures |positions| == 0 ==> r == NewDepositFor(RiskFiltered(catalog, riskTolerance))
  {
    var candidates := RiskFiltered(catalog, riskTolerance);
    if |positions| == 0 then
      NewDepositFor(candidates)
    else
      PerPositionNoCandidates(positions);
      var all := PerPosition(positions, candidates);
      all[..Min(MAX_RECOMMENDATIONS, |all|)]
  }

  /** The capped fallback keeps the per-position rule's meaning: each
      recommendation belongs to a distinct position, in position order, and is
      that position's best move. */
  lemma FallbackDraftsFromPositions(positions: seq<Position>, catalog: seq<YieldPool>, riskTolerance: real)
    returns (idx: seq<nat>)
    requires |positions| > 0
    ensures var r := Fallback(positions, catalog, riskTolerance);
      && |idx| == |r|
      && (forall k, l :: 0 <= k < l < |idx| ==> idx[k] < idx[l])
      && (forall k :: 0 <= k < |idx| ==> idx[k] < |positions|)
      && (forall k :: 0 <= k < |idx| ==>
            BestDraftFor(r[k], positions[idx[k]], RiskFiltered(catalog, riskTolerance)))
  {
    var all := PerPositionSpec(positions, RiskFiltered(catalog, riskTolerance));
    var r := Fallback(positions, catalog, riskTolerance);
    idx := all[..|r|];
  }

  // ---------------------------------------------------- generate + validate

  /** The language model's reply after JSON parsing: an object with a
      `recommendations` array, anything else, or an error thrown by the call. */
  datatype AiReply = Batch(recommendations: seq<Draft>) | Malformed | CallFailed

  /** `generateRecommendations`: with an empty catalogue the call throws and
      the catch path falls back; a reply carrying a `recommendations` array is
      returned as it is (no cap); any other reply falls back. Positions and
      catalogue are the store's and the fetch's contents; the catch path's
      re-read sees the same data. */
  function GenerateRecommendations(
    positions: seq<Position>, fetched: Option<seq<YieldPool>>,
    riskTolerance: real, ai: AiReply): (r: seq<Draft>)
    ensures var available := FetchTopYields(fetched, DEFAULT_MIN_TVL, DEFAULT_LIMIT);
      && (|available| > 0 && ai.Batch? ==> r == ai.recommendations)
      && (|available| == 0 || !ai.Batch? ==> r == Fallback(positions, available, riskTolerance))
    ensures fetched.None? ==> r == []
    ensures !ai.Batch? ==> |r| <= MAX_RECOMMENDATIONS
  {
    var available := FetchTopYields(fetched, DEFAULT_MIN_TVL, DEFAULT_LIMIT);
    if |available| == 0 then
      Fallback(positions, available, riskTolerance)
    else
      match ai
      case Batch(recs) => recs
      case _ => Fallback(positions, available, riskTolerance)
  }

  // ------------------------------------------------------------------ save

  /** `saveRecommendations`: inserts one pending row per draft, ids supplied
      by the database (`newId(k)` for the k-th draft), and deletes nothing;
      a failed insert throws and writes nothing. */
  function SaveRecommendations(
    s: Store, userId: string, drafts: seq<Draft>, newId: nat -> string, insertOk: bool): (r: Result<Store, string>)
    ensures !insertOk ==> r.Failure?
    ensures insertOk ==> r.Success?
    ensures r.Success? ==>
      && |r.value.recommendations| == |s.recommendations| + |drafts|
      && r.value.recommendations[..|s.recommendations|] == s.recommendations
      && r.value.history == s.history
      && forall k :: 0 <= k < |drafts| ==>
           var row := r.value.recommendations[|s.recommendations| + k];
           && row.id == newId(k) && row.userId == userId && row.body == drafts[k]
           && row.status == Pending && row.shiftId.None? && row.executedAt.None?
  {
    if !insertOk then Failure("Failed to save recommendations")
    else
      var rows := seq(|drafts|, k requires 0 <= k < |drafts| =>
        Recommendation(newId(k), userId, drafts[k], Pending, None, None, None));
      Success(Store(s.recommendations + rows, s.history))
  }

  /** Generating again does not clear earlier pending recommendations: every
      row present before a save is still there, unchanged, afterwards. */
  lemma SaveKeepsPending(s: Store, userId: string, drafts: seq<Draft>, newId: nat -> string, rec: Recommendation)
    requires rec in s.recommendations
    ensures rec in SaveRecommendations(s, userId, drafts, newId, true).value.recommendations
  {
    var t := SaveRecommendations(s, userId, drafts, newId, true).value.recommendations;
    assert t[..|s.recommendations|] == s.recommendations;
  }
}

=== FILE: all_coins.dfy ===
/** The coin table of src/pages/AllCoins.tsx: search, the two sort columns,
    the column-header toggle, and the results count. `localeCompare` is a
    parameter: `nameLeq(a, b)` says `a.localeCompare(b) <= 0`. */
module AllCoins {
  import opened Wrappers
  import opened Seqs
  import opened Sorting
  import opened Text

  datatype Coin = Coin(coin: string, name: string, networks: seq<string>, deprecated: bool)

  datatype Column = ByName | ByNetworks
  datatype Direction = Asc | Desc

  /** The `sortBy` and `sortOrder` state. */
  datatype SortState = SortState(column: Column, direction: Direction)

  /** The initial state: by name, ascending. */
  const INITIAL: SortState := SortState(ByName, Asc)

  function Flip(d: Direction): Direction {
    if d == Asc then Desc else Asc
  }

  /** `handleSort(column)`: the current column flips direction; another
      column becomes current, ascending. */
  function HandleSort(st: SortState, column: Column): (r: SortState)
    ensures r.column == column
    ensures st.column == column ==> r.direction != st.direction
    ensures st.column != column ==> r.direction == Asc
  {
    if st.column == column then SortState(column, Flip(st.direction))
    else SortState(column, Asc)
  }

  /** Clicking the current column twice restores the state; a new column is
      ascending and a second click makes it descending. */
  lemma HandleSortTwice(st: SortState, column: Column)
    ensures st.column == column ==> HandleSort(HandleSort(st, column), column) == st
    ensures st.column != column ==> HandleSort(HandleSort(st, column), column) == SortState(column, Desc)
  {
  }

  /** The search filter: the lower-cased name or coin id contains the
      lower-cased query. */
  predicate Matches(c: Coin, query: string) {
    Includes(ToLower(c.name), ToLower(query)) || Includes(ToLower(c.coin), ToLower(query))
  }

  /** The empty query matches every coin, and the query's letter case does
      not matter. */
  lemma MatchesFacts(c: Coin, query: string)
    ensures Matches(c, "")
    ensures Matches(c, ToUpper(query)) == Matches(c, query)
  {
    IncludesEmpty(ToLower(c.name));
    assert ToLower("") == "";
    ToLowerAfterToUpper(query);
  }

  function Listed(): Coin -> bool {
    (c: Coin) => !c.deprecated
  }

  function MatchesQuery(query: string): Coin -> bool {
    (c: Coin) => Matches(c, query)
  }

  /** The comparator for the current state as "may come first": by name with
      the locale order, reversed for descending; by network count, ascending
      or descending. */
  function CoinOrder(st: SortState, nameLeq: (string, string) -> bool): (Coin, Coin) -> bool {
    match st
    case SortState(ByName, Asc) => (a: Coin, b: Coin) => nameLeq(a.name, b.name)
    case SortState(ByName, Desc) => (a: Coin, b: Coin) => nameLeq(b.name, a.name)
    case SortState(ByNetworks, Asc) => (a: Coin, b: Coin) => |a.networks| <= |b.networks|
    case SortState(ByNetworks, Desc) => (a: Coin, b: Coin) => |a.networks| >= |b.networks|
  }

  /** `filteredAndSortedCoins`: the listed coins matching the query, sorted;
      nothing before the coins have loaded. */
  function FilteredAndSortedCoins(coins: Option<seq<Coin>>, query: string, st: SortState,
                                  nameLeq: (string, string) -> bool): (r: seq<Coin>)
    ensures coins.None? ==> r == []
    ensures coins.Some? ==> forall c :: c in r <==> c in coins.value && !c.deprecated && Matches(c, query)
    ensures coins.Some? ==> multiset(r) <= multiset(coins.value)
  {
    match coins
    case None => []
    case Some(cs) =>
      var found := Filter(Filter(cs, Listed()), MatchesQuery(query));
      var r := SortBy(found, CoinOrder(st, nameLeq));
      FoundMembers(cs, query);
      forall c ensures c in r <==> c in found {
        assert c in r <==> c in multiset(r);
        assert c in found <==> c in multiset(found);
      }
      r
  }

  /** The listed coins matching the query are exactly the coins that are not
      deprecated and match. */
  lemma FoundMembers(cs: seq<Coin>, query: string)
    ensures forall c :: c in Filter(Filter(cs, Listed()), MatchesQuery(query)) <==> c in cs && !c.deprecated && Matches(c, query)
  {
    var listed := Filter(cs, Listed());
    var found := Filter(listed, MatchesQuery(query));
    forall c | c in cs && !c.deprecated && Matches(c, query)
      ensures c in found
    {
      var i :| 0 <= i < |cs| && cs[i] == c;
      assert Listed()(cs[i]);
      var j :| 0 <= j < |listed| && listed[j] == c;
      assert MatchesQuery(query)(listed[j]);
    }
    forall c | c in found
      ensures c in cs && !c.deprecated && Matches(c, query)
    {
      var j :| 0 <= j < |found| && found[j] == c;
      assert c in listed && MatchesQuery(query)(c);
      var i :| 0 <= i < |listed| && listed[i] == c;
      assert c in cs && Listed()(c);
    }
  }

  /** `localeCompare` is assumed consistent: total and transitive. */
  ghost predicate NameOrder(nameLeq: (string, string) -> bool) {
    && (forall a, b :: nameLeq(a, b) || nameLeq(b, a))
    && (forall a, b, c :: nameLeq(a, b) && nameLeq(b, c) ==> nameLeq(a, c))
  }

  /** Every comparator of the page is consistent, the name orders under a
      consistent locale order. */
  lemma CoinOrderIsTotalPreorder(st: SortState, nameLeq: (string, string) -> bool)
    requires st.column == ByNetworks || NameOrder(nameLeq)
    ensures TotalPreorder(CoinOrder(st, nameLeq))
  {
    var geq := CoinOrder(st, nameLeq);
    forall a: Coin, b: Coin
      ensures geq(a, b) || geq(b, a)
    {
      if st.column == ByName {
        assert nameLeq(a.name, b.name) || nameLeq(b.name, a.name);
      }
    }
    forall a: Coin, b: Coin, c: Coin | geq(a, b) && geq(b, c)
      ensures geq(a, c)
    {
      if st.column == ByName {
        if st.direction == Asc {
          assert nameLeq(a.name, b.name) && nameLeq(b.name, c.name);
        } else {
          assert nameLeq(c.name, b.name) && nameLeq(b.name, a.name);
        }
      }
    }
  }

  /** The shown coins are in the chosen order: by network count, or by name
      under a consistent locale order. */
  lemma ShownInOrder(coins: seq<Coin>, query: string, st: SortState, nameLeq: (string, string) -> bool)
    requires st.column == ByNetworks || NameOrder(nameLeq)
    ensures SortedBy(FilteredAndSortedCoins(Some(coins), query, st, nameLeq), CoinOrder(st, nameLeq))
  {
    var found := Filter(Filter(coins, Listed()), MatchesQuery(query));
    CoinOrderIsTotalPreorder(st, nameLeq);
    SortBySorted(found, CoinOrder(st, nameLeq));
  }

  /** "Showing n of m coins": the two counts, 0 before loading. */
  function ResultsCount(coins: Option<seq<Coin>>, query: string, st: SortState,
                        nameLeq: (string, string) -> bool): (r: (nat, nat))
    ensures r.0 <= r.1
    ensures coins.None? ==> r == (0, 0)
    ensures coins.Some? ==> r.0 == |FilteredAndSortedCoins(coins, query, st, nameLeq)|
    ensures coins.Some? ==> r.1 == Count(coins.value, Listed())
  {
    match coins
    case None => (0, 0)
    case Some(cs) =>
      ShownCount(cs, query, st, nameLeq);
      (|FilteredAndSortedCoins(coins, query, st, nameLeq)|, |Filter(cs, Listed())|)
  }

  /** Sorting keeps the number of coins found. */
  lemma ShownCount(cs: seq<Coin>, query: string, st: SortState, nameLeq: (string, string) -> bool)
    ensures |FilteredAndSortedCoins(Some(cs), query, st, nameLeq)| == |Filter(Filter(cs, Listed()), MatchesQuery(query))|
    ensures |FilteredAndSortedCoins(Some(cs), query, st, nameLeq)| <= |Filter(cs, Listed())|
  {
  }
}

=== FILE: billing.dfy ===
/** Subscription billing of backend/src/services/stripe.ts and the checkout
    check of backend/src/routes/subscriptions.ts: how the payment
    provider's webhook events change the `subscriptions` table and the users'
    tiers. The provider's API and the signature check are left to the
    caller; an event reaches the model already parsed. */
module Billing {
  import opened Wrappers
  import opened Records
  import opened Entitlement

  /** A row of `subscriptions` (periods are not modelled). A plan sent as
      `undefined` is never written, so a fresh row may have none. */
  datatype SubscriptionRow = SubscriptionRow(
    userId: string,
    customerId: string,
    subscriptionId: string,
    plan: Option<string>,
    status: string,
    cancelAtPeriodEnd: bool)

  datatype Billing = Billing(users: seq<User>, subscriptions: seq<SubscriptionRow>)

  /** The plans sold at checkout. */
  predicate IsPaidPlan(plan: string) {
    plan == "starter" || plan == "professional"
  }

  /** The checkout route's plan check (400 for anything but the two paid
      plans); `createCheckoutSession` repeats it. */
  function ValidateCheckoutPlan(plan: string): (r: Result<Plan, string>)
    ensures r.Success? <==> IsPaidPlan(plan)
    ensures r.Success? ==> PlanName(r.value) == plan && PlanRank(r.value) in {1, 2}
  {
    if plan == "starter" then Success(Starter)
    else if plan == "professional" then Success(Professional)
    else Failure("Invalid plan")
  }

  /** A subscription object of the provider, with its `metadata` fields. */
  datatype Subscription = Subscription(
    id: string,
    status: string,
    cancelAtPeriodEnd: bool,
    metaUserId: Option<string>,
    metaPlan: Option<string>)

  /** A completed checkout session, with its metadata. */
  datatype Session = Session(customer: string, subscription: string, metaUserId: string, metaPlan: Option<string>)

  /** The events the webhook switches on, and any other. A completed
      checkout carries the subscription the handler retrieves for it, or
      `None` when retrieving it throws. */
  datatype Event =
    | CheckoutCompleted(session: Session, retrieved: Option<Subscription>)
    | SubscriptionUpdated(subscription: Subscription)
    | SubscriptionDeleted(subscription: Subscription)
    | InvoicePaymentSucceeded
    | InvoicePaymentFailed
    | OtherEvent(kind: string)

  /** Error outcomes of the two writes whose errors the handlers throw: the
      checkout upsert and the subscription update. */
  datatype WriteErrors = WriteErrors(upsertOk: bool, updateOk: bool)

  function SetTier(tier: string): User -> User {
    (u: User) => u.(tier := tier)
  }

  function UserIs(id: string): User -> bool {
    (u: User) => u.id == id
  }

  /** `.update({ subscription_tier: tier }).eq('id', userId)`; an
      `undefined` tier or user id matches or writes nothing. */
  function UpdateTier(users: seq<User>, userId: Option<string>, tier: Option<string>): (r: seq<User>)
    ensures |r| == |users|
    ensures forall i :: 0 <= i < |users| ==>
      r[i] == if userId == Some(users[i].id) && tier.Some? then users[i].(tier := tier.value) else users[i]
  {
    if userId.None? || tier.None? then users
    else UpdateWhere(users, UserIs(userId.value), SetTier(tier.value))
  }

  function SubscriptionIs(subscriptionId: string): SubscriptionRow -> bool {
    (row: SubscriptionRow) => row.subscriptionId == subscriptionId
  }

  function OfUser(userId: string): SubscriptionRow -> bool {
    (row: SubscriptionRow) => row.userId == userId
  }

  /** The columns an upsert writes over an existing row; a missing plan is
      not written. */
  function Merge(row: SubscriptionRow, customerId: string, subscriptionId: string, plan: Option<string>,
                 status: string, cancelAtPeriodEnd: bool): SubscriptionRow {
    row.(customerId := customerId, subscriptionId := subscriptionId,
         plan := if plan.Some? then plan else row.plan,
         status := status, cancelAtPeriodEnd := cancelAtPeriodEnd)
  }

  function MergeInto(customerId: string, subscriptionId: string, plan: Option<string>,
                     status: string, cancelAtPeriodEnd: bool): SubscriptionRow -> SubscriptionRow {
    (row: SubscriptionRow) => Merge(row, customerId, subscriptionId, plan, status, cancelAtPeriodEnd)
  }

  /** `subscriptions.upsert(...)` keyed by the user: the user's rows are
      overwritten, or a row is added when there is none. */
  function Upsert(rows: seq<SubscriptionRow>, userId: string, customerId: string, subscriptionId: string,
                  plan: Option<string>, status: string, cancelAtPeriodEnd: bool): (r: seq<SubscriptionRow>)
    ensures exists i :: 0 <= i < |r| && r[i].userId == userId && r[i].customerId == customerId &&
                        r[i].subscriptionId == subscriptionId && r[i].status == status &&
                        r[i].cancelAtPeriodEnd == cancelAtPeriodEnd && (plan.Some? ==> r[i].plan == plan)
    ensures forall i :: 0 <= i < |rows| && rows[i].userId != userId ==> i < |r| && r[i] == rows[i]
    ensures (exists i :: 0 <= i < |rows| && rows[i].userId == userId) ==>
      && |r| == |rows|
      && forall i :: 0 <= i < |rows| && rows[i].userId == userId ==>
           r[i] == Merge(rows[i], customerId, subscriptionId, plan, status, cancelAtPeriodEnd)
    ensures (forall i :: 0 <= i < |rows| ==> rows[i].userId != userId) ==>
      r == rows + [SubscriptionRow(userId, customerId, subscriptionId, plan, status, cancelAtPeriodEnd)]
  {
    var f := MergeInto(customerId, subscriptionId, plan, status, cancelAtPeriodEnd);
    if exists i :: 0 <= i < |rows| && rows[i].userId == userId then
      var i :| 0 <= i < |rows| && rows[i].userId == userId;
      var r := UpdateWhere(rows, OfUser(userId), f);
      assert r[i] == f(rows[i]);
      r
    else
      var r := rows + [SubscriptionRow(userId, customerId, subscriptionId, plan, status, cancelAtPeriodEnd)];
      assert r[|rows|].userId == userId;
      r
  }

  function ApplyUpdate(status: string, cancelAtPeriodEnd: bool, plan: string): SubscriptionRow -> SubscriptionRow {
    (row: SubscriptionRow) => row.(status := status, cancelAtPeriodEnd := cancelAtPeriodEnd, plan := Some(plan))
  }

  function MarkCanceled(): SubscriptionRow -> SubscriptionRow {
    (row: SubscriptionRow) => row.(status := "canceled")
  }

  /** `plan || 'starter'`. */
  function PlanOrStarter(plan: Option<string>): string {
    if Truthy(plan) then plan.value else "starter"
  }

  /** The tier written for an updated subscription: its plan when active
      with a plan, free when canceled or unpaid, none otherwise. */
  function TierAfterUpdate(sub: Subscription): (t: Option<string>)
    ensures t.Some? <==> (sub.status == "active" && Truthy(sub.metaPlan)) || sub.status in {"canceled", "unpaid"}
  {
    if sub.status == "active" && Truthy(sub.metaPlan) then sub.metaPlan
    else if sub.status in {"canceled", "unpaid"} then Some("free")
    else None
  }

  /** `handleStripeWebhook(event)`; `Failure` is a thrown error (the route
      answers 500). */
  function HandleStripeWebhook(db: Billing, event: Event, errors: WriteErrors): (r: Result<Billing, string>)
    ensures r.Failure? <==> (event.CheckoutCompleted? && (event.retrieved.None? || !errors.upsertOk))
                            || (event.SubscriptionUpdated? && !errors.updateOk)
    ensures event.InvoicePaymentSucceeded? || event.InvoicePaymentFailed? || event.OtherEvent? ==> r == Success(db)
    ensures r.Success? ==>
      && |r.value.users| == |db.users|
      && forall i :: 0 <= i < |db.users| ==> r.value.users[i].id == db.users[i].id
    ensures r.Success? && event.SubscriptionDeleted? ==>
      && |r.value.subscriptions| == |db.subscriptions|
      && (forall i :: 0 <= i < |db.subscriptions| ==>
            r.value.subscriptions[i] ==
              if db.subscriptions[i].subscriptionId == event.subscription.id
              then db.subscriptions[i].(status := "canceled") else db.subscriptions[i])
      && (forall i :: 0 <= i < |db.users| ==>
            r.value.users[i] ==
              if event.subscription.metaUserId == Some(db.users[i].id)
              then db.users[i].(tier := "free") else db.users[i])
    ensures r.Success? && event.SubscriptionUpdated? ==>
      && |r.value.subscriptions| == |db.subscriptions|
      && (forall i :: 0 <= i < |db.subscriptions| ==>
            r.value.subscriptions[i] ==
              if db.subscriptions[i].subscriptionId == event.subscription.id
              then db.subscriptions[i].(status := event.subscription.status,
                                        cancelAtPeriodEnd := event.subscription.cancelAtPeriodEnd,
                                        plan := Some(PlanOrStarter(event.subscription.metaPlan)))
              else db.subscriptions[i])
      && (forall i :: 0 <= i < |db.users| ==>
            r.value.users[i].tier ==
              if event.subscription.metaUserId == Some(db.users[i].id) && TierAfterUpdate(event.subscription).Some?
              then TierAfterUpdate(event.subscription).value else db.users[i].tier)
    ensures r.Success? && event.CheckoutCompleted? ==>
      && r.value.subscriptions ==
           Upsert(db.subscriptions, event.session.metaUserId, event.session.customer, event.session.subscription,
                  event.session.metaPlan, event.retrieved.value.status, event.retrieved.value.cancelAtPeriodEnd)
      && forall i :: 0 <= i < |db.users| ==>
           r.value.users[i].tier ==
             if db.users[i].id == event.session.metaUserId && event.session.metaPlan.Some?
             then event.session.metaPlan.value else db.users[i].tier
  {
    match event
    case CheckoutCompleted(session, retrieved) =>
      if retrieved.None? then Failure("Error retrieving subscription")
      else if !errors.upsertOk then Failure("Error creating subscription")
      else
        var sub := retrieved.value;
        var subs := Upsert(db.subscriptions, session.metaUserId, session.customer, session.subscription,
                           session.metaPlan, sub.status, sub.cancelAtPeriodEnd);
        Success(Billing(UpdateTier(db.users, Some(session.metaUserId), session.metaPlan), subs))
    case SubscriptionUpdated(sub) =>
      if !errors.updateOk then Failure("Error updating subscription")
      else
        var subs := UpdateWhere(db.subscriptions, SubscriptionIs(sub.id),
                                ApplyUpdate(sub.status, sub.cancelAtPeriodEnd, PlanOrStarter(sub.metaPlan)));
        Success(Billing(UpdateTier(db.users, sub.metaUserId, TierAfterUpdate(sub)), subs))
    case SubscriptionDeleted(sub) =>
      var subs := UpdateWhere(db.subscriptions, SubscriptionIs(sub.id), MarkCanceled());
      Success(Billing(UpdateTier(db.users, sub.metaUserId, Some("free")), subs))
    case InvoicePaymentSucceeded => Success(db)
    case InvoicePaymentFailed => Success(db)
    case OtherEvent(_) => Success(db)
  }

  /** A `past_due` (or `trialing`, `incomplete`) update changes no tier: the
      user keeps the paid plan while payment is overdue. */
  lemma PastDueKeepsTier(db: Billing, sub: Subscription, errors: WriteErrors)
    requires errors.updateOk
    requires sub.status !in {"active", "canceled", "unpaid"}
    ensures HandleStripeWebhook(db, SubscriptionUpdated(sub), errors).value.users == db.users
  {
    var r := HandleStripeWebhook(db, SubscriptionUpdated(sub), errors).value.users;
    assert forall i :: 0 <= i < |db.users| ==> r[i] == db.users[i];
  }

  /** Tiers stay within the plan hierarchy when every plan carried by an
      event is one the checkout accepts. */
  lemma TiersStayKnown(db: Billing, event: Event, errors: WriteErrors)
    requires forall i :: 0 <= i < |db.users| ==> KnownTier(db.users[i].tier)
    requires event.CheckoutCompleted? && event.session.metaPlan.Some? ==> IsPaidPlan(event.session.metaPlan.value)
    requires event.SubscriptionUpdated? && Truthy(event.subscription.metaPlan) ==>
               IsPaidPlan(event.subscription.metaPlan.value)
    requires HandleStripeWebhook(db, event, errors).Success?
    ensures var users := HandleStripeWebhook(db, event, errors).value.users;
      forall i :: 0 <= i < |users| ==> KnownTier(users[i].tier)
  {
  }

  /** Delivering the same event twice leaves the tables as one delivery does,
      so the provider's retries are harmless. */
  lemma WebhookIdempotent(db: Billing, event: Event, errors: WriteErrors)
    requires HandleStripeWebhook(db, event, errors).Success?
    ensures var once := HandleStripeWebhook(db, event, errors).value;
      HandleStripeWebhook(once, event, errors) == Success(once)
  {
    var once := HandleStripeWebhook(db, event, errors).value;
    var twice := HandleStripeWebhook(once, event, errors).value;
    assert twice.users == once.users;
    match event
    case CheckoutCompleted(session, sub) =>
      UpsertIdempotent(db.subscriptions, session.metaUserId, session.customer, session.subscription,
                       session.metaPlan, sub.value.status, sub.value.cancelAtPeriodEnd);
    case SubscriptionUpdated(sub) =>
      UpdateWhereIdempotent(db.subscriptions, SubscriptionIs(sub.id),
                            ApplyUpdate(sub.status, sub.cancelAtPeriodEnd, PlanOrStarter(sub.metaPlan)));
    case SubscriptionDeleted(sub) =>
      UpdateWhereIdempotent(db.subscriptions, SubscriptionIs(sub.id), MarkCanceled());
    case _ =>
  }

  lemma UpsertIdempotent(rows: seq<SubscriptionRow>, userId: string, customerId: string, subscriptionId: string,
                         plan: Option<string>, status: string, cancelAtPeriodEnd: bool)
    ensures var once := Upsert(rows, userId, customerId, subscriptionId, plan, status, cancelAtPeriodEnd);
      Upsert(once, userId, customerId, subscriptionId, plan, status, cancelAtPeriodEnd) == once
  {
    var f := MergeInto(customerId, subscriptionId, plan, status, cancelAtPeriodEnd);
    var once := Upsert(rows, userId, customerId, subscriptionId, plan, status, cancelAtPeriodEnd);
    var twice := Upsert(once, userId, customerId, subscriptionId, plan, status, cancelAtPeriodEnd);
    assert exists i :: 0 <= i < |once| && once[i].userId == userId;
    assert twice == UpdateWhere(once, OfUser(userId), f);
    forall i | 0 <= i < |once|
      ensures twice[i] == once[i]
    {
      if once[i].userId == userId {
        assert f(f(once[i])) == f(once[i]);
      }
    }
  }
}

=== FILE: breakeven.dfy ===
/** The cost/benefit arithmetic of backend/src/services/rebalancing.ts:
    `simulateRebalance` and `isRebalanceWorthwhile`. Numbers are exact reals;
    the one place where JavaScript's floating-point division leaves the reals
    (division by zero) is modelled by `Quotient`. */
module Breakeven {
  import opened Wrappers
  import opened Records

  /** Flat gas estimate for withdraw + swap + deposit, in dollars. */
  const ESTIMATED_GAS_COST: real := 50.0
  /** Defaults of `isRebalanceWorthwhile`'s optional parameters. */
  const DEFAULT_COST: real := 50.0
  const DEFAULT_MIN_DAYS: real := 30.0

  /** Yearly gain of `amount` at an APY advantage of `apyDiff` percent. */
  function AnnualGain(amount: real, apyDiff: real): real {
    amount * apyDiff / 100.0
  }

  function DailyGain(amount: real, apyDiff: real): real {
    AnnualGain(amount, apyDiff) / 365.0
  }

  /** A floating-point quotient: a finite value, an infinity, or NaN
      (signed zero is not modelled, so `x / 0` follows the sign of `x`). */
  datatype Quotient = Finite(value: real) | PosInf | NegInf | NaN

  function Div(a: real, b: real): (q: Quotient)
    ensures b != 0.0 ==> q == Finite(a / b)
    ensures b == 0.0 ==> (q.PosInf? <==> a > 0.0) && (q.NegInf? <==> a < 0.0) && (q.NaN? <==> a == 0.0)
  {
    if b != 0.0 then Finite(a / b)
    else if a > 0.0 then PosInf
    else if a < 0.0 then NegInf
    else NaN
  }

  /** `q <= m` on a quotient: false for NaN and positive infinity. */
  predicate AtMost(q: Quotient, m: real) {
    match q
    case Finite(x) => x <= m
    case PosInf => false
    case NegInf => true
    case NaN => false
  }

  /** `Math.ceil` of a finite value. */
  function Ceil(x: real): (n: int)
    ensures x <= n as real < x + 1.0
  {
    -((-x).Floor)
  }

  /** `isRebalanceWorthwhile(amount, apyDifference, estimatedCost,
      minDaysToBreakeven)`: the cost is recovered within the given days and
      the yearly gain exceeds twice the cost. */
  predicate IsRebalanceWorthwhile(amount: real, apyDifference: real, estimatedCost: real, minDaysToBreakeven: real)
    ensures IsRebalanceWorthwhile(amount, apyDifference, estimatedCost, minDaysToBreakeven) ==>
      amount * apyDifference > 200.0 * estimatedCost
  {
    var annualGain := AnnualGain(amount, apyDifference);
    var dailyGain := DailyGain(amount, apyDifference);
    && AtMost(Div(estimatedCost, dailyGain), minDaysToBreakeven)
    && annualGain > estimatedCost * 2.0
  }

  lemma DivAtMost(a: real, b: real, m: real)
    requires b > 0.0
    ensures a / b <= m <==> a <= m * b
  {
    assert a / b * b == a;
    if a / b <= m {
      assert a / b * b <= m * b;
    } else {
      assert a / b * b > m * b;
    }
  }

  lemma MulNonNegative(x: real, y: real)
    requires x >= 0.0 && y >= 0.0
    ensures x * y >= 0.0
  {
  }

  /** For a positive cost the test is a condition on `amount * apyDifference`
      alone: more than 200 times the cost, and enough that the daily gain
      covers the cost within the allowed days. */
  lemma WorthwhileIffGain(amount: real, apyDifference: real, estimatedCost: real, minDays: real)
    requires estimatedCost > 0.0
    ensures IsRebalanceWorthwhile(amount, apyDifference, estimatedCost, minDays)
      <==> (var g := amount * apyDifference;
            g > 200.0 * estimatedCost && 36500.0 * estimatedCost <= minDays * g)
  {
    var g := amount * apyDifference;
    var daily := DailyGain(amount, apyDifference);
    assert daily == g / 36500.0;
    if g > 0.0 {
      DivAtMost(estimatedCost, daily, minDays);
      assert minDays * daily * 36500.0 == minDays * g;
    }
  }

  /** With a positive cost and a positive APY advantage, a larger amount is
      worthwhile whenever a smaller one is. */
  lemma WorthwhileMonotoneInAmount(a1: real, a2: real, apyDifference: real, estimatedCost: real, minDays: real)
    requires estimatedCost > 0.0 && apyDifference > 0.0 && a1 <= a2
    requires IsRebalanceWorthwhile(a1, apyDifference, estimatedCost, minDays)
    ensures IsRebalanceWorthwhile(a2, apyDifference, estimatedCost, minDays)
  {
    WorthwhileIffGain(a1, apyDifference, estimatedCost, minDays);
    WorthwhileIffGain(a2, apyDifference, estimatedCost, minDays);
    var g1 := a1 * apyDifference;
    var g2 := a2 * apyDifference;
    MulNonNegative(a2 - a1, apyDifference);
    assert g2 - g1 == (a2 - a1) * apyDifference;
    assert minDays > 0.0 by {
      if minDays <= 0.0 {
        MulNonNegative(-minDays, g1);
      }
    }
    MulNonNegative(minDays, g2 - g1);
    assert minDays * g2 - minDays * g1 == minDays * (g2 - g1);
  }

  /** With no APY advantage, or a negative one, a positive cost is never
      worthwhile. */
  lemma NoGainNotWorthwhile(amount: real, apyDifference: real, estimatedCost: real, minDays: real)
    requires estimatedCost > 0.0 && amount >= 0.0 && apyDifference <= 0.0
    ensures !IsRebalanceWorthwhile(amount, apyDifference, estimatedCost, minDays)
  {
    WorthwhileIffGain(amount, apyDifference, estimatedCost, minDays);
    assert amount * apyDifference <= 0.0;
  }

  /** The default cost and horizon: $10,000 at +3% breaks even in about 61
      days, too slow; $100,000 at +5% breaks even in under 4 days. */
  lemma DefaultThresholdExamples()
    ensures !IsRebalanceWorthwhile(10000.0, 3.0, DEFAULT_COST, DEFAULT_MIN_DAYS)
    ensures IsRebalanceWorthwhile(100000.0, 5.0, DEFAULT_COST, DEFAULT_MIN_DAYS)
  {
    WorthwhileIffGain(10000.0, 3.0, DEFAULT_COST, DEFAULT_MIN_DAYS);
    WorthwhileIffGain(100000.0, 5.0, DEFAULT_COST, DEFAULT_MIN_DAYS);
  }

  /** Breakeven in whole days, or never (an infinite quotient). */
  datatype BreakevenDays = Days(n: int) | Never

  /** The result object of `simulateRebalance`. */
  datatype Estimate = Estimate(
    estimatedCost: real,
    gainAnnual: real,
    gainDaily: real,
    breakevenDays: BreakevenDays)

  /** The APY advantage of a recommendation; a missing current APY counts
      as 0. */
  function ApyDiff(d: Draft): real {
    d.targetApy - d.currentApy.GetOr(0.0)
  }

  /** `simulateRebalance(id)`: throws when the recommendation cannot be read;
      otherwise the gas estimate, the gains, and the whole days needed for
      the daily gain to pay the gas back. */
  function SimulateRebalance(s: Store, id: string): (r: Result<Estimate, string>)
    ensures r.Failure? <==> FindRecommendation(s, id).None?
    ensures r.Success? ==>
      var d := FindRecommendation(s, id).value.body;
      var e := r.value;
      && e.estimatedCost == ESTIMATED_GAS_COST
      && e.gainAnnual * 100.0 == d.amount * ApyDiff(d)
      && e.gainDaily * 365.0 == e.gainAnnual
      && (e.breakevenDays.Never? <==> e.gainDaily == 0.0)
      && (e.gainDaily > 0.0 ==>
            && e.breakevenDays.n > 0
            && (e.breakevenDays.n - 1) as real * e.gainDaily < ESTIMATED_GAS_COST
            && ESTIMATED_GAS_COST <= e.breakevenDays.n as real * e.gainDaily)
      && (e.gainDaily < 0.0 ==> e.breakevenDays.Days? && e.breakevenDays.n <= 0)
  {
    match FindRecommendation(s, id)
    case None => Failure("Recommendation not found")
    case Some(rec) =>
      var amount := rec.body.amount;
      var diff := ApyDiff(rec.body);
      var daily := DailyGain(amount, diff);
      var days :=
        (match Div(ESTIMATED_GAS_COST, daily)
         case Finite(x) =>
           CeilBrackets(ESTIMATED_GAS_COST, daily);
           Days(Ceil(x))
         case _ => Never);
      Success(Estimate(ESTIMATED_GAS_COST, AnnualGain(amount, diff), daily, days))
  }

  /** `Ceil(c / g)` days of gain `g` are the fewest that cover `c`. */
  lemma CeilBrackets(c: real, g: real)
    requires c > 0.0 && g != 0.0
    ensures g > 0.0 ==>
      && Ceil(c / g) > 0
      && (Ceil(c / g) - 1) as real * g < c
      && c <= Ceil(c / g) as real * g
    ensures g < 0.0 ==> Ceil(c / g) <= 0
  {
    var x := c / g;
    var n := Ceil(x);
    assert x * g == c;
    if g > 0.0 {
      assert x > 0.0;
      assert x * g <= n as real * g;
      assert (n - 1) as real * g < x * g;
    } else {
      assert x < 0.0;
    }
  }

  /** The simulated breakeven and the worthwhile test agree on the time
      condition: for a whole number of days `m`, the simulation breaks even
      within `m` days exactly when the gas estimate over the daily gain is at
      most `m`. */
  lemma SimulateAgreesWithWorthwhile(s: Store, id: string, m: int)
    requires SimulateRebalance(s, id).Success?
    ensures var e := SimulateRebalance(s, id).value;
      var d := FindRecommendation(s, id).value.body;
      (e.breakevenDays.Days? && e.breakevenDays.n <= m)
        <==> AtMost(Div(ESTIMATED_GAS_COST, DailyGain(d.amount, ApyDiff(d))), m as real)
  {
    var e := SimulateRebalance(s, id).value;
    var d := FindRecommendation(s, id).value.body;
    var daily := DailyGain(d.amount, ApyDiff(d));
    if daily != 0.0 {
      var x := ESTIMATED_GAS_COST / daily;
      assert e.breakevenDays == Days(Ceil(x));
      assert Ceil(x) <= m <==> x <= m as real;
    }
  }
}

=== FILE: compare_page.dfy ===
/** The selection logic of src/pages/Compare.tsx: a risk level per yield
    token, a selection of at most four SideShift ids, and the compared rows. */
module ComparePage {
  import opened Wrappers
  import opened Seqs
  import opened DefiLlama

  /** Selections are capped at this many tokens. */
  const MAX_SELECTED: nat := 4

  /** A TVL below this is "low". */
  const LOW_TVL: real := 100000000.0

  datatype RiskLevel = Low | Medium | High

  function LevelRank(l: RiskLevel): nat {
    match l
    case Low => 0
    case Medium => 1
    case High => 2
  }

  /** `getRiskLevel(token)`: impermanent-loss exposure and a low TVL each add
      a level. */
  function GetRiskLevel(t: YieldToken): (l: RiskLevel)
    ensures LevelRank(l) == (if t.ilRisk == "yes" then 1 else 0) + (if t.tvlUsd < LOW_TVL then 1 else 0)
  {
    var hasIlRisk := t.ilRisk == "yes";
    var lowTvl := t.tvlUsd < LOW_TVL;
    if hasIlRisk && lowTvl then High
    else if hasIlRisk || lowTvl then Medium
    else Low
  }

  /** More TVL never raises the level. */
  lemma RiskFallsWithTvl(t: YieldToken, tvl: real)
    requires tvl >= t.tvlUsd
    ensures LevelRank(GetRiskLevel(t.(tvlUsd := tvl))) <= LevelRank(GetRiskLevel(t))
  {
  }

  /** `handleToggleToken(tokenId)`: a selected id is dropped; an unselected
      one is added only while fewer than four are selected. */
  function ToggleToken(sel: set<string>, id: string): (r: set<string>)
    ensures forall x :: x != id ==> (x in r <==> x in sel)
    ensures id in r <==> id !in sel && |sel| < MAX_SELECTED
    ensures |sel| <= MAX_SELECTED ==> |r| <= MAX_SELECTED
  {
    if id in sel then sel - {id}
    else if |sel| < MAX_SELECTED then sel + {id}
    else sel
  }

  /** The checkbox of an unselected row is disabled once four are chosen. */
  predicate IsDisabled(sel: set<string>, id: string) {
    id !in sel && |sel| >= MAX_SELECTED
  }

  /** A row is disabled exactly when clicking it would change nothing. */
  lemma DisabledIffNoOp(sel: set<string>, id: string)
    ensures IsDisabled(sel, id) <==> ToggleToken(sel, id) == sel
  {
    if !IsDisabled(sel, id) {
      assert (id in ToggleToken(sel, id)) != (id in sel);
    }
  }

  /** Clicking an enabled row twice restores the selection. */
  lemma ToggleTwice(sel: set<string>, id: string)
    requires |sel| <= MAX_SELECTED && !IsDisabled(sel, id)
    ensures ToggleToken(ToggleToken(sel, id), id) == sel
  {
  }

  /** The selection after a sequence of clicks. */
  function Clicks(sel: set<string>, ids: seq<string>): set<string>
    decreases |ids|
  {
    if |ids| == 0 then sel else Clicks(ToggleToken(sel, ids[0]), ids[1..])
  }

  /** Starting from any allowed selection, no sequence of clicks selects more
      than four tokens. */
  lemma {:induction false} SelectionStaysSmall(sel: set<string>, ids: seq<string>)
    requires |sel| <= MAX_SELECTED
    ensures |Clicks(sel, ids)| <= MAX_SELECTED
    decreases |ids|
  {
    if |ids| > 0 {
      SelectionStaysSmall(ToggleToken(sel, ids[0]), ids[1..]);
    }
  }

  function Selected(sel: set<string>): YieldToken -> bool {
    (t: YieldToken) => t.ssId in sel
  }

  /** `comparedTokens`: the listed tokens whose id is selected, in list
      order; nothing before the list has loaded. */
  function ComparedTokens(tokens: Option<seq<YieldToken>>, sel: set<string>): (r: seq<YieldToken>)
    ensures tokens.None? ==> r == []
    ensures tokens.Some? ==> forall t :: t in r <==> t in tokens.value && t.ssId in sel
  {
    match tokens
    case None => []
    case Some(ts) => Filter(ts, Selected(sel))
  }

  /** Comparison keeps the list order: it distributes over concatenation. */
  lemma ComparedKeepsOrder(a: seq<YieldToken>, b: seq<YieldToken>, sel: set<string>)
    ensures ComparedTokens(Some(a + b), sel) == ComparedTokens(Some(a), sel) + ComparedTokens(Some(b), sel)
  {
    FilterConcat(a, b, Selected(sel));
  }

  /** On a list with one token per id, as the supported-token listing is,
      no more tokens are compared than are selected. */
  lemma {:induction false} ComparedBounded(ts: seq<YieldToken>, sel: set<string>)
    requires DistinctSsIds(ts)
    ensures |ComparedTokens(Some(ts), sel)| <= |sel|
    decreases |ts|
  {
    if |ts| > 0 {
      var x := ts[0].ssId;
      var rest := ts[1..];
      if x in sel {
        ComparedBounded(rest, sel - {x});
        FilterSameOn(rest, Selected(sel), Selected(sel - {x}));
      } else {
        ComparedBounded(rest, sel);
      }
    }
  }
}

=== FILE: defillama.dfy ===
/** The supported-yield-token pipeline of src/services/defillama.ts:
    `getSupportedYieldTokens` turns the DefiLlama pool list and the SideShift
    coin list into one yield token per SideShift coin, best APY first; and
    `formatTvl` picks a unit for a dollar amount. Both fetches are inputs;
    `None` is a failed request. */
module DefiLlama {
  import opened Wrappers
  import opened Seqs
  import opened Sorting
  import opened Text

  /** A DefiLlama pool; a missing `outlier` flag is false. */
  datatype LlamaPool = LlamaPool(
    chain: string, project: string, symbol: string, tvlUsd: real,
    apyBase: Option<real>, apyReward: Option<real>, apy: Option<real>,
    pool: string, stablecoin: bool, ilRisk: string, outlier: bool)

  /** `x || 0` on a nullable number: null and 0 both read as 0. */
  function OrZero(x: Option<real>): (r: real)
    ensures x.None? ==> r == 0.0
    ensures x.Some? ==> r == x.value
  {
    if x.Some? then x.value else 0.0
  }

  /** `(apyBase || 0) + (apyReward || 0) || apy || 0`: the base-plus-reward
      sum when it is non-zero, the headline APY otherwise. */
  function TotalApy(p: LlamaPool): (r: real)
    ensures OrZero(p.apyBase) + OrZero(p.apyReward) != 0.0 ==> r == OrZero(p.apyBase) + OrZero(p.apyReward)
    ensures r == 0.0 <==> OrZero(p.apyBase) + OrZero(p.apyReward) == 0.0 && OrZero(p.apy) == 0.0
  {
    var sum := OrZero(p.apyBase) + OrZero(p.apyReward);
    if sum != 0.0 then sum else OrZero(p.apy)
  }

  /** A zero sum falls through to the headline APY even when its parts are
      not zero, and a pool with no APY fields at all totals 0. */
  lemma TotalApyExamples(p: LlamaPool)
    ensures TotalApy(p.(apyBase := Some(3.0), apyReward := Some(-3.0), apy := Some(7.0))) == 7.0
    ensures TotalApy(p.(apyBase := None, apyReward := Some(2.5), apy := Some(9.0))) == 2.5
    ensures TotalApy(p.(apyBase := None, apyReward := None, apy := None)) == 0.0
  {
  }

  function IsAsciiLetter(): char -> bool {
    (c: char) => IsUpperAscii(c)
  }

  /** `symbol.toUpperCase().replace(/[^A-Z]/g, '')`. */
  function SymbolKey(symbol: string): (r: string)
    ensures forall i :: 0 <= i < |r| ==> IsUpperAscii(r[i])
    ensures |r| <= |symbol|
  {
    Filter(ToUpper(symbol), IsAsciiLetter())
  }

  /** Normalising a key again leaves it unchanged. */
  lemma SymbolKeyIdempotent(symbol: string)
    ensures SymbolKey(SymbolKey(symbol)) == SymbolKey(symbol)
  {
    var k := SymbolKey(symbol);
    assert IsUpperCase(k);
    ToUpperOfUpperCase(k);
    FilterAll(k, IsAsciiLetter());
  }

  /** The key does not depend on letter case. */
  lemma SymbolKeyIgnoresCase(symbol: string)
    ensures SymbolKey(ToLower(symbol)) == SymbolKey(symbol)
  {
    var a, b := ToUpper(ToLower(symbol)), ToUpper(symbol);
    forall i | 0 <= i < |symbol|
      ensures a[i] == b[i]
    {
    }
    assert a == b;
  }

  /** A SideShift coin a DefiLlama symbol stands for. */
  datatype SideShiftToken = SideShiftToken(id: string, chain: string, network: string)

  /** `YIELD_TOKEN_MAP`. */
  const YIELD_TOKEN_MAP: map<string, SideShiftToken> := map[
    "STETH" := SideShiftToken("steth", "ethereum", "ethereum"),
    "RETH" := SideShiftToken("reth", "ethereum", "ethereum"),
    "CBETH" := SideShiftToken("cbeth", "ethereum", "ethereum"),
    "METH" := SideShiftToken("meth", "ethereum", "ethereum"),
    "SAVAX" := SideShiftToken("savax", "avax", "avax"),
    "JITOSOL" := SideShiftToken("jitosol", "solana", "solana"),
    "BSOL" := SideShiftToken("bsol", "solana", "solana"),
    "MSOL" := SideShiftToken("msol", "solana", "solana"),
    "JITOSOLSTAKE" := SideShiftToken("jitosol", "solana", "solana"),
    "DSOL" := SideShiftToken("bsol", "solana", "solana"),
    "JUPSOL" := SideShiftToken("msol", "solana", "solana")
  ]

  /** Every coin of the map has an id. */
  lemma TokenIdNonEmpty(key: string)
    requires key in YIELD_TOKEN_MAP
    ensures YIELD_TOKEN_MAP[key].id != ""
  {
    assert key in {"STETH", "RETH", "CBETH", "METH", "SAVAX", "JITOSOL", "BSOL", "MSOL",
                   "JITOSOLSTAKE", "DSOL", "JUPSOL"};
  }

  /** Several keys map to the same SideShift coin, which is why the listing
      is de-duplicated by coin id. */
  lemma TokenMapSharesIds()
    ensures YIELD_TOKEN_MAP["JITOSOL"].id == YIELD_TOKEN_MAP["JITOSOLSTAKE"].id
    ensures YIELD_TOKEN_MAP["BSOL"].id == YIELD_TOKEN_MAP["DSOL"].id
    ensures YIELD_TOKEN_MAP["MSOL"].id == YIELD_TOKEN_MAP["JUPSOL"].id
  {
  }

  /** Mixed-case symbols reach the map: "jitoSOL" has key JITOSOL. */
  lemma SymbolKeyExample()
    ensures SymbolKey("jitoSOL") == "JITOSOL"
  {
    var u := ToUpper("jitoSOL");
    assert u == "JITOSOL" by {
      assert u[0] == 'J' && u[1] == 'I' && u[2] == 'T' && u[3] == 'O';
    }
    FilterAll(u, IsAsciiLetter());
  }

  /** The SideShift coin list has `id`, compared upper-cased. */
  predicate Available(coins: seq<string>, id: string) {
    exists i :: 0 <= i < |coins| && ToUpper(coins[i]) == ToUpper(id)
  }

  /** The filter of `getSupportedYieldTokens`. */
  predicate Supported(p: LlamaPool, coins: seq<string>, minTvl: real) {
    && SymbolKey(p.symbol) in YIELD_TOKEN_MAP
    && Available(coins, YIELD_TOKEN_MAP[SymbolKey(p.symbol)].id)
    && p.tvlUsd > minTvl
    && !p.outlier
    && TotalApy(p) > 0.0
  }

  function SupportedIn(coins: seq<string>, minTvl: real): LlamaPool -> bool {
    (p: LlamaPool) => Supported(p, coins, minTvl)
  }

  /** The yield token shown for a pool. */
  datatype YieldToken = YieldToken(
    symbol: string, chain: string, project: string,
    totalApy: real, apyBase: real, apyReward: real, tvlUsd: real, pool: string,
    ssId: string, ssNetwork: string, stablecoin: bool, ilRisk: string)

  function ToYieldToken(p: LlamaPool): (t: YieldToken)
    requires SymbolKey(p.symbol) in YIELD_TOKEN_MAP
    ensures t.ssId == YIELD_TOKEN_MAP[SymbolKey(p.symbol)].id && t.ssId != ""
    ensures t.totalApy == TotalApy(p) && t.tvlUsd == p.tvlUsd && t.pool == p.pool && t.symbol == p.symbol
  {
    var token := YIELD_TOKEN_MAP[SymbolKey(p.symbol)];
    TokenIdNonEmpty(SymbolKey(p.symbol));
    YieldToken(p.symbol, p.chain, p.project, TotalApy(p), OrZero(p.apyBase), OrZero(p.apyReward),
               p.tvlUsd, p.pool, token.id, token.network, p.stablecoin, p.ilRisk)
  }

  /** The sort comparator: higher total APY first, then higher TVL. */
  predicate YieldBefore(a: YieldToken, b: YieldToken) {
    a.totalApy > b.totalApy || (a.totalApy == b.totalApy && a.tvlUsd >= b.tvlUsd)
  }

  lemma YieldBeforeIsTotalPreorder()
    ensures TotalPreorder(YieldBefore)
  {
  }

  // ------------------------------------------------------ de-duplication

  function SsIdIs(id: string): YieldToken -> bool {
    (t: YieldToken) => t.ssId == id
  }

  /** One pass of the `forEach` over a `Map` keyed by `ssId`, the map held as
      its entries in insertion order: a new key is appended; an existing key
      keeps its place and takes the token only if its APY is higher; a token
      without `ssId` is skipped. */
  function Step(entries: seq<YieldToken>, t: YieldToken): seq<YieldToken> {
    if t.ssId == "" then entries
    else match FindFirst(entries, SsIdIs(t.ssId))
      case None => entries + [t]
      case Some(i) => if t.totalApy > entries[i].totalApy then entries[i := t] else entries
  }

  /** `Array.from(uniqueTokens.values())` after the whole pass. */
  function Dedup(tokens: seq<YieldToken>): seq<YieldToken> {
    if |tokens| == 0 then []
    else Step(Dedup(tokens[..|tokens| - 1]), tokens[|tokens| - 1])
  }

  predicate DistinctSsIds(r: seq<YieldToken>) {
    forall i, j :: 0 <= i < j < |r| ==> r[i].ssId != r[j].ssId
  }

  /** `tokens[i]` is the first token with its `ssId`. */
  predicate FirstOfItsId(tokens: seq<YieldToken>, i: int) {
    0 <= i < |tokens| && forall j :: 0 <= j < i ==> tokens[j].ssId != tokens[i].ssId
  }

  /** `x` is the first token with its id among the first `n` of `tokens`. */
  ghost predicate FirstWithin(tokens: seq<YieldToken>, n: int, x: YieldToken) {
    exists i :: 0 <= i < n && FirstOfItsId(tokens, i) && tokens[i] == x
  }

  /** Every entry is the first token of `tokens` with its id. */
  ghost predicate FromFirsts(tokens: seq<YieldToken>, r: seq<YieldToken>) {
    forall k :: 0 <= k < |r| ==> FirstWithin(tokens, |tokens|, r[k])
  }

  /** Every id among `tokens` has an entry. */
  ghost predicate CoversIds(tokens: seq<YieldToken>, r: seq<YieldToken>) {
    forall i :: 0 <= i < |tokens| && tokens[i].ssId != "" ==> exists k :: 0 <= k < |r| && r[k].ssId == tokens[i].ssId
  }

  /** What the pass leaves for sorted input: distinct ids, each entry the
      first token with its id, every id present, and the sort order kept. */
  ghost predicate KeepsFirsts(tokens: seq<YieldToken>, r: seq<YieldToken>) {
    DistinctSsIds(r) && FromFirsts(tokens, r) && CoversIds(tokens, r) && SortedBy(r, YieldBefore)
  }

  /** On input sorted by the comparator the pass never replaces an entry: it
      keeps the first (highest-APY) token of every id, in sorted order. */
  lemma {:induction false} DedupKeepsFirsts(tokens: seq<YieldToken>)
    requires SortedBy(tokens, YieldBefore)
    ensures KeepsFirsts(tokens, Dedup(tokens))
    decreases |tokens|
  {
    if |tokens| > 0 {
      var n := |tokens| - 1;
      assert SortedBy(tokens[..n], YieldBefore);
      DedupKeepsFirsts(tokens[..n]);
      DedupStep(tokens, n, Dedup(tokens[..n]));
    }
  }

  /** An entry that is a first token of a prefix is a first token of the
      whole list. */
  lemma FromFirstsExtend(tokens: seq<YieldToken>, n: nat, e: seq<YieldToken>)
    requires n <= |tokens| && FromFirsts(tokens[..n], e)
    ensures forall k :: 0 <= k < |e| ==> FirstWithin(tokens, n, e[k]) && FirstWithin(tokens, |tokens|, e[k])
  {
    forall k | 0 <= k < |e|
      ensures FirstWithin(tokens, n, e[k]) && FirstWithin(tokens, |tokens|, e[k])
    {
      assert FirstWithin(tokens[..n], n, e[k]);
      var i :| 0 <= i < n && FirstOfItsId(tokens[..n], i) && tokens[..n][i] == e[k];
      assert FirstOfItsId(tokens, i) && tokens[i] == e[k];
    }
  }

  lemma DedupStep(tokens: seq<YieldToken>, n: nat, e: seq<YieldToken>)
    requires n + 1 == |tokens| && SortedBy(tokens, YieldBefore)
    requires KeepsFirsts(tokens[..n], e)
    ensures KeepsFirsts(tokens, Step(e, tokens[n]))
  {
    var t := tokens[n];
    FromFirstsExtend(tokens, n, e);
    assert CoversIds(tokens[..n], e);
    if t.ssId == "" {
      assert Step(e, t) == e;
      CoversSkip(tokens, n, e);
    } else {
      match FindFirst(e, SsIdIs(t.ssId))
      case Some(i) =>
        assert FirstWithin(tokens, n, e[i]);
        var i0 :| 0 <= i0 < n && FirstOfItsId(tokens, i0) && tokens[i0] == e[i];
        assert YieldBefore(tokens[i0], tokens[n]);
        assert Step(e, t) == e;
        CoversKnown(tokens, n, e, i);
      case None =>
        DedupAppend(tokens, n, e);
    }
  }

  lemma CoversSkip(tokens: seq<YieldToken>, n: nat, e: seq<YieldToken>)
    requires n + 1 == |tokens| && tokens[n].ssId == "" && CoversIds(tokens[..n], e)
    ensures CoversIds(tokens, e)
  {
    forall i | 0 <= i < |tokens| && tokens[i].ssId != ""
      ensures exists k :: 0 <= k < |e| && e[k].ssId == tokens[i].ssId
    {
      assert tokens[..n][i] == tokens[i];
    }
  }

  lemma CoversKnown(tokens: seq<YieldToken>, n: nat, e: seq<YieldToken>, j: nat)
    requires n + 1 == |tokens| && CoversIds(tokens[..n], e)
    requires j < |e| && e[j].ssId == tokens[n].ssId
    ensures CoversIds(tokens, e)
  {
    forall i | 0 <= i < |tokens| && tokens[i].ssId != ""
      ensures exists k :: 0 <= k < |e| && e[k].ssId == tokens[i].ssId
    {
      if i < n {
        assert tokens[..n][i] == tokens[i];
      }
    }
  }

  /** A token whose id has no entry is the first with its id, and appending
      it keeps every part of the invariant. */
  lemma DedupAppend(tokens: seq<YieldToken>, n: nat, e: seq<YieldToken>)
    requires n + 1 == |tokens| && SortedBy(tokens, YieldBefore)
    requires KeepsFirsts(tokens[..n], e)
    requires tokens[n].ssId != "" && FindFirst(e, SsIdIs(tokens[n].ssId)).None?
    ensures KeepsFirsts(tokens, e + [tokens[n]])
  {
    var t := tokens[n];
    var r := e + [t];
    FromFirstsExtend(tokens, n, e);
    forall j | 0 <= j < n
      ensures tokens[j].ssId != t.ssId
    {
      assert tokens[..n][j] == tokens[j];
    }
    assert FirstOfItsId(tokens, n);
    forall k | 0 <= k < |r|
      ensures FirstWithin(tokens, |tokens|, r[k])
    {
      if k == |e| {
        assert tokens[n] == r[k];
      } else {
        assert r[k] == e[k] && FirstWithin(tokens, |tokens|, e[k]);
      }
    }
    forall i | 0 <= i < |tokens| && tokens[i].ssId != ""
      ensures exists k :: 0 <= k < |r| && r[k].ssId == tokens[i].ssId
    {
      if i == n {
        assert r[|e|].ssId == tokens[i].ssId;
      } else {
        assert tokens[..n][i] == tokens[i];
        var k :| 0 <= k < |e| && e[k].ssId == tokens[i].ssId;
        assert r[k] == e[k];
      }
    }
    forall a, b | 0 <= a < b < |r|
      ensures r[a].ssId != r[b].ssId && YieldBefore(r[a], r[b])
    {
      if b == |e| {
        assert !SsIdIs(t.ssId)(e[a]);
        assert FirstWithin(tokens, n, e[a]);
        var i0 :| 0 <= i0 < n && FirstOfItsId(tokens, i0) && tokens[i0] == e[a];
        assert YieldBefore(tokens[i0], tokens[n]);
      } else {
        assert r[a] == e[a] && r[b] == e[b];
      }
    }
  }

  // -------------------------------------------------------- the pipeline

  function ToYieldTokens(kept: seq<LlamaPool>): (r: seq<YieldToken>)
    requires forall k :: 0 <= k < |kept| ==> SymbolKey(kept[k].symbol) in YIELD_TOKEN_MAP
    ensures |r| == |kept| && forall k :: 0 <= k < |r| ==> r[k] == ToYieldToken(kept[k])
  {
    seq(|kept|, k requires 0 <= k < |kept| => ToYieldToken(kept[k]))
  }

  /** `x` is the yield token of a supported pool. */
  ghost predicate FromSupportedPool(pools: seq<LlamaPool>, coins: seq<string>, minTvl: real, x: YieldToken) {
    exists p :: p in pools && Supported(p, coins, minTvl) && x == ToYieldToken(p)
  }

  /** The yield tokens of the supported pools, in pool order. */
  function SupportedTokens(pools: seq<LlamaPool>, coins: seq<string>, minTvl: real): (r: seq<YieldToken>)
    ensures forall k :: 0 <= k < |r| ==> FromSupportedPool(pools, coins, minTvl, r[k])
    ensures forall p :: p in pools && Supported(p, coins, minTvl) ==> ToYieldToken(p) in r
  {
    var kept := Filter(pools, SupportedIn(coins, minTvl));
    var r := ToYieldTokens(kept);
    forall k | 0 <= k < |r|
      ensures FromSupportedPool(pools, coins, minTvl, r[k])
    {
      assert kept[k] in pools && SupportedIn(coins, minTvl)(kept[k]);
    }
    forall p | p in pools && Supported(p, coins, minTvl)
      ensures ToYieldToken(p) in r
    {
      var i :| 0 <= i < |pools| && pools[i] == p;
      assert SupportedIn(coins, minTvl)(pools[i]);
      var j :| 0 <= j < |kept| && kept[j] == p;
      assert r[j] == ToYieldToken(p);
    }
    r
  }

  /** The sorted yield tokens before de-duplication. */
  function Candidates(pools: seq<LlamaPool>, coins: seq<string>, minTvl: real): (r: seq<YieldToken>)
    ensures SortedBy(r, YieldBefore)
    ensures forall k :: 0 <= k < |r| ==> FromSupportedPool(pools, coins, minTvl, r[k])
    ensures forall p :: p in pools && Supported(p, coins, minTvl) ==> ToYieldToken(p) in r
  {
    var tokens := SupportedTokens(pools, coins, minTvl);
    var r := SortBy(tokens, YieldBefore);
    YieldBeforeIsTotalPreorder();
    SortBySorted(tokens, YieldBefore);
    forall k | 0 <= k < |r|
      ensures FromSupportedPool(pools, coins, minTvl, r[k])
    {
      assert r[k] in multiset(tokens);
      var j :| 0 <= j < |tokens| && tokens[j] == r[k];
    }
    forall p | p in pools && Supported(p, coins, minTvl)
      ensures ToYieldToken(p) in r
    {
      assert ToYieldToken(p) in multiset(tokens);
    }
    r
  }

  /** `getSupportedYieldTokens(supportedCoinIds, minTvl)`; the first
      argument is unused by the source and left out. Either fetch failing
      rejects with one message. */
  function GetSupportedYieldTokens(pools: Option<seq<LlamaPool>>, coins: Option<seq<string>>, minTvl: real): (r: Result<seq<YieldToken>, string>)
    ensures r.Failure? <==> pools.None? || coins.None?
    ensures r.Failure? ==> r.error == "Failed to fetch supported yield tokens"
    ensures r.Success? ==> KeepsFirsts(Candidates(pools.value, coins.value, minTvl), r.value)
  {
    if pools.None? || coins.None? then Failure("Failed to fetch supported yield tokens")
    else
      var sorted := Candidates(pools.value, coins.value, minTvl);
      DedupKeepsFirsts(sorted);
      Success(Dedup(sorted))
  }

  /** The default minimum TVL, fifty million dollars. */
  const DEFAULT_MIN_TVL: real := 50000000.0

  /** In sorted input the first token with an id has the highest APY of
      all tokens with that id. */
  lemma FirstIsBest(sorted: seq<YieldToken>, r: seq<YieldToken>, k: nat, x: YieldToken)
    requires SortedBy(sorted, YieldBefore) && FromFirsts(sorted, r)
    requires k < |r| && x in sorted && x.ssId == r[k].ssId
    ensures r[k] in sorted && r[k].totalApy >= x.totalApy
  {
    assert FirstWithin(sorted, |sorted|, r[k]);
    var i :| 0 <= i < |sorted| && FirstOfItsId(sorted, i) && sorted[i] == r[k];
    var j :| 0 <= j < |sorted| && sorted[j] == x;
    assert sorted[j].ssId == sorted[i].ssId;
    assert i <= j;
    if i < j {
      assert YieldBefore(sorted[i], sorted[j]);
    }
  }

  /** Each listed token comes from a supported pool and has the highest total
      APY among the supported pools for its id. */
  lemma ListedAreBest(pools: seq<LlamaPool>, coins: seq<string>, minTvl: real, k: nat, p: LlamaPool)
    requires k < |GetSupportedYieldTokens(Some(pools), Some(coins), minTvl).value|
    requires p in pools && Supported(p, coins, minTvl)
    requires ToYieldToken(p).ssId == GetSupportedYieldTokens(Some(pools), Some(coins), minTvl).value[k].ssId
    ensures FromSupportedPool(pools, coins, minTvl, GetSupportedYieldTokens(Some(pools), Some(coins), minTvl).value[k])
    ensures GetSupportedYieldTokens(Some(pools), Some(coins), minTvl).value[k].totalApy >= TotalApy(p)
  {
    var sorted := Candidates(pools, coins, minTvl);
    var r := GetSupportedYieldTokens(Some(pools), Some(coins), minTvl).value;
    FirstIsBest(sorted, r, k, ToYieldToken(p));
    var i :| 0 <= i < |sorted| && sorted[i] == r[k];
  }

  /** The listing holds one token per SideShift id, in non-increasing APY
      order, and lists every id some supported pool maps to. */
  lemma ListedIdsExactlyOnce(pools: seq<LlamaPool>, coins: seq<string>, minTvl: real)
    ensures var r := GetSupportedYieldTokens(Some(pools), Some(coins), minTvl).value;
      && DistinctSsIds(r)
      && (forall a, b :: 0 <= a < b < |r| ==> r[a].totalApy >= r[b].totalApy)
      && (forall p :: p in pools && Supported(p, coins, minTvl) ==> exists k :: 0 <= k < |r| && r[k].ssId == ToYieldToken(p).ssId)
  {
    var sorted := Candidates(pools, coins, minTvl);
    var r := GetSupportedYieldTokens(Some(pools), Some(coins), minTvl).value;
    assert KeepsFirsts(sorted, r);
    forall a, b | 0 <= a < b < |r|
      ensures r[a].totalApy >= r[b].totalApy
    {
      assert YieldBefore(r[a], r[b]);
    }
    forall p | p in pools && Supported(p, coins, minTvl)
      ensures exists k :: 0 <= k < |r| && r[k].ssId == ToYieldToken(p).ssId
    {
      var j :| 0 <= j < |sorted| && sorted[j] == ToYieldToken(p);
      assert sorted[j].ssId != "";
      assert CoversIds(sorted, r);
    }
  }

  // ----------------------------------------------------------- formatTvl

  /** The unit `formatTvl` shows an amount in: the suffix and the divisor. */
  datatype TvlUnit = Billions | Millions | Thousands | Dollars

  function Suffix(u: TvlUnit): string {
    match u
    case Billions => "B"
    case Millions => "M"
    case Thousands => "K"
    case Dollars => ""
  }

  function Divisor(u: TvlUnit): real {
    match u
    case Billions => 1000000000.0
    case Millions => 1000000.0
    case Thousands => 1000.0
    case Dollars => 1.0
  }

  /** The unit and the number shown before it. */
  function FormatTvl(tvl: real): (r: (real, TvlUnit))
    ensures r.0 * Divisor(r.1) == tvl
    ensures r.1 == Billions <==> tvl >= 1000000000.0
    ensures r.1 == Millions <==> 1000000.0 <= tvl < 1000000000.0
    ensures r.1 == Thousands <==> 1000.0 <= tvl < 1000000.0
    ensures r.1 == Dollars <==> tvl < 1000.0
    ensures r.1 != Dollars ==> r.0 >= 1.0
    ensures r.1 in {Millions, Thousands} ==> r.0 < 1000.0
  {
    var u := if tvl >= 1000000000.0 then Billions
             else if tvl >= 1000000.0 then Millions
             else if tvl >= 1000.0 then Thousands
             else Dollars;
    (tvl / Divisor(u), u)
  }
}

=== FILE: entitlement.dfy ===
/** The plan gates of backend/src/middleware/auth.ts: `requirePlan` and
    `checkRebalanceLimit`. The authenticated user (after `loadUser`) is an
    input; its subscription tier is the raw text of the database column. */
module Entitlement {
  import opened Wrappers
  import opened Text

  datatype User = User(id: string, tier: string)

  /** The plans a route can demand. */
  datatype Plan = Free | Starter | Professional | Institutional

  function PlanName(p: Plan): string {
    match p
    case Free => "free"
    case Starter => "starter"
    case Professional => "professional"
    case Institutional => "institutional"
  }

  function PlanRank(p: Plan): nat {
    match p
    case Free => 0
    case Starter => 1
    case Professional => 2
    case Institutional => 3
  }

  /** The tier is one of the four plan names. */
  predicate KnownTier(tier: string) {
    tier in {"free", "starter", "professional", "institutional"}
  }

  lemma KnownTierIsPlanName(tier: string)
    ensures KnownTier(tier) <==> exists p: Plan :: tier == PlanName(p)
  {
    if tier == "free" { assert tier == PlanName(Free); }
    if tier == "starter" { assert tier == PlanName(Starter); }
    if tier == "professional" { assert tier == PlanName(Professional); }
    if tier == "institutional" { assert tier == PlanName(Institutional); }
  }

  /** `planHierarchy[tier] || 0`: the level of a plan name, 0 for any other
      string, and `None` for an inherited member, which is truthy and so kept
      by `|| 0`, and which converts to NaN so that no comparison with a
      number holds. */
  function Rank(tier: string): (n: Option<nat>)
    ensures n.None? <==> InheritedKey(tier)
    ensures n.Some? ==> n.value <= 3
    ensures forall p: Plan :: tier == PlanName(p) ==> n == Some(PlanRank(p))
    ensures !KnownTier(tier) && !InheritedKey(tier) ==> n == Some(0)
  {
    if InheritedKey(tier) then None
    else if tier == "starter" then Some(1)
    else if tier == "professional" then Some(2)
    else if tier == "institutional" then Some(3)
    else Some(0)
  }

  /** `userPlanLevel < requiredLevel`; false for NaN. */
  predicate Below(level: Option<nat>, required: nat) {
    level.Some? && level.value < required
  }

  /** Tier `v` ranks at least as high as tier `u`: an inherited member
      ranks above everything, since it is below nothing. */
  predicate RanksAtLeast(v: string, u: string) {
    Rank(v).None? || (Rank(u).Some? && Rank(u).value <= Rank(v).value)
  }

  /** Why a request was refused. */
  datatype Denial =
    | NotAuthenticated
    | UpgradeRequired(requiredPlan: Plan, currentPlan: string)
    | LimitCheckFailed
    | LimitReached(limit: nat, used: int)
    | SubscriptionRequired

  /** A middleware's decision: pass to the next handler, or answer with an
      HTTP status and error body. */
  datatype Gate = Next | Deny(status: nat, denial: Denial)

  /** `requirePlan(minPlan)`: 401 without a user, 403 when the user's tier
      ranks below the plan. */
  function RequirePlan(minPlan: Plan, user: Option<User>): (r: Gate)
    ensures user.None? ==> r == Deny(401, NotAuthenticated)
    ensures user.Some? ==>
      (r.Next? <==> || minPlan == Free
                    || InheritedKey(user.value.tier)
                    || exists p: Plan :: user.value.tier == PlanName(p) && PlanRank(minPlan) <= PlanRank(p))
    ensures user.Some? && r.Deny? ==> r == Deny(403, UpgradeRequired(minPlan, user.value.tier))
  {
    match user
    case None => Deny(401, NotAuthenticated)
    case Some(u) =>
      if Below(Rank(u.tier), PlanRank(minPlan)) then
        Deny(403, UpgradeRequired(minPlan, u.tier))
      else
        assert !InheritedKey(u.tier) && minPlan != Free && KnownTier(u.tier) ==>
          u.tier == PlanName(Starter) || u.tier == PlanName(Professional) || u.tier == PlanName(Institutional);
        Next
  }

  /** A user admitted to a plan is admitted to every lower plan, and every
      user of a higher tier is admitted too. */
  lemma RequirePlanMonotone(p: Plan, q: Plan, u: User, v: User)
    requires PlanRank(q) <= PlanRank(p) && RanksAtLeast(v.tier, u.tier)
    requires RequirePlan(p, Some(u)).Next?
    ensures RequirePlan(q, Some(u)).Next?
    ensures RequirePlan(p, Some(v)).Next?
  {
  }

  /** Everyone signed in passes the free gate, and a tier string that is
      neither a plan name nor an inherited member passes nothing else. */
  lemma UnknownTierIsFree(p: Plan, u: User)
    requires !KnownTier(u.tier) && !InheritedKey(u.tier)
    ensures RequirePlan(Free, Some(u)).Next?
    ensures RequirePlan(p, Some(u)).Next? <==> p == Free
  {
  }

  /** A tier naming an inherited member, such as "toString", passes every
      plan gate and the execution gate, like an institutional one. */
  lemma InheritedKeyPassesAll(p: Plan, u: User, read: CountRead)
    requires InheritedKey(u.tier)
    ensures RequirePlan(p, Some(u)).Next?
    ensures CheckRebalanceLimit(Some(u), read).Next?
    ensures RequirePlan(Institutional, Some(User(u.id, "toString"))).Next?
  {
  }

  /** Institutional passes every gate; free passes only the free gate. */
  lemma ExtremeTiers(p: Plan, u: User)
    ensures u.tier == "institutional" ==> RequirePlan(p, Some(u)).Next?
    ensures u.tier == "free" ==> (RequirePlan(p, Some(u)).Next? <==> p == Free)
  {
  }

  /** Monthly executions allowed on the starter plan. */
  const STARTER_MONTHLY_LIMIT: nat := 4

  /** The read of this month's execution count: a row, the "no single row"
      answer (PostgREST code PGRST116), or any other error. A `null` count
      is 0. */
  datatype CountRead = Row(count: int) | NoSingleRow | ReadFailed

  /** `checkRebalanceLimit`: professional and institutional pass; starter is
      refused when the count cannot be read or has reached 4; free is refused;
      any other tier passes. */
  function CheckRebalanceLimit(user: Option<User>, read: CountRead): (r: Gate)
    ensures user.None? ==> r == Deny(401, NotAuthenticated)
    ensures user.Some? && user.value.tier in {"professional", "institutional"} ==> r.Next?
    ensures user.Some? && user.value.tier == "free" ==> r == Deny(403, SubscriptionRequired)
    ensures user.Some? && user.value.tier == "starter" ==>
      && (read.ReadFailed? <==> r == Deny(500, LimitCheckFailed))
      && (r.Deny? && r.denial.LimitReached? <==> read.Row? && read.count >= STARTER_MONTHLY_LIMIT)
      && (read.Row? && read.count >= STARTER_MONTHLY_LIMIT ==>
            r == Deny(403, LimitReached(STARTER_MONTHLY_LIMIT, read.count)))
      && (r.Next? <==> !read.ReadFailed? && !(read.Row? && read.count >= STARTER_MONTHLY_LIMIT))
  {
    match user
    case None => Deny(401, NotAuthenticated)
    case Some(u) =>
      if u.tier == "professional" || u.tier == "institutional" then Next
      else if u.tier == "starter" && read.ReadFailed? then Deny(500, LimitCheckFailed)
      else if u.tier == "starter" && read.Row? && read.count >= STARTER_MONTHLY_LIMIT then
        Deny(403, LimitReached(STARTER_MONTHLY_LIMIT, read.count))
      else if u.tier == "free" then Deny(403, SubscriptionRequired)
      else Next
  }

  /** A starter user with three executions this month (or none recorded)
      may make another; one with four may not. */
  lemma StarterQuotaExamples(u: User)
    requires u.tier == "starter"
    ensures CheckRebalanceLimit(Some(u), Row(3)).Next?
    ensures CheckRebalanceLimit(Some(u), NoSingleRow).Next?
    ensures CheckRebalanceLimit(Some(u), Row(4)) == Deny(403, LimitReached(4, 4))
  {
  }

  /** For the four known tiers the execution gate admits exactly the users the
      starter plan gate admits, apart from the starter quota. */
  lemma LimitAgreesWithPlan(u: User, read: CountRead)
    requires KnownTier(u.tier)
    requires !read.ReadFailed? && !(read.Row? && read.count >= STARTER_MONTHLY_LIMIT)
    ensures CheckRebalanceLimit(Some(u), read).Next? <==> RequirePlan(Starter, Some(u)).Next?
  {
  }

  /** A tier string that is neither a plan name nor an inherited member is
      refused by the starter plan gate yet passes the execution gate with no
      quota. */
  lemma UnknownTierDiverges(u: User, read: CountRead)
    requires !KnownTier(u.tier) && !InheritedKey(u.tier)
    ensures CheckRebalanceLimit(Some(u), read).Next?
    ensures RequirePlan(Starter, Some(u)).Deny?
  {
  }
}

=== FILE: order_status.dfy ===
/** The order-status presentation shared by src/pages/Portfolio.tsx and
    src/pages/Orders.tsx: the badge variant, the icon, and which statuses are
    final. Both pages lower-case the status before comparing. */
module OrderStatus {
  import opened Text

  /** The badge variants; `Outline` is declared by the pages but never
      chosen. */
  datatype Variant = Default | Secondary | Destructive | Outline

  /** The status icons: a check, a cross, a clock, and a question mark. */
  datatype Icon = CheckIcon | CrossIcon | ClockIcon | AlertIcon

  /** A status after which the order no longer changes. */
  predicate IsTerminal(status: string) {
    ToLower(status) in {"settled", "refunded", "expired"}
  }

  /** `getStatusVariant(status)` (identical on both pages). */
  function StatusVariant(status: string): (v: Variant)
    ensures v != Outline
    ensures v == Default <==> ToLower(status) == "settled"
    ensures v == Destructive <==> ToLower(status) == "refunded" || ToLower(status) == "expired"
  {
    var s := ToLower(status);
    if s == "settled" then Default
    else if s == "refunded" || s == "expired" then Destructive
    else Secondary
  }

  /** `getStatusIcon(status)` (the same cases on both pages). */
  function StatusIcon(status: string): (i: Icon)
    ensures i == ClockIcon <==> ToLower(status) == "pending" || ToLower(status) == "processing"
  {
    var s := ToLower(status);
    if s == "settled" then CheckIcon
    else if s == "refunded" || s == "expired" then CrossIcon
    else if s == "pending" || s == "processing" then ClockIcon
    else AlertIcon
  }

  /** The badge singles out exactly the final statuses, the icon agrees with
      the badge, and neither depends on letter case. */
  lemma VariantMarksTerminal(status: string)
    ensures StatusVariant(status) != Secondary <==> IsTerminal(status)
    ensures StatusIcon(status) == CheckIcon <==> StatusVariant(status) == Default
    ensures StatusIcon(status) == CrossIcon <==> StatusVariant(status) == Destructive
    ensures StatusVariant(ToUpper(status)) == StatusVariant(status)
    ensures IsTerminal(ToUpper(status)) == IsTerminal(status)
  {
    ToLowerAfterToUpper(status);
  }

  /** A `refetchInterval` answer: stop, or poll every so many milliseconds. */
  datatype Poll = Stop | Every(ms: nat)

  /** The polling period of both pages. */
  const POLL_MS: nat := 10000
}

=== FILE: orders_page.dfy ===
/** The state logic of src/pages/Orders.tsx: the search box and the polling
    rule for a single order's status. */
module OrdersPage {
  import opened Wrappers
  import opened Text
  import opened OrderStatus
  import PortfolioPage

  /** `handleSearch()`: the searched id becomes the trimmed input, unless
      that is empty. */
  function HandleSearch(input: string, searched: string): (r: string)
    ensures Trim(input) != "" ==> r == Trim(input)
    ensures Trim(input) == "" ==> r == searched
    ensures r == searched || Trim(r) == r
  {
    TrimIdempotent(input);
    if Trim(input) != "" then Trim(input) else searched
  }

  /** Searching the same text twice is searching it once. */
  lemma SearchIdempotent(input: string, searched: string)
    ensures HandleSearch(input, HandleSearch(input, searched)) == HandleSearch(input, searched)
  {
  }

  /** The `refetchInterval` of the status query, given the loaded order's
      status. */
  function PollInterval(data: Option<string>): (p: Poll)
    ensures p == Stop <==> data.None? || IsTerminal(data.value)
    ensures p != Stop ==> p == Every(POLL_MS)
  {
    match data
    case None => Stop
    case Some(status) =>
      var s := ToLower(status);
      if s == "settled" || s == "refunded" || s == "expired" then Stop else Every(POLL_MS)
  }

  /** The single-order rule is the portfolio rule on a one-order list, so
      both pages treat the same statuses as final. */
  lemma SameRuleAsPortfolio(data: Option<string>)
    ensures PollInterval(data) == PortfolioPage.PollInterval(if data.Some? then Some([data.value]) else None)
  {
    if data.Some? {
      var one := [data.value];
      assert (forall i :: 0 <= i < |one| ==> IsTerminal(one[i])) <==> IsTerminal(data.value) by {
        assert one[0] == data.value;
      }
    }
  }
}

=== FILE: portfolio_page.dfy ===
/** The state logic of src/pages/Portfolio.tsx: the tracked order ids (kept
    in local storage, here a plain sequence), adding and removing an id, the
    polling rule for the bulk status query, and the status counts. The
    fetched orders are given by their status texts. */
module PortfolioPage {
  import opened Wrappers
  import opened Seqs
  import opened Text
  import opened OrderStatus

  /** The id list after `handleAddOrder`, and whether the input was taken
      (which also clears the field and closes the dialog). */
  datatype Added = Added(ids: seq<string>, accepted: bool)

  /** `handleAddOrder()`: the trimmed input is appended unless it is empty or
      already tracked. */
  function AddOrder(ids: seq<string>, input: string): (r: Added)
    ensures r.accepted <==> Trim(input) != "" && Trim(input) !in ids
    ensures r.accepted ==> r.ids == ids + [Trim(input)]
    ensures !r.accepted ==> r.ids == ids
  {
    var id := Trim(input);
    if id != "" && id !in ids then Added(ids + [id], true) else Added(ids, false)
  }

  /** Adding never creates a duplicate. */
  lemma AddKeepsDistinct(ids: seq<string>, input: string)
    requires AllDistinct(ids)
    ensures AllDistinct(AddOrder(ids, input).ids)
  {
    var r := AddOrder(ids, input).ids;
    if AddOrder(ids, input).accepted {
      forall i, j | 0 <= i < j < |r|
        ensures r[i] != r[j]
      {
        if j == |ids| {
          assert r[i] == ids[i];
        }
      }
    }
  }

  function IsNot(id: string): string -> bool {
    (x: string) => x != id
  }

  /** `handleRemoveOrder(orderId)`: the list without that id, the others in
      their order. */
  function RemoveOrder(ids: seq<string>, id: string): (r: seq<string>)
    ensures id !in r
    ensures forall x :: x in r <==> x in ids && x != id
  {
    Filter(ids, IsNot(id))
  }

  /** Removal keeps the relative order of the remaining ids. */
  lemma RemoveKeepsOrder(a: seq<string>, b: seq<string>, id: string)
    ensures RemoveOrder(a + b, id) == RemoveOrder(a, id) + RemoveOrder(b, id)
  {
    FilterConcat(a, b, IsNot(id));
  }

  /** Removing the id just added gives back the list as it was. */
  lemma RemoveUndoesAdd(ids: seq<string>, input: string)
    requires AddOrder(ids, input).accepted
    ensures RemoveOrder(AddOrder(ids, input).ids, Trim(input)) == ids
  {
    var id := Trim(input);
    FilterConcat(ids, [id], IsNot(id));
    FilterAll(ids, IsNot(id));
    assert Filter([id], IsNot(id)) == [];
  }

  /** The `refetchInterval` of the bulk query: stop without data or when every
      order is final, otherwise poll. */
  function PollInterval(data: Option<seq<string>>): (p: Poll)
    ensures p == Stop <==> data.None? || forall i :: 0 <= i < |data.value| ==> IsTerminal(data.value[i])
    ensures p != Stop ==> p == Every(POLL_MS)
  {
    match data
    case None => Stop
    case Some(statuses) =>
      if forall i :: 0 <= i < |statuses| ==> IsTerminal(statuses[i]) then Stop else Every(POLL_MS)
  }

  predicate IsSettled(status: string) {
    ToLower(status) == "settled"
  }

  predicate IsInFlight(status: string) {
    ToLower(status) == "pending" || ToLower(status) == "processing"
  }

  predicate IsFailed(status: string) {
    ToLower(status) == "refunded" || ToLower(status) == "expired"
  }

  function SettledStatus(): string -> bool { (s: string) => IsSettled(s) }
  function InFlightStatus(): string -> bool { (s: string) => IsInFlight(s) }
  function FailedStatus(): string -> bool { (s: string) => IsFailed(s) }
  function TerminalStatus(): string -> bool { (s: string) => IsTerminal(s) }

  /** The summary cards. */
  datatype Stats = Stats(total: nat, settled: nat, pending: nat, failed: nat)

  /** `stats`: all counts are 0 before the orders have loaded. */
  function PortfolioStats(orders: Option<seq<string>>): (st: Stats)
    ensures orders.None? ==> st == Stats(0, 0, 0, 0)
    ensures orders.Some? ==> st.total == |orders.value|
    ensures orders.Some? ==>
      && st.settled == Count(orders.value, SettledStatus())
      && st.pending == Count(orders.value, InFlightStatus())
      && st.failed == Count(orders.value, FailedStatus())
    ensures st.settled + st.pending + st.failed <= st.total
  {
    match orders
    case None => Stats(0, 0, 0, 0)
    case Some(s) =>
      BucketsDisjoint(s);
      Stats(|s|, Count(s, SettledStatus()), Count(s, InFlightStatus()), Count(s, FailedStatus()))
  }

  /** The three buckets are disjoint, and settled plus failed are exactly the
      final statuses. */
  lemma {:induction false} BucketsDisjoint(s: seq<string>)
    ensures Count(s, SettledStatus()) + Count(s, InFlightStatus()) + Count(s, FailedStatus()) <= |s|
    ensures Count(s, SettledStatus()) + Count(s, FailedStatus()) == Count(s, TerminalStatus())
    decreases |s|
  {
    if |s| > 0 {
      BucketsDisjoint(s[1..]);
      CountCons(s, SettledStatus());
      CountCons(s, InFlightStatus());
      CountCons(s, FailedStatus());
      CountCons(s, TerminalStatus());
    }
  }

  /** Polling stops on loaded data exactly when the settled and failed cards
      add up to the total. */
  lemma PollStopsIffAllCounted(orders: seq<string>)
    ensures PollInterval(Some(orders)) == Stop <==>
      PortfolioStats(Some(orders)).settled + PortfolioStats(Some(orders)).failed == PortfolioStats(Some(orders)).total
  {
    BucketsDisjoint(orders);
    CountAllIffEvery(orders, TerminalStatus());
  }
}

=== FILE: rebalancing.dfy ===
/** The execution side of backend/src/services/rebalancing.ts: the asset to
    swap-coin mapping, `executeRebalance`, `batchExecuteRebalances` and
    `monitorShiftOrder`. The swap service is a `Gateway` of two functions
    whose `None` is a failed or rejected HTTP call; database writes whose
    errors the source does not act on are given as `Writes` outcomes. */
module Rebalancing {
  import opened Wrappers
  import opened Seqs
  import opened Text
  import opened Records

  // ------------------------------------------------------------ coin ids

  /** The fixed symbol table of `mapAssetToSideShiftCoin`; its coin ids are
      lower case. */
  function CoinTable(symbol: string): (r: Option<string>)
    ensures r.Some? ==> IsLowerCase(r.value)
  {
    if symbol == "ETH" || symbol == "WETH" then Some("eth")
    else if symbol == "BTC" || symbol == "WBTC" then Some("btc")
    else if symbol == "USDC" then Some("usdcarbitrum")
    else if symbol == "USDT" then Some("usdttrc20")
    else if symbol == "DAI" then Some("dai")
    else if symbol == "MATIC" then Some("matic")
    else if symbol == "AVAX" then Some("avax")
    else if symbol == "SOL" then Some("sol")
    else if symbol == "ATOM" then Some("atom")
    else if symbol == "DOT" then Some("dot")
    else if symbol == "LINK" then Some("link")
    else if symbol == "UNI" then Some("uni")
    else if symbol == "AAVE" then Some("aave")
    else if symbol == "CRV" then Some("crv")
    else None
  }

  /** The swap service's coin id for an asset symbol: the table entry of the
      upper-cased symbol, otherwise the lower-cased symbol. Every coin id is
      lower case. */
  function MapAssetToSideShiftCoin(asset: string): (r: string)
    ensures IsLowerCase(r)
    ensures CoinTable(ToUpper(asset)).None? ==> r == ToLower(asset)
  {
    match CoinTable(ToUpper(asset))
    case Some(coin) => coin
    case None => ToLower(asset)
  }

  /** The mapping ignores letter case. */
  lemma CoinCaseInsensitive(a: string, b: string)
    requires ToUpper(a) == ToUpper(b)
    ensures MapAssetToSideShiftCoin(a) == MapAssetToSideShiftCoin(b)
  {
    ToLowerAfterToUpper(a);
    ToLowerAfterToUpper(b);
  }

  /** Wrapped tokens swap as their underlying coin, whatever the case. */
  lemma CoinTableExamples()
    ensures MapAssetToSideShiftCoin("weth") == MapAssetToSideShiftCoin("ETH") == "eth"
    ensures MapAssetToSideShiftCoin("WBTC") == MapAssetToSideShiftCoin("btc") == "btc"
  {
    var w, b := ToUpper("weth"), ToUpper("btc");
    assert w == "WETH" by {
      assert w[0] == 'W' && w[1] == 'E' && w[2] == 'T' && w[3] == 'H';
    }
    assert b == "BTC" by {
      assert b[0] == 'B' && b[1] == 'T' && b[2] == 'C';
    }
    ToUpperOfUpperCase("ETH");
    ToUpperOfUpperCase("WBTC");
  }

  /** The stablecoins go to the networks the service chose for them. */
  lemma StablecoinCoins()
    ensures MapAssetToSideShiftCoin("usdc") == "usdcarbitrum"
    ensures MapAssetToSideShiftCoin("USDT") == "usdttrc20"
  {
    var u := ToUpper("usdc");
    assert u == "USDC" by {
      assert u[0] == 'U' && u[1] == 'S' && u[2] == 'D' && u[3] == 'C';
    }
    ToUpperOfUpperCase("USDT");
  }

  /** A symbol outside the table, such as a liquid-staking token, is passed
      on lower-cased. */
  lemma UnmappedCoinFallback()
    ensures MapAssetToSideShiftCoin("stETH") == "steth"
  {
    var u, l := ToUpper("stETH"), ToLower("stETH");
    assert u == "STETH" by {
      assert u[0] == 'S' && u[1] == 'T' && u[2] == 'E' && u[3] == 'T' && u[4] == 'H';
    }
    assert l == "steth" by {
      assert l[0] == 's' && l[1] == 't' && l[2] == 'e' && l[3] == 't' && l[4] == 'h';
    }
  }

  // ------------------------------------------------------------- gateway

  datatype Quote = Quote(id: string)

  datatype Order = Order(id: string, status: string)

  /** The swap service as seen by one execution: a fixed-rate quote for
      (deposit coin, settle coin, amount), and an order for (quote id, settle
      address). */
  datatype Gateway = Gateway(
    quote: (string, string, real) -> Option<Quote>,
    order: (string, string) -> Option<Order>)

  /** A request sent to the swap service. */
  datatype Call =
    | QuoteCall(depositCoin: string, settleCoin: string, amount: real)
    | OrderCall(quoteId: string, settleAddress: string)

  /** Whether the unchecked database writes of one execution take effect:
      the recommendation status update and the history insert. */
  datatype Writes = Writes(statusOk: bool, historyOk: bool)

  /** The store after an execution, its result, and the calls it made. */
  datatype Execution = Execution(store: Store, result: Result<Order, string>, calls: seq<Call>)

  const NOT_FOUND: string := "Recommendation not found"
  const ALREADY_PROCESSED: string := "Recommendation already processed"
  const MANUAL_REQUIRED: string :=
    "Manual rebalancing required - same asset, different protocol. Please withdraw and re-deposit manually."
  const QUOTE_FAILED: string := "Failed to get shift quote"
  const ORDER_FAILED: string := "Failed to create shift order"

  function MarkManual(now: Time): Recommendation -> Recommendation {
    (rec: Recommendation) => rec.(status := ManualRequired, updatedAt := Some(now))
  }

  function MarkExecuted(now: Time, shiftId: string): Recommendation -> Recommendation {
    (rec: Recommendation) => rec.(status := Executed, executedAt := Some(now), shiftId := Some(shiftId))
  }

  /** The recommendation `id` is no longer pending: every row with that id
      has left the pending state. */
  ghost predicate Settled(s: Store, id: string) {
    forall i :: 0 <= i < |s.recommendations| && s.recommendations[i].id == id ==>
      s.recommendations[i].status != Pending
  }

  /** The rows keep their order, ids, owners and contents; a row may only
      move out of the pending state, and only rows with id `id` change. */
  ghost predicate OnlyStatusOf(s: Store, t: Store, id: string) {
    && |t.recommendations| == |s.recommendations|
    && forall i :: 0 <= i < |s.recommendations| ==>
         var a := s.recommendations[i];
         var b := t.recommendations[i];
         && b.id == a.id && b.userId == a.userId && b.body == a.body
         && (a.id != id ==> b == a)
         && (b.status == Pending ==> b == a)
  }

  /** Which answer each guard of `executeRebalance` gives and which calls it
      makes: a missing recommendation, one that is not pending, and one with a
      source protocol are refused without a call; otherwise a same-coin quote
      is requested for the amount, a failed quote ends there, and an order
      for the quote to the wallet succeeds exactly when the service returns
      one, with that order as the result. */
  predicate FollowsGuards(s: Store, id: string, wallet: string, gw: Gateway, r: Execution) {
    match FindRecommendation(s, id)
    case None => r.result == Failure(NOT_FOUND) && r.calls == []
    case Some(rec) =>
      if rec.status != Pending then r.result == Failure(ALREADY_PROCESSED) && r.calls == []
      else if Truthy(rec.body.fromProtocol) then r.result == Failure(MANUAL_REQUIRED) && r.calls == []
      else
        var coin := MapAssetToSideShiftCoin(rec.body.asset);
        && |r.calls| >= 1
        && r.calls[0] == QuoteCall(coin, coin, rec.body.amount)
        && (gw.quote(coin, coin, rec.body.amount).None? ==> r.result == Failure(QUOTE_FAILED) && |r.calls| == 1)
        && (gw.quote(coin, coin, rec.body.amount).Some? ==>
              var q := gw.quote(coin, coin, rec.body.amount).value;
              && |r.calls| == 2
              && r.calls[1] == OrderCall(q.id, wallet)
              && (r.result.Success? <==> gw.order(q.id, wallet).Some?)
              && (r.result.Success? ==> r.result.value == gw.order(q.id, wallet).value)
              && (r.result.Failure? ==> r.result.error == ORDER_FAILED))
  }

  /** `executeRebalance(id, wallet)`. Source and target asset are the same
      symbol, so a recommendation with a source protocol is marked for manual
      handling instead of being swapped; otherwise a same-coin quote is
      requested and an order placed to the wallet. A successful order marks
      the recommendation executed and adds a pending history row. */
  function ExecuteRebalance(s: Store, id: string, wallet: string, gw: Gateway, w: Writes, now: Time): (r: Execution)
    ensures FollowsGuards(s, id, wallet, gw, r)
    ensures OnlyStatusOf(s, r.store, id)
    ensures r.result.Failure? ==> r.store.history == s.history
    ensures r.result.Failure? && r.result.error != MANUAL_REQUIRED ==> r.store == s
    ensures r.result.Failure? && r.result.error == MANUAL_REQUIRED ==>
      forall i :: 0 <= i < |s.recommendations| && s.recommendations[i].id == id ==>
        var a := s.recommendations[i];
        var b := r.store.recommendations[i];
        if w.statusOk then
          && b.status == ManualRequired && b.updatedAt == Some(now)
          && b.executedAt == a.executedAt && b.shiftId == a.shiftId
        else b == a
    ensures |r.calls| > 0 ==>
      && FindRecommendation(s, id).Some?
      && FindRecommendation(s, id).value.status == Pending
      && !Truthy(FindRecommendation(s, id).value.body.fromProtocol)
      && r.calls[0].QuoteCall?
      && r.calls[0].depositCoin == r.calls[0].settleCoin
           == MapAssetToSideShiftCoin(FindRecommendation(s, id).value.body.asset)
      && r.calls[0].amount == FindRecommendation(s, id).value.body.amount
    ensures r.result.Success? ==>
      && |r.calls| == 2 && r.calls[1].OrderCall? && r.calls[1].settleAddress == wallet
      && (w.statusOk ==> Settled(r.store, id))
      && (w.statusOk ==> forall i :: 0 <= i < |s.recommendations| && s.recommendations[i].id == id ==>
            && r.store.recommendations[i].status == Executed
            && r.store.recommendations[i].shiftId == Some(r.result.value.id)
            && r.store.recommendations[i].executedAt == Some(now)
            && r.store.recommendations[i].updatedAt == s.recommendations[i].updatedAt)
      && (!w.statusOk ==> r.store.recommendations == s.recommendations)
      && (w.historyOk ==>
            var rec := FindRecommendation(s, id).value;
            r.store.history == s.history + [HistoryEntry(
              rec.userId, id, r.result.value.id, rec.body.fromProtocol,
              rec.body.toProtocol, rec.body.asset, rec.body.amount, "pending")])
      && (!w.historyOk ==> r.store.history == s.history)
  {
    match FindRecommendation(s, id)
    case None => Execution(s, Failure(NOT_FOUND), [])
    case Some(rec) =>
      if rec.status != Pending then Execution(s, Failure(ALREADY_PROCESSED), [])
      else if Truthy(rec.body.fromProtocol) then
        var recs := if w.statusOk then UpdateWhere(s.recommendations, HasId(id), MarkManual(now))
                    else s.recommendations;
        Execution(Store(recs, s.history), Failure(MANUAL_REQUIRED), [])
      else
        var coin := MapAssetToSideShiftCoin(rec.body.asset);
        var quoteCall := QuoteCall(coin, coin, rec.body.amount);
        match gw.quote(coin, coin, rec.body.amount)
        case None => Execution(s, Failure(QUOTE_FAILED), [quoteCall])
        case Some(q) =>
          var orderCall := OrderCall(q.id, wallet);
          match gw.order(q.id, wallet)
          case None => Execution(s, Failure(ORDER_FAILED), [quoteCall, orderCall])
          case Some(o) =>
            var recs := if w.statusOk then UpdateWhere(s.recommendations, HasId(id), MarkExecuted(now, o.id))
                        else s.recommendations;
            var entry := HistoryEntry(rec.userId, id, o.id, rec.body.fromProtocol,
                                      rec.body.toProtocol, rec.body.asset, rec.body.amount, "pending");
            var hist := if w.historyOk then s.history + [entry] else s.history;
            Execution(Store(recs, hist), Success(o), [quoteCall, orderCall])
  }

  /** A recommendation that has left the pending state is never executed
      again: the call fails and changes nothing. */
  lemma SettledFails(s: Store, id: string, wallet: string, gw: Gateway, w: Writes, now: Time)
    requires Settled(s, id)
    ensures var r := ExecuteRebalance(s, id, wallet, gw, w, now);
      r.result.Failure? && r.store == s && r.calls == []
  {
    match FindRecommendation(s, id)
    case None =>
    case Some(rec) =>
      var i :| 0 <= i < |s.recommendations| && s.recommendations[i] == rec;
  }

  /** Executing any recommendation keeps every settled one settled. */
  lemma ExecuteKeepsSettled(s: Store, x: string, id: string, wallet: string, gw: Gateway, w: Writes, now: Time)
    requires Settled(s, x)
    ensures Settled(ExecuteRebalance(s, id, wallet, gw, w, now).store, x)
  {
  }

  /** A recommendation with a non-empty source protocol never reaches the
      swap service; a per-position recommendation always has one. */
  lemma SourcedNeverSwaps(s: Store, id: string, wallet: string, gw: Gateway, w: Writes, now: Time)
    requires FindRecommendation(s, id).Some?
    requires Truthy(FindRecommendation(s, id).value.body.fromProtocol)
    ensures var r := ExecuteRebalance(s, id, wallet, gw, w, now);
      && r.calls == []
      && r.result.Failure?
      && (FindRecommendation(s, id).value.status == Pending ==> r.result.error == MANUAL_REQUIRED)
      && (w.statusOk ==> Settled(r.store, id))
  {
  }

  /** For a pending recommendation without a source protocol, the swap
      succeeds exactly when the service gives both a quote and an order; the
      result is that order, and any failure leaves the store as it was. */
  lemma SwapSucceedsIffServiceAnswers(s: Store, id: string, wallet: string, gw: Gateway, w: Writes, now: Time)
    requires FindRecommendation(s, id).Some?
    requires FindRecommendation(s, id).value.status == Pending
    requires !Truthy(FindRecommendation(s, id).value.body.fromProtocol)
    ensures var rec := FindRecommendation(s, id).value;
      var coin := MapAssetToSideShiftCoin(rec.body.asset);
      var q := gw.quote(coin, coin, rec.body.amount);
      var r := ExecuteRebalance(s, id, wallet, gw, w, now);
      && (r.result.Success? <==> q.Some? && gw.order(q.value.id, wallet).Some?)
      && (r.result.Success? ==> r.result.value == gw.order(q.value.id, wallet).value)
      && (r.result.Failure? ==> r.store == s && r.result.error in {QUOTE_FAILED, ORDER_FAILED})
  {
  }

  // ---------------------------------------------------------------- batch

  /** One entry of `results`; `error` is `undefined` on success. */
  datatype BatchResult = BatchResult(id: string, success: bool, error: Option<string>)

  function IsSuccess(): BatchResult -> bool {
    (b: BatchResult) => b.success
  }

  function Outcome(id: string, result: Result<Order, string>): (b: BatchResult)
    ensures b.id == id && (b.success <==> result.Success?) && (b.success <==> b.error.None?)
  {
    match result
    case Success(_) => BatchResult(id, true, None)
    case Failure(e) => BatchResult(id, false, Some(e))
  }

  /** After the first `|results|` attempts of a batch over `ids`: every id
      that succeeded with its status written is settled in `t`, and no id
      succeeded after such a success. */
  ghost predicate AtMostOnce(t: Store, ids: seq<string>, results: seq<BatchResult>, writes: nat -> Writes) {
    && |results| <= |ids|
    && (forall k :: 0 <= k < |results| && results[k].success && writes(k).statusOk ==> Settled(t, ids[k]))
    && (forall k, l :: 0 <= k < l < |results| && ids[k] == ids[l] && results[k].success && writes(k).statusOk
          ==> !results[l].success)
  }

  /** A successful execution whose status write went through settles the
      recommendation. */
  lemma ExecuteSettles(s: Store, id: string, wallet: string, gw: Gateway, w: Writes, now: Time)
    ensures var r := ExecuteRebalance(s, id, wallet, gw, w, now);
      r.result.Success? && w.statusOk ==> Settled(r.store, id)
  {
  }

  /** One more attempt keeps `AtMostOnce`. */
  lemma BatchStep(t: Store, ids: seq<string>, results: seq<BatchResult>, wallet: string,
                  gw: Gateway, writes: nat -> Writes, now: Time)
    requires |results| < |ids|
    requires AtMostOnce(t, ids, results, writes)
    ensures var i := |results|;
      var r := ExecuteRebalance(t, ids[i], wallet, gw, writes(i), now);
      AtMostOnce(r.store, ids, results + [Outcome(ids[i], r.result)], writes)
  {
    var i := |results|;
    var r := ExecuteRebalance(t, ids[i], wallet, gw, writes(i), now);
    var entry := Outcome(ids[i], r.result);
    var next := results + [entry];
    assert next[i] == entry;
    assert forall k :: 0 <= k < i ==> next[k] == results[k];
    forall k | 0 <= k < |next| && next[k].success && writes(k).statusOk
      ensures Settled(r.store, ids[k])
    {
      if k < i {
        ExecuteKeepsSettled(t, ids[k], ids[i], wallet, gw, writes(i), now);
      } else {
        ExecuteSettles(t, ids[i], wallet, gw, writes(i), now);
      }
    }
    forall k, l | 0 <= k < l < |next| && ids[k] == ids[l] && next[k].success && writes(k).statusOk
      ensures !next[l].success
    {
      if l == i {
        SettledFails(t, ids[i], wallet, gw, writes(i), now);
      }
    }
  }

  lemma CountAppend(results: seq<BatchResult>, entry: BatchResult)
    ensures Count(results + [entry], IsSuccess()) == Count(results, IsSuccess()) + (if entry.success then 1 else 0)
  {
    FilterConcat(results, [entry], IsSuccess());
    assert Filter([entry], IsSuccess()) == if entry.success then [entry] else [];
  }

  /** One iteration of the batch loop: executes the next id and reports its
      result entry, keeping `AtMostOnce`. */
  method Attempt(t: Store, ids: seq<string>, results: seq<BatchResult>, wallet: string,
                 gw: Gateway, writes: nat -> Writes, now: Time)
    returns (next: Store, entry: BatchResult)
    requires |results| < |ids|
    requires AtMostOnce(t, ids, results, writes)
    ensures var e := ExecuteRebalance(t, ids[|results|], wallet, gw, writes(|results|), now);
      next == e.store && entry == Outcome(ids[|results|], e.result)
    ensures entry.id == ids[|results|] && (entry.success <==> entry.error.None?)
    ensures AtMostOnce(next, ids, results + [entry], writes)
  {
    var r := ExecuteRebalance(t, ids[|results|], wallet, gw, writes(|results|), now);
    BatchStep(t, ids, results, wallet, gw, writes, now);
    next := r.store;
    entry := Outcome(ids[|results|], r.result);
  }

  /** The first `n` steps of a loop over `xs` from state `s`: step `k` takes
      the state left by the steps before it, `xs[k]` and `k`, and gives the
      next state and an entry. The final state and the entries in order. */
  function Run<S, A, R>(step: (S, A, nat) -> (S, R), s: S, xs: seq<A>, n: nat): (r: (S, seq<R>))
    requires n <= |xs|
    ensures |r.1| == n
  {
    if n == 0 then (s, [])
    else
      var before := Run(step, s, xs, n - 1);
      var next := step(before.0, xs[n - 1], n - 1);
      (next.0, before.1 + [next.1])
  }

  /** Later steps do not rewrite earlier entries: entry `k` is what step `k`
      gave on the state left by the first `k` steps. */
  lemma {:induction false} RunEntry<S, A, R>(step: (S, A, nat) -> (S, R), s: S, xs: seq<A>, n: nat, k: nat)
    requires k < n <= |xs|
    ensures Run(step, s, xs, n).1[k] == step(Run(step, s, xs, k).0, xs[k], k).1
    decreases n
  {
    var before := Run(step, s, xs, n - 1);
    var full := Run(step, s, xs, n).1;
    assert full == before.1 + [step(before.0, xs[n - 1], n - 1).1];
    if k < n - 1 {
      RunEntry(step, s, xs, n - 1, k);
      assert full[k] == before.1[k];
    }
  }

  /** Attempt `k` of a batch: `executeRebalance(id, wallet)` with gateway
      `gateways(k)`, write outcomes `writes(k)` and clock `clock(k)`, and its
      result entry. */
  function BatchAttempt(wallet: string, gateways: nat -> Gateway, writes: nat -> Writes, clock: nat -> Time)
    : (Store, string, nat) -> (Store, BatchResult)
  {
    (t: Store, id: string, k: nat) =>
      var e := ExecuteRebalance(t, id, wallet, gateways(k), writes(k), clock(k));
      (e.store, Outcome(id, e.result))
  }

  /** The store after the first `n` attempts of a batch over `ids`, and
      their result entries. */
  function BatchPrefix(s: Store, ids: seq<string>, wallet: string,
                       gateways: nat -> Gateway, writes: nat -> Writes, clock: nat -> Time, n: nat): (r: (Store, seq<BatchResult>))
    requires n <= |ids|
    ensures |r.1| == n
  {
    Run(BatchAttempt(wallet, gateways, writes, clock), s, ids, n)
  }

  /** Entry `k` of any longer prefix is the outcome of executing `ids[k]`
      against the store left by the first `k` attempts. */
  lemma BatchEntry(s: Store, ids: seq<string>, wallet: string,
                   gateways: nat -> Gateway, writes: nat -> Writes, clock: nat -> Time, n: nat, k: nat)
    requires k < n <= |ids|
    ensures BatchPrefix(s, ids, wallet, gateways, writes, clock, n).1[k]
         == Outcome(ids[k], ExecuteRebalance(BatchPrefix(s, ids, wallet, gateways, writes, clock, k).0,
                                             ids[k], wallet, gateways(k), writes(k), clock(k)).result)
  {
    RunEntry(BatchAttempt(wallet, gateways, writes, clock), s, ids, n, k);
  }

  /** One more attempt extends a prefix of the batch. */
  lemma BatchPrefixNext(s: Store, ids: seq<string>, wallet: string,
                        gateways: nat -> Gateway, writes: nat -> Writes, clock: nat -> Time, i: nat)
    requires i < |ids|
    ensures var p := BatchPrefix(s, ids, wallet, gateways, writes, clock, i);
      var e := ExecuteRebalance(p.0, ids[i], wallet, gateways(i), writes(i), clock(i));
      BatchPrefix(s, ids, wallet, gateways, writes, clock, i + 1) == (e.store, p.1 + [Outcome(ids[i], e.result)])
  {
  }

  /** The entries of a whole batch, each the outcome of its own attempt. */
  lemma BatchEntries(s: Store, ids: seq<string>, wallet: string,
                     gateways: nat -> Gateway, writes: nat -> Writes, clock: nat -> Time)
    ensures var results := BatchPrefix(s, ids, wallet, gateways, writes, clock, |ids|).1;
      forall k :: 0 <= k < |ids| ==>
        results[k] == Outcome(ids[k], ExecuteRebalance(BatchPrefix(s, ids, wallet, gateways, writes, clock, k).0,
                                                       ids[k], wallet, gateways(k), writes(k), clock(k)).result)
  {
    forall k | 0 <= k < |ids|
      ensures BatchPrefix(s, ids, wallet, gateways, writes, clock, |ids|).1[k]
           == Outcome(ids[k], ExecuteRebalance(BatchPrefix(s, ids, wallet, gateways, writes, clock, k).0,
                                               ids[k], wallet, gateways(k), writes(k), clock(k)).result)
    {
      BatchEntry(s, ids, wallet, gateways, writes, clock, |ids|, k);
    }
  }

  /** `batchExecuteRebalances(ids, wallet)`: the ids are executed one after
      another against the evolving store. Result `k` is the outcome of
      executing `ids[k]` after the first `k` attempts, the final store is the
      one they leave, and the two counters add up. An id that succeeded with
      its status written cannot succeed again later in the same batch. */
  method BatchExecuteRebalances(
    s: Store, ids: seq<string>, wallet: string,
    gateways: nat -> Gateway, writes: nat -> Writes, clock: nat -> Time)
    returns (t: Store, results: seq<BatchResult>, successful: nat, failed: nat)
    ensures |results| == |ids|
    ensures forall k :: 0 <= k < |ids| ==>
      results[k] == Outcome(ids[k], ExecuteRebalance(BatchPrefix(s, ids, wallet, gateways, writes, clock, k).0,
                                                     ids[k], wallet, gateways(k), writes(k), clock(k)).result)
    ensures t == BatchPrefix(s, ids, wallet, gateways, writes, clock, |ids|).0
    ensures forall k :: 0 <= k < |ids| ==> results[k].id == ids[k]
    ensures forall k :: 0 <= k < |ids| ==> (results[k].success <==> results[k].error.None?)
    ensures successful == Count(results, IsSuccess()) && successful + failed == |ids|
    ensures forall k, l :: 0 <= k < l < |ids| && ids[k] == ids[l] && results[k].success && writes(k).statusOk
              ==> !results[l].success
  {
    t := s;
    results := [];
    successful := 0;
    failed := 0;
    var i := 0;
    while i < |ids|
      invariant 0 <= i <= |ids|
      invariant (t, results) == BatchPrefix(s, ids, wallet, gateways, writes, clock, i)
      invariant successful == Count(results, IsSuccess()) && successful + failed == i
      invariant AtMostOnce(t, ids, results, writes)
    {
      BatchPrefixNext(s, ids, wallet, gateways, writes, clock, i);
      var next, entry := Attempt(t, ids, results, wallet, gateways(i), writes, clock(i));
      CountAppend(results, entry);
      t, results := next, results + [entry];
      if entry.success {
        successful := successful + 1;
      } else {
        failed := failed + 1;
      }
      i := i + 1;
    }
    BatchEntries(s, ids, wallet, gateways, writes, clock);
  }

  // -------------------------------------------------------------- monitor

  function HistoryHasShift(shiftId: string): HistoryEntry -> bool {
    (h: HistoryEntry) => h.shiftId == shiftId
  }

  function SetHistoryStatus(status: string): HistoryEntry -> HistoryEntry {
    (h: HistoryEntry) => h.(status := status)
  }

  function RecHasShift(shiftId: string): Recommendation -> bool {
    (rec: Recommendation) => rec.shiftId == Some(shiftId)
  }

  function MarkCompleted(): Recommendation -> Recommendation {
    (rec: Recommendation) => rec.(status := Completed)
  }

  /** `monitorShiftOrder(shiftId)` given the status lookup's answer: history
      rows of the shift take the lower-cased order status, and a settled
      order completes the recommendations of the shift. */
  function MonitorShiftOrder(s: Store, shiftId: string, status: Option<Order>): (r: Store)
    ensures status.None? ==> r == s
    ensures |r.history| == |s.history| && |r.recommendations| == |s.recommendations|
    ensures forall i :: 0 <= i < |s.history| ==>
      if s.history[i].shiftId == shiftId && status.Some? then
        r.history[i] == s.history[i].(status := ToLower(status.value.status))
      else r.history[i] == s.history[i]
    ensures forall i :: 0 <= i < |s.recommendations| ==>
      (r.recommendations[i] != s.recommendations[i] ==>
         && s.recommendations[i].shiftId == Some(shiftId)
         && r.recommendations[i] == s.recommendations[i].(status := Completed))
    ensures forall i :: 0 <= i < |s.recommendations| ==>
      if status.Some? && ToLower(status.value.status) == "settled" && s.recommendations[i].shiftId == Some(shiftId)
      then r.recommendations[i] == s.recommendations[i].(status := Completed)
      else r.recommendations[i] == s.recommendations[i]
  {
    match status
    case None => s
    case Some(order) =>
      var lowered := ToLower(order.status);
      var hist := UpdateWhere(s.history, HistoryHasShift(shiftId), SetHistoryStatus(lowered));
      var recs := if lowered == "settled"
                  then UpdateWhere(s.recommendations, RecHasShift(shiftId), MarkCompleted())
                  else s.recommendations;
      Store(recs, hist)
  }

  /** The order status is compared without regard to letter case: "SETTLED"
      and "Settled" complete the shift's recommendations like "settled". */
  lemma MonitorCompletesOnSettled(s: Store, shiftId: string, order: Order)
    requires ToLower(order.status) == "settled"
    ensures forall i :: 0 <= i < |s.recommendations| && s.recommendations[i].shiftId == Some(shiftId) ==>
      MonitorShiftOrder(s, shiftId, Some(order)).recommendations[i].status == Completed
  {
  }

  /** Any other status leaves every recommendation as it was. */
  lemma MonitorOtherStatusKeepsRecommendations(s: Store, shiftId: string, order: Order)
    requires ToLower(order.status) != "settled"
    ensures MonitorShiftOrder(s, shiftId, Some(order)).recommendations == s.recommendations
  {
  }

  /** Polling the same answer twice has the effect of polling it once. */
  lemma MonitorIdempotent(s: Store, shiftId: string, status: Option<Order>)
    ensures MonitorShiftOrder(MonitorShiftOrder(s, shiftId, status), shiftId, status)
         == MonitorShiftOrder(s, shiftId, status)
  {
    var once := MonitorShiftOrder(s, shiftId, status);
    var twice := MonitorShiftOrder(once, shiftId, status);
    assert twice.history == once.history;
    assert twice.recommendations == once.recommendations;
  }
}

=== FILE: recommendations_page.dfy ===
/** The interaction logic of src/pages/Recommendations.tsx: the risk badge,
    the card selection, the execute guard, and which action a card offers. */
module RecommendationsPage {
  import opened Wrappers
  import opened Records

  /** `getRiskLabel(score)`. */
  function RiskLabel(score: real): (name: string)
    ensures name == "Low" <==> score <= 3.0
    ensures name == "Medium" <==> 3.0 < score <= 6.0
    ensures name == "High" <==> score > 6.0
  {
    if score <= 3.0 then "Low"
    else if score <= 6.0 then "Medium"
    else "High"
  }

  /** `getRiskColor(score)`. */
  function RiskColor(score: real): (color: string)
    ensures color in {"bg-green-500", "bg-yellow-500", "bg-red-500"}
  {
    if score <= 3.0 then "bg-green-500"
    else if score <= 6.0 then "bg-yellow-500"
    else "bg-red-500"
  }

  /** The two functions draw the same bands: two scores share a label
      exactly when they share a colour. On whole scores the bands are 1-3,
      4-6 and 7 up. */
  lemma LabelAndColorAgree(a: real, b: real, n: int)
    ensures RiskLabel(a) == RiskLabel(b) <==> RiskColor(a) == RiskColor(b)
    ensures RiskLabel(n as real) == "Medium" <==> 4 <= n <= 6
  {
  }

  /** `toggleSelect(id)`: flips the membership of one id. */
  function ToggleSelect(sel: set<string>, id: string): (r: set<string>)
    ensures id in r <==> id !in sel
    ensures forall x :: x != id ==> (x in r <==> x in sel)
  {
    if id in sel then sel - {id} else sel + {id}
  }

  /** Toggling twice is the identity, and toggles of different ids commute. */
  lemma ToggleSelectInvolution(sel: set<string>, id: string, other: string)
    ensures ToggleSelect(ToggleSelect(sel, id), id) == sel
    ensures ToggleSelect(ToggleSelect(sel, id), other) == ToggleSelect(ToggleSelect(sel, other), id)
  {
  }

  /** The execute mutation's arguments. */
  datatype ExecuteCall = ExecuteCall(id: string, address: string)

  /** `handleExecute(id)`: without a wallet address only a toast is shown and
      no request is made. */
  function HandleExecute(walletAddress: string, id: string): (r: Option<ExecuteCall>)
    ensures r.None? <==> walletAddress == ""
    ensures r.Some? ==> r.value.id == id && r.value.address == walletAddress
  {
    if walletAddress == "" then None else Some(ExecuteCall(id, walletAddress))
  }

  /** The action area of a card. */
  datatype Action = ExecuteButton | ExecutedBadge | StatusBadge(status: string)

  function ActionFor(status: string): (a: Action)
    ensures a.ExecuteButton? <==> status == "pending"
    ensures a.ExecutedBadge? <==> status == "executed"
    ensures a.StatusBadge? ==> a.status == status
  {
    if status == "pending" then ExecuteButton
    else if status == "executed" then ExecutedBadge
    else StatusBadge(status)
  }

  /** Among stored statuses only a pending recommendation offers Execute,
      which is the only status the execute route does not refuse as already
      processed. */
  lemma ExecuteOfferedIffPending(s: RecStatus)
    ensures ActionFor(StatusText(s)).ExecuteButton? <==> s == Pending
  {
  }
}

=== FILE: records.dfy ===
/** The persisted records of the rebalancing pipeline (the `recommendations`
    and `rebalance_history` tables) and the two table operations the source
    uses on them: `.select().eq(...).single()` and `.update().eq(...)`.
    A table is a sequence of rows in insertion order. */
module Records {
  import opened Wrappers
  import opened Seqs

  /** An abstract timestamp (`new Date().toISOString()`). */
  type Time = int

  /** Recommendation status. `ManualRequired` and `Completed` are written by
      the executor and the monitor; `Rejected` exists in the client types. */
  datatype RecStatus = Pending | Executed | ManualRequired | Completed | Rejected

  /** The text stored in the `status` column. */
  function StatusText(s: RecStatus): string {
    match s
    case Pending => "pending"
    case Executed => "executed"
    case ManualRequired => "manual_required"
    case Completed => "completed"
    case Rejected => "rejected"
  }

  /** The `reason` text, kept as the values it is formatted from. */
  datatype Reason =
    | HigherApy(targetApy: real, currentApy: real, gain: real)
    | TopStablecoin(apy: real, project: string)
    | Free(text: string)

  /** One recommendation as produced by the engine (`RecommendationOutput`
      items). A `null` is `None`; amounts are decimal numbers. */
  datatype Draft = Draft(
    fromPoolId: Option<string>,
    fromProtocol: Option<string>,
    toPoolId: string,
    toProtocol: string,
    asset: string,
    amount: real,
    currentApy: Option<real>,
    targetApy: real,
    netGain: real,
    riskScore: int,
    reason: Reason)

  /** A row of the `recommendations` table. */
  datatype Recommendation = Recommendation(
    id: string,
    userId: string,
    body: Draft,
    status: RecStatus,
    executedAt: Option<Time>,
    updatedAt: Option<Time>,
    shiftId: Option<string>)

  /** A row of the `rebalance_history` table. `status` is the swap order's
      status text. */
  datatype HistoryEntry = HistoryEntry(
    userId: string,
    recommendationId: string,
    shiftId: string,
    fromProtocol: Option<string>,
    toProtocol: string,
    asset: string,
    amount: real,
    status: string)

  datatype Store = Store(recommendations: seq<Recommendation>, history: seq<HistoryEntry>)

  /** JavaScript truthiness of a `string | null | undefined`: present and
      not empty. */
  predicate Truthy(s: Option<string>) {
    s.Some? && s.value != ""
  }

  /** `.single()`: the matching row when exactly one row matches; otherwise
      the query errors, which callers treat as "not found". */
  function Single<T>(rows: seq<T>, p: T -> bool): (r: Option<T>)
    ensures r.Some? <==> Count(rows, p) == 1
    ensures r.Some? ==> r.value in rows && p(r.value)
    ensures r.Some? ==> forall i :: 0 <= i < |rows| && p(rows[i]) ==> rows[i] == r.value
  {
    var matching := Filter(rows, p);
    if |matching| == 1 then Some(matching[0]) else None
  }

  /** `.update(f).eq(...)`: every matching row is rewritten, the others and
      the row order stay as they were. */
  function UpdateWhere<T>(rows: seq<T>, p: T -> bool, f: T -> T): (r: seq<T>)
    ensures |r| == |rows|
    ensures forall i :: 0 <= i < |rows| ==> r[i] == if p(rows[i]) then f(rows[i]) else rows[i]
  {
    seq(|rows|, i requires 0 <= i < |rows| => if p(rows[i]) then f(rows[i]) else rows[i])
  }

  /** Repeating an update is harmless when the rewrite is idempotent on the
      rows it still matches. */
  lemma UpdateWhereIdempotent<T>(rows: seq<T>, p: T -> bool, f: T -> T)
    requires forall i :: 0 <= i < |rows| && p(rows[i]) && p(f(rows[i])) ==> f(f(rows[i])) == f(rows[i])
    ensures UpdateWhere(UpdateWhere(rows, p, f), p, f) == UpdateWhere(rows, p, f)
  {
  }

  function HasId(id: string): Recommendation -> bool {
    (rec: Recommendation) => rec.id == id
  }

  /** Looks a recommendation up by id, as `executeRebalance` does. */
  function FindRecommendation(s: Store, id: string): Option<Recommendation> {
    Single(s.recommendations, HasId(id))
  }
}

=== FILE: routes.dfy ===
/** The recommendation endpoints of backend/src/routes/recommendations.ts,
    after authentication: listing the caller's pending recommendations and
    the execute endpoint's checks. */
module RecommendationRoutes {
  import opened Wrappers
  import opened Seqs
  import opened Sorting
  import opened Records
  import opened Entitlement

  /** The caller's recommendations that are still pending. */
  function OwnPending(userId: string): Recommendation -> bool {
    (rec: Recommendation) => rec.userId == userId && rec.status == Pending
  }

  /** `order('net_gain', { ascending: false })`. */
  predicate NetGainGeq(a: Recommendation, b: Recommendation) {
    a.body.netGain >= b.body.netGain
  }

  lemma NetGainGeqIsTotalPreorder()
    ensures TotalPreorder(NetGainGeq)
  {
  }

  datatype ListResponse = Listed(recommendations: seq<Recommendation>) | ListRefused(status: nat, denial: Denial) | ServerError

  /** `GET /api/recommendations` (starter plan and up): the caller's pending
      recommendations, largest net gain first. `readOk` is whether the query
      succeeds. */
  function ListRecommendations(s: Store, user: Option<User>, readOk: bool): (r: ListResponse)
    ensures RequirePlan(Starter, user).Deny? <==> r.ListRefused?
    ensures r.ListRefused? ==> RequirePlan(Starter, user) == Deny(r.status, r.denial)
    ensures r.ServerError? <==> RequirePlan(Starter, user).Next? && !readOk
    ensures r.Listed? ==>
      && SortedBy(r.recommendations, NetGainGeq)
      && multiset(r.recommendations) == multiset(Filter(s.recommendations, OwnPending(user.value.id)))
  {
    match RequirePlan(Starter, user)
    case Deny(status, denial) => ListRefused(status, denial)
    case Next =>
      if !readOk then ServerError
      else
        NetGainGeqIsTotalPreorder();
        SortBySorted(Filter(s.recommendations, OwnPending(user.value.id)), NetGainGeq);
        Listed(SortBy(Filter(s.recommendations, OwnPending(user.value.id)), NetGainGeq))
  }

  /** The listing shows a row exactly when it is the caller's and pending,
      and rows of equal net gain keep their table order. */
  lemma ListedExactlyOwnPending(s: Store, u: User, rec: Recommendation)
    requires RequirePlan(Starter, Some(u)).Next?
    ensures var r := ListRecommendations(s, Some(u), true);
      && r.Listed?
      && (rec in r.recommendations <==> rec in s.recommendations && rec.userId == u.id && rec.status == Pending)
      && TiedWith(r.recommendations, rec, NetGainGeq)
         == TiedWith(Filter(s.recommendations, OwnPending(u.id)), rec, NetGainGeq)
  {
    var kept := Filter(s.recommendations, OwnPending(u.id));
    var r := ListRecommendations(s, Some(u), true);
    assert r.recommendations == SortBy(kept, NetGainGeq);
    assert rec in r.recommendations <==> rec in multiset(kept);
    if rec in s.recommendations && rec.userId == u.id && rec.status == Pending {
      var i :| 0 <= i < |s.recommendations| && s.recommendations[i] == rec;
      assert OwnPending(u.id)(s.recommendations[i]);
      assert rec in kept;
    }
    NetGainGeqIsTotalPreorder();
    SortByStable(kept, rec, NetGainGeq);
  }

  datatype ExecuteResponse =
    | Accepted(recommendation: Recommendation)
    | Refused(status: nat, denial: Denial)
    | NotFound
    | AlreadyProcessed

  function HasIdOf(id: string, userId: string): Recommendation -> bool {
    (rec: Recommendation) => rec.id == id && rec.userId == userId
  }

  /** `POST /api/recommendations/:id/execute` after the execution gate: the
      caller's recommendation with that id must exist exactly once (404) and
      be pending (400); it is then returned as read, with its status left as
      it was. */
  function ExecuteRoute(s: Store, user: Option<User>, read: CountRead, id: string): (r: ExecuteResponse)
    ensures CheckRebalanceLimit(user, read).Deny? <==> r.Refused?
    ensures r.Refused? ==> CheckRebalanceLimit(user, read) == Deny(r.status, r.denial)
    ensures r.NotFound? <==>
      CheckRebalanceLimit(user, read).Next? && Count(s.recommendations, HasIdOf(id, user.value.id)) != 1
    ensures r.AlreadyProcessed? <==>
      && CheckRebalanceLimit(user, read).Next?
      && Count(s.recommendations, HasIdOf(id, user.value.id)) == 1
      && exists i :: 0 <= i < |s.recommendations| && HasIdOf(id, user.value.id)(s.recommendations[i])
                     && s.recommendations[i].status != Pending
    ensures r.Accepted? <==>
      && CheckRebalanceLimit(user, read).Next?
      && Count(s.recommendations, HasIdOf(id, user.value.id)) == 1
      && exists i :: 0 <= i < |s.recommendations| && HasIdOf(id, user.value.id)(s.recommendations[i])
                     && s.recommendations[i].status == Pending
    ensures r.Accepted? ==>
      && r.recommendation in s.recommendations
      && r.recommendation.id == id
      && r.recommendation.userId == user.value.id
      && r.recommendation.status == Pending
  {
    match CheckRebalanceLimit(user, read)
    case Deny(status, denial) => Refused(status, denial)
    case Next =>
      match Single(s.recommendations, HasIdOf(id, user.value.id))
      case None => NotFound
      case Some(rec) =>
        if rec.status != Pending then AlreadyProcessed else Accepted(rec)
  }

  /** Another user's recommendation is answered as missing, never returned. */
  lemma ForeignRecommendationHidden(s: Store, u: User, read: CountRead, id: string)
    requires forall i :: 0 <= i < |s.recommendations| && s.recommendations[i].id == id ==>
               s.recommendations[i].userId != u.id
    requires CheckRebalanceLimit(Some(u), read).Next?
    ensures ExecuteRoute(s, Some(u), read, id) == NotFound
  {
  }

  /** The endpoint writes no status, so a pending recommendation is accepted
      again on every later call while the gate allows. */
  lemma ExecuteRouteRepeatable(s: Store, u: User, read: CountRead, id: string)
    requires ExecuteRoute(s, Some(u), read, id).Accepted?
    ensures Single(s.recommendations, HasIdOf(id, u.id)) == Some(ExecuteRoute(s, Some(u), read, id).recommendation)
    ensures ExecuteRoute(s, Some(u), read, id).recommendation.status == Pending
  {
  }
}

=== FILE: seqs.dfy ===
/** Sequence combinators the source takes from `Array.prototype`: `filter`,
    `find`/`[0]` of a filter, `includes`, `every`, and counting with
    `filter(...).length`. */
module Seqs {
  import opened Wrappers

  /** `s.filter(p)`: the elements satisfying `p`, in their original order. */
  function Filter<T>(s: seq<T>, p: T -> bool): (r: seq<T>)
    ensures |r| <= |s|
    ensures forall i :: 0 <= i < |r| ==> r[i] in s && p(r[i])
    ensures forall i :: 0 <= i < |s| && p(s[i]) ==> s[i] in r
    ensures multiset(r) <= multiset(s)
  {
    if |s| == 0 then []
    else
      assert s == [s[0]] + s[1..];
      (if p(s[0]) then [s[0]] else []) + Filter(s[1..], p)
  }

  /** Filtering distributes over concatenation, so it keeps relative order. */
  lemma {:induction false} FilterConcat<T>(a: seq<T>, b: seq<T>, p: T -> bool)
    ensures Filter(a + b, p) == Filter(a, p) + Filter(b, p)
    decreases |a|
  {
    if |a| == 0 {
      assert a + b == b;
    } else {
      assert (a + b)[1..] == a[1..] + b;
      FilterConcat(a[1..], b, p);
    }
  }

  /** Filtering by a predicate every element satisfies changes nothing. */
  lemma {:induction false} FilterAll<T>(s: seq<T>, p: T -> bool)
    requires forall i :: 0 <= i < |s| ==> p(s[i])
    ensures Filter(s, p) == s
    decreases |s|
  {
    if |s| > 0 {
      FilterAll(s[1..], p);
    }
  }

  /** Filtering by a predicate no element satisfies leaves nothing. */
  lemma {:induction false} FilterNone<T>(s: seq<T>, p: T -> bool)
    requires forall i :: 0 <= i < |s| ==> !p(s[i])
    ensures Filter(s, p) == []
    decreases |s|
  {
    if |s| > 0 {
      FilterNone(s[1..], p);
    }
  }

  /** Predicates that agree on every element filter alike. */
  lemma {:induction false} FilterSameOn<T>(s: seq<T>, p: T -> bool, q: T -> bool)
    requires forall i :: 0 <= i < |s| ==> p(s[i]) == q(s[i])
    ensures Filter(s, p) == Filter(s, q)
    decreases |s|
  {
    if |s| > 0 {
      FilterSameOn(s[1..], p, q);
    }
  }

  /** `s.filter(p).length`. */
  function Count<T>(s: seq<T>, p: T -> bool): nat {
    |Filter(s, p)|
  }

  /** Counting a non-empty sequence: its head, then its tail. */
  lemma CountCons<T>(s: seq<T>, p: T -> bool)
    requires |s| > 0
    ensures Count(s, p) == (if p(s[0]) then 1 else 0) + Count(s[1..], p)
  {
  }

  /** `s.every(p)` holds exactly when the count of `p` is the whole length. */
  lemma {:induction false} CountAllIffEvery<T>(s: seq<T>, p: T -> bool)
    ensures Count(s, p) == |s| <==> forall i :: 0 <= i < |s| ==> p(s[i])
    decreases |s|
  {
    if |s| > 0 {
      CountAllIffEvery(s[1..], p);
      assert forall i :: 1 <= i < |s| ==> s[i] == s[1..][i - 1];
    }
  }

  /** Index of the first element satisfying `p` (`s.find(p)`, or
      `s.filter(p)[0]`). */
  function FindFirst<T>(s: seq<T>, p: T -> bool): (r: Option<nat>)
    ensures r.Some? ==> r.value < |s| && p(s[r.value])
    ensures r.Some? ==> forall j :: 0 <= j < r.value ==> !p(s[j])
    ensures r.None? <==> forall j :: 0 <= j < |s| ==> !p(s[j])
  {
    if |s| == 0 then None
    else if p(s[0]) then Some(0)
    else match FindFirst(s[1..], p)
      case None => None
      case Some(i) => Some(i + 1)
  }

  /** The first element of `s.filter(p)` is the element `FindFirst` points at. */
  lemma {:induction false} FilterHeadIsFindFirst<T>(s: seq<T>, p: T -> bool)
    ensures |Filter(s, p)| > 0 <==> FindFirst(s, p).Some?
    ensures |Filter(s, p)| > 0 ==> Filter(s, p)[0] == s[FindFirst(s, p).value]
    decreases |s|
  {
    if |s| == 0 {
    } else if p(s[0]) {
      FilterKeep(s, p);
    } else {
      FilterSkip(s, p);
      FindFirstSkip(s, p);
      FilterHeadIsFindFirst(s[1..], p);
    }
  }

  /** Both predicates hold. */
  function Both<T>(p: T -> bool, q: T -> bool): T -> bool {
    (x: T) => p(x) && q(x)
  }

  /** Filtering twice is filtering once by both predicates. */
  lemma {:induction false} FilterFilter<T>(s: seq<T>, p: T -> bool, q: T -> bool)
    ensures Filter(Filter(s, p), q) == Filter(s, Both(p, q))
    decreases |s|
  {
    if |s| > 0 {
      FilterFilter(s[1..], p, q);
      if p(s[0]) {
        FilterKeep(s, p);
        assert Filter(s, p) == [s[0]] + Filter(s[1..], p);
        assert Filter(s, p)[1..] == Filter(s[1..], p);
        if q(s[0]) {
          FilterKeep(Filter(s, p), q);
          FilterKeep(s, Both(p, q));
          assert Filter(Filter(s, p), q) == [s[0]] + Filter(Filter(s[1..], p), q);
          assert Filter(s, Both(p, q)) == [s[0]] + Filter(s[1..], Both(p, q));
        } else {
          FilterSkip(Filter(s, p), q);
          FilterSkip(s, Both(p, q));
        }
      } else {
        FilterSkip(s, p);
        FilterSkip(s, Both(p, q));
      }
    }
  }

  /** `FindFirst` points at the element it should. */
  lemma FindFirstIs<T>(s: seq<T>, p: T -> bool, i: nat)
    requires i < |s| && p(s[i])
    requires forall k :: 0 <= k < i ==> !p(s[k])
    ensures FindFirst(s, p) == Some(i)
  {
  }

  /** The first element of `s.filter(p)` satisfying `q` is the first
      element of `s` satisfying both. */
  lemma FindFirstOfBoth<T>(s: seq<T>, p: T -> bool, q: T -> bool, i: nat)
    requires i < |Filter(s, p)| && q(Filter(s, p)[i])
    requires forall k :: 0 <= k < i ==> !q(Filter(s, p)[k])
    ensures FindFirst(s, Both(p, q)).Some?
    ensures s[FindFirst(s, Both(p, q)).value] == Filter(s, p)[i]
  {
    FindFirstIs(Filter(s, p), q, i);
    FilterHeadIsFindFirst(Filter(s, p), q);
    FilterFilter(s, p, q);
    FilterHeadIsFindFirst(s, Both(p, q));
  }

  /** Filtering from an element that satisfies `p`. */
  lemma FilterKeep<T>(s: seq<T>, p: T -> bool)
    requires |s| > 0 && p(s[0])
    ensures |Filter(s, p)| > 0 && Filter(s, p)[0] == s[0]
    ensures FindFirst(s, p) == Some(0)
  {
    assert Filter(s, p) == [s[0]] + Filter(s[1..], p);
  }

  /** Filtering past an element that fails `p`. */
  lemma FilterSkip<T>(s: seq<T>, p: T -> bool)
    requires |s| > 0 && !p(s[0])
    ensures Filter(s, p) == Filter(s[1..], p)
  {
    assert Filter(s, p) == [] + Filter(s[1..], p);
  }

  /** Searching past an element that fails `p`. */
  lemma FindFirstSkip<T>(s: seq<T>, p: T -> bool)
    requires |s| > 0 && !p(s[0])
    ensures FindFirst(s[1..], p).None? ==> FindFirst(s, p).None?
    ensures FindFirst(s[1..], p).Some? ==>
      FindFirst(s, p) == Some(FindFirst(s[1..], p).value + 1) &&
      s[FindFirst(s, p).value] == s[1..][FindFirst(s[1..], p).value]
  {
  }

  /** A prefix of a sub-multiset is a sub-multiset. */
  lemma TakeSubMultiset<T>(s: seq<T>, k: nat, t: seq<T>)
    requires k <= |s| && multiset(s) <= multiset(t)
    ensures multiset(s[..k]) <= multiset(t)
  {
    assert s == s[..k] + s[k..];
    assert multiset(s) == multiset(s[..k]) + multiset(s[k..]);
  }

  /** An element of `s` missing from its first `k` elements is in the rest. */
  lemma InDropIfNotInTake<T>(s: seq<T>, k: nat, y: T)
    requires k <= |s| && y in s && y !in s[..k]
    ensures y in s[k..]
  {
    assert s == s[..k] + s[k..];
  }

  /** No element occurs twice. */
  predicate AllDistinct<T(==)>(s: seq<T>) {
    forall i, j :: 0 <= i < j < |s| ==> s[i] != s[j]
  }
}

=== FILE: sorting.dfy ===
/** `Array.prototype.sort` with a consistent comparator. The comparator is
    given as `geq(a, b)`: "a may be placed before b". JavaScript's sort is
    stable, so for a comparator that is a total preorder its result is
    determined: ordered by `geq`, a permutation of the input, and keeping the
    input order among elements the comparator calls equal. `SortBy` is a
    stable insertion sort with exactly those three properties. */
module Sorting {

  /** `geq` is total and transitive, i.e. the comparator is consistent. */
  ghost predicate TotalPreorder<T(!new)>(geq: (T, T) -> bool) {
    && (forall a, b :: geq(a, b) || geq(b, a))
    && (forall a, b, c :: geq(a, b) && geq(b, c) ==> geq(a, c))
  }

  /** Every element may be placed before every later one. */
  predicate SortedBy<T>(s: seq<T>, geq: (T, T) -> bool) {
    forall i, j :: 0 <= i < j < |s| ==> geq(s[i], s[j])
  }

  /** The comparator calls `a` and `b` equal. */
  predicate Tied<T>(geq: (T, T) -> bool, a: T, b: T) {
    geq(a, b) && geq(b, a)
  }

  /** The elements of `s` tied with `x`, in their order in `s`. */
  function TiedWith<T>(s: seq<T>, x: T, geq: (T, T) -> bool): seq<T> {
    if |s| == 0 then []
    else (if Tied(geq, s[0], x) then [s[0]] else []) + TiedWith(s[1..], x, geq)
  }

  /** The first element of `TiedWith(s, x, geq)` is the first element of
      `s` tied with `x`. */
  lemma {:induction false} TiedWithFirst<T>(s: seq<T>, x: T, geq: (T, T) -> bool) returns (i: nat)
    requires |TiedWith(s, x, geq)| > 0
    ensures i < |s| && s[i] == TiedWith(s, x, geq)[0] && Tied(geq, s[i], x)
    ensures forall j :: 0 <= j < i ==> !Tied(geq, s[j], x)
    decreases |s|
  {
    if Tied(geq, s[0], x) {
      i := 0;
    } else {
      assert TiedWith(s, x, geq) == TiedWith(s[1..], x, geq);
      var k := TiedWithFirst(s[1..], x, geq);
      i := k + 1;
      assert forall j :: 1 <= j < i ==> s[j] == s[1..][j - 1];
    }
  }

  /** The head of the stable sort is the first element of `s` tied with it. */
  lemma SortByHeadIsFirstTied<T(!new)>(s: seq<T>, geq: (T, T) -> bool)
    requires TotalPreorder(geq) && |s| > 0
    ensures exists i :: 0 <= i < |s| && s[i] == SortBy(s, geq)[0] &&
                        forall j :: 0 <= j < i ==> !Tied(geq, s[j], SortBy(s, geq)[0])
  {
    var sorted := SortBy(s, geq);
    SortByStable(s, sorted[0], geq);
    assert TiedWith(sorted, sorted[0], geq) == [sorted[0]] + TiedWith(sorted[1..], sorted[0], geq);
    var i := TiedWithFirst(s, sorted[0], geq);
  }

  /** Places `x` before the first element it may precede. */
  function Insert<T>(x: T, s: seq<T>, geq: (T, T) -> bool): (r: seq<T>)
    ensures |r| == |s| + 1
    ensures multiset(r) == multiset(s) + multiset{x}
  {
    if |s| == 0 || geq(x, s[0]) then [x] + s
    else
      assert s == [s[0]] + s[1..];
      [s[0]] + Insert(x, s[1..], geq)
  }

  /** The stable sort of `s` by `geq`; a permutation of `s`. */
  function SortBy<T>(s: seq<T>, geq: (T, T) -> bool): (r: seq<T>)
    ensures |r| == |s|
    ensures multiset(r) == multiset(s)
  {
    if |s| == 0 then []
    else
      assert s == [s[0]] + s[1..];
      Insert(s[0], SortBy(s[1..], geq), geq)
  }

  lemma {:induction false} InsertSorted<T(!new)>(x: T, s: seq<T>, geq: (T, T) -> bool)
    requires TotalPreorder(geq)
    requires SortedBy(s, geq)
    ensures SortedBy(Insert(x, s, geq), geq)
    decreases |s|
  {
    if |s| > 0 && !geq(x, s[0]) {
      InsertSorted(x, s[1..], geq);
      var r := Insert(x, s, geq);
      assert r == [s[0]] + Insert(x, s[1..], geq);
      forall j | 1 <= j < |r|
        ensures geq(s[0], r[j])
      {
        assert r[j] in multiset(Insert(x, s[1..], geq));
        assert r[j] == x || r[j] in s[1..];
      }
    }
  }

  /** The result of `SortBy` is ordered by a consistent comparator. */
  lemma {:induction false} SortBySorted<T(!new)>(s: seq<T>, geq: (T, T) -> bool)
    requires TotalPreorder(geq)
    ensures SortedBy(SortBy(s, geq), geq)
    decreases |s|
  {
    if |s| > 0 {
      SortBySorted(s[1..], geq);
      InsertSorted(s[0], SortBy(s[1..], geq), geq);
    }
  }

  lemma {:induction false} TiedWithConcat<T>(a: seq<T>, b: seq<T>, x: T, geq: (T, T) -> bool)
    ensures TiedWith(a + b, x, geq) == TiedWith(a, x, geq) + TiedWith(b, x, geq)
    decreases |a|
  {
    if |a| == 0 {
      assert a + b == b;
    } else {
      var ab := a + b;
      var h := if Tied(geq, a[0], x) then [a[0]] else [];
      assert ab[0] == a[0] && ab[1..] == a[1..] + b;
      assert TiedWith(ab, x, geq) == h + TiedWith(a[1..] + b, x, geq);
      assert TiedWith(a, x, geq) == h + TiedWith(a[1..], x, geq);
      TiedWithConcat(a[1..], b, x, geq);
      assert h + (TiedWith(a[1..], x, geq) + TiedWith(b, x, geq))
          == (h + TiedWith(a[1..], x, geq)) + TiedWith(b, x, geq);
    }
  }

  /** If `y` may not precede `z` but is tied with `x`, then `z` is not tied
      with `x`. */
  lemma NotTiedAhead<T(!new)>(y: T, z: T, x: T, geq: (T, T) -> bool)
    requires TotalPreorder(geq)
    requires !geq(y, z) && Tied(geq, y, x)
    ensures !Tied(geq, z, x)
  {
  }

  /** The elements tied with `x` in a sequence built from a head and a tail. */
  lemma TiedWithCons<T>(h: T, t: seq<T>, x: T, geq: (T, T) -> bool)
    ensures TiedWith([h] + t, x, geq) == (if Tied(geq, h, x) then [h] else []) + TiedWith(t, x, geq)
  {
    var s := [h] + t;
    assert s[0] == h && s[1..] == t;
  }

  /** The tail of a sorted sequence is sorted. */
  lemma SortedTail<T>(s: seq<T>, geq: (T, T) -> bool)
    requires |s| > 0 && SortedBy(s, geq)
    ensures SortedBy(s[1..], geq)
  {
    forall i, j | 0 <= i < j < |s| - 1
      ensures geq(s[1..][i], s[1..][j])
    {
      assert s[1..][i] == s[i + 1] && s[1..][j] == s[j + 1];
    }
  }

  /** Inserting `y` into a sorted sequence puts it before every element tied
      with it, so among the elements tied with `x` it comes first. */
  lemma {:induction false} InsertTiedWith<T(!new)>(y: T, s: seq<T>, x: T, geq: (T, T) -> bool)
    requires TotalPreorder(geq)
    requires SortedBy(s, geq)
    ensures TiedWith(Insert(y, s, geq), x, geq)
         == (if Tied(geq, y, x) then [y] else []) + TiedWith(s, x, geq)
    decreases |s|
  {
    if |s| == 0 || geq(y, s[0]) {
      assert Insert(y, s, geq) == [y] + s;
      TiedWithCons(y, s, x, geq);
    } else {
      var hy := if Tied(geq, y, x) then [y] else [];
      var hs := if Tied(geq, s[0], x) then [s[0]] else [];
      var rest := Insert(y, s[1..], geq);
      assert Insert(y, s, geq) == [s[0]] + rest;
      TiedWithCons(s[0], rest, x, geq);
      assert s == [s[0]] + s[1..];
      TiedWithCons(s[0], s[1..], x, geq);
      SortedTail(s, geq);
      InsertTiedWith(y, s[1..], x, geq);
      if Tied(geq, y, x) {
        NotTiedAhead(y, s[0], x, geq);
        assert hs == [];
      } else {
        assert hy == [];
      }
    }
  }

  /** `SortBy` is stable: the elements tied with any `x` keep their input
      order. */
  lemma {:induction false} SortByStable<T(!new)>(s: seq<T>, x: T, geq: (T, T) -> bool)
    requires TotalPreorder(geq)
    ensures TiedWith(SortBy(s, geq), x, geq) == TiedWith(s, x, geq)
    decreases |s|
  {
    if |s| > 0 {
      SortByStable(s[1..], x, geq);
      SortBySorted(s[1..], geq);
      InsertTiedWith(s[0], SortBy(s[1..], geq), x, geq);
    }
  }

  /** The first `k` elements of a sorted permutation: nothing left out may be
      placed before anything kept. */
  lemma TakeIsTop<T>(sorted: seq<T>, k: nat, geq: (T, T) -> bool)
    requires SortedBy(sorted, geq)
    requires k <= |sorted|
    ensures forall i, y :: 0 <= i < k && y in sorted[k..] ==> geq(sorted[i], y)
  {
    forall i, y | 0 <= i < k && y in sorted[k..]
      ensures geq(sorted[i], y)
    {
      var j :| 0 <= j < |sorted[k..]| && sorted[k..][j] == y;
      assert sorted[k + j] == y;
    }
  }
}

=== FILE: text.dfy ===
/** String helpers the source takes from JavaScript's `String.prototype`:
    `toLowerCase`/`toUpperCase` (restricted here to ASCII letters),
    `includes`, and `trim`; and the property names every object literal
    inherits, which a string lookup into one can hit. */
module Text {

  // ---------------------------------------------------------------- case

  predicate IsUpperAscii(c: char) {
    'A' <= c <= 'Z'
  }

  predicate IsLowerAscii(c: char) {
    'a' <= c <= 'z'
  }

  function LowerChar(c: char): char {
    if IsUpperAscii(c) then (c as int + 32) as char else c
  }

  function UpperChar(c: char): char {
    if IsLowerAscii(c) then (c as int - 32) as char else c
  }

  /** No ASCII upper-case letter occurs in `s`. */
  predicate IsLowerCase(s: string) {
    forall i :: 0 <= i < |s| ==> !IsUpperAscii(s[i])
  }

  /** No ASCII lower-case letter occurs in `s`. */
  predicate IsUpperCase(s: string) {
    forall i :: 0 <= i < |s| ==> !IsLowerAscii(s[i])
  }

  /** `s.toLowerCase()` on the ASCII letters. */
  function ToLower(s: string): (r: string)
    ensures |r| == |s|
    ensures IsLowerCase(r)
    ensures forall i :: 0 <= i < |s| && !IsUpperAscii(s[i]) ==> r[i] == s[i]
  {
    seq(|s|, i requires 0 <= i < |s| => LowerChar(s[i]))
  }

  /** `s.toUpperCase()` on the ASCII letters. */
  function ToUpper(s: string): (r: string)
    ensures |r| == |s|
    ensures IsUpperCase(r)
    ensures forall i :: 0 <= i < |s| && !IsLowerAscii(s[i]) ==> r[i] == s[i]
  {
    seq(|s|, i requires 0 <= i < |s| => UpperChar(s[i]))
  }

  /** Lower-casing leaves an already lower-case string alone; in particular it
      is idempotent. */
  lemma ToLowerOfLowerCase(s: string)
    requires IsLowerCase(s)
    ensures ToLower(s) == s
  {
  }

  lemma ToUpperOfUpperCase(s: string)
    requires IsUpperCase(s)
    ensures ToUpper(s) == s
  {
  }

  /** Lower-casing forgets any earlier upper-casing: the two agree on which
      strings they identify. */
  lemma ToLowerAfterToUpper(s: string)
    ensures ToLower(ToUpper(s)) == ToLower(s)
  {
    var a, b := ToLower(ToUpper(s)), ToLower(s);
    forall i | 0 <= i < |s|
      ensures a[i] == b[i]
    {
    }
  }

  // ------------------------------------------------------------- includes

  predicate StartsWith(s: string, prefix: string) {
    |prefix| <= |s| && s[..|prefix|] == prefix
  }

  /** `s.includes(sub)`. */
  predicate Includes(s: string, sub: string)
    decreases |s|
  {
    StartsWith(s, sub) || (|s| > 0 && Includes(s[1..], sub))
  }

  /** `sub` occurs in `s` starting at index `i`. */
  ghost predicate OccursAt(s: string, sub: string, i: int) {
    0 <= i && i + |sub| <= |s| && s[i..i + |sub|] == sub
  }

  /** The recursive search finds `sub` exactly when it occurs at some index. */
  lemma {:induction false} IncludesIffOccurs(s: string, sub: string)
    ensures Includes(s, sub) <==> exists i :: OccursAt(s, sub, i)
    decreases |s|
  {
    if StartsWith(s, sub) {
      assert OccursAt(s, sub, 0);
    } else {
      assert !OccursAt(s, sub, 0);
      if |s| > 0 {
        IncludesIffOccurs(s[1..], sub);
        forall i | OccursAt(s[1..], sub, i)
          ensures OccursAt(s, sub, i + 1)
        {
          assert s[i + 1..i + 1 + |sub|] == s[1..][i..i + |sub|];
        }
        forall i | OccursAt(s, sub, i)
          ensures OccursAt(s[1..], sub, i - 1)
        {
          assert s[1..][i - 1..i - 1 + |sub|] == s[i..i + |sub|];
        }
      }
    }
  }

  /** Every string includes the empty string. */
  lemma IncludesEmpty(s: string)
    ensures Includes(s, "")
  {
    assert StartsWith(s, "");
  }

  /** A string includes itself. */
  lemma IncludesSelf(s: string)
    ensures Includes(s, s)
  {
    assert StartsWith(s, s);
  }

  // ----------------------------------------------------------------- trim

  /** The characters `String.prototype.trim` strips: the WhiteSpace and
      LineTerminator code points of the ECMAScript grammar. */
  predicate IsSpace(c: char) {
    || c == '\t' || c == '\n' || c == '\U{B}' || c == '\U{C}' || c == '\r'
    || c == ' ' || c == '\U{A0}' || c == '\U{1680}'
    || ('\U{2000}' <= c <= '\U{200A}')
    || c == '\U{2028}' || c == '\U{2029}' || c == '\U{202F}' || c == '\U{205F}'
    || c == '\U{3000}' || c == '\U{FEFF}'
  }

  /** Number of leading white-space characters. */
  function LeadingSpaces(s: string): (n: nat)
    ensures n <= |s|
    ensures forall k :: 0 <= k < n ==> IsSpace(s[k])
    ensures n < |s| ==> !IsSpace(s[n])
  {
    if |s| == 0 || !IsSpace(s[0]) then 0 else 1 + LeadingSpaces(s[1..])
  }

  /** Number of trailing white-space characters. */
  function TrailingSpaces(s: string): (n: nat)
    ensures n <= |s|
    ensures forall k :: |s| - n <= k < |s| ==> IsSpace(s[k])
    ensures n < |s| ==> !IsSpace(s[|s| - n - 1])
  {
    if |s| == 0 || !IsSpace(s[|s| - 1]) then 0 else 1 + TrailingSpaces(s[..|s| - 1])
  }

  /** `s.trim()`: the infix of `s` left after removing white space at both
      ends. It is empty exactly when `s` is all white space, and otherwise
      starts and ends with a non-space character. */
  function Trim(s: string): (r: string)
    ensures |r| <= |s|
    ensures LeadingSpaces(s) + |r| <= |s| && r == s[LeadingSpaces(s)..LeadingSpaces(s) + |r|]
    ensures |r| == 0 <==> forall k :: 0 <= k < |s| ==> IsSpace(s[k])
    ensures |r| > 0 ==> !IsSpace(r[0]) && !IsSpace(r[|r| - 1])
  {
    var a := LeadingSpaces(s);
    var t := s[a..];
    var r := t[..|t| - TrailingSpaces(t)];
    assert |r| > 0 ==> r[0] == s[a];
    r
  }

  /** Trimming twice is trimming once. */
  lemma TrimIdempotent(s: string)
    ensures Trim(Trim(s)) == Trim(s)
  {
    var r := Trim(s);
    if |r| > 0 {
      assert LeadingSpaces(r) == 0;
      assert TrailingSpaces(r) == 0;
    }
  }

  // ---------------------------------------------------- object properties

  /** The members every plain object inherits from `Object.prototype`.
      Indexing an object literal with one of these names yields a function
      (for `__proto__`, the prototype object) rather than `undefined`, and
      either is truthy. */
  predicate InheritedKey(key: string) {
    key in {"constructor", "hasOwnProperty", "isPrototypeOf", "propertyIsEnumerable",
            "toLocaleString", "toString", "valueOf", "__proto__", "__defineGetter__",
            "__defineSetter__", "__lookupGetter__", "__lookupSetter__"}
  }
}

=== FILE: wallet_scanner.dfy ===
/** The data handling of backend/src/services/wallet-scanner.ts around its
    network calls: which chain and native symbol a scan uses, position
    inference from token balances, the mapping of a DeBank portfolio, and the
    replace-all save. Fetched data is an input; `None` is a failed request. */
module WalletScanner {
  import opened Wrappers
  import opened Seqs
  import opened Sorting
  import opened Text
  import opened Records
  import opened YieldCatalog

  // ------------------------------------------------------------- chains

  /** The chains with a configured RPC endpoint. */
  predicate HasRpc(chain: string) {
    chain in {"ethereum", "polygon", "arbitrum", "avalanche"}
  }

  /** `rpcUrls[chain.toLowerCase()] || rpcUrls.ethereum` on an object
      literal: the configured lower-cased name, `None` for a name the literal
      inherits from `Object.prototype` (the lookup yields a truthy function
      or object, so the ethereum fallback is skipped and no configured
      endpoint is used), and ethereum for everything else. */
  function RpcChain(chain: string): (r: Option<string>)
    ensures r.None? <==> InheritedKey(ToLower(chain))
    ensures r.Some? ==> HasRpc(r.value)
    ensures HasRpc(ToLower(chain)) ==> r == Some(ToLower(chain))
    ensures !HasRpc(ToLower(chain)) && !InheritedKey(ToLower(chain)) ==> r == Some("ethereum")
  {
    if HasRpc(ToLower(chain)) then Some(ToLower(chain))
    else if InheritedKey(ToLower(chain)) then None
    else Some("ethereum")
  }

  /** Of the inherited names only "constructor" and "__proto__" are written
      without capitals. */
  lemma LowerCaseInheritedKeys(k: string)
    requires IsLowerCase(k)
    ensures InheritedKey(k) <==> k in {"constructor", "__proto__"}
  {
    assert !IsLowerCase("hasOwnProperty") by { assert IsUpperAscii("hasOwnProperty"[3]); }
    assert !IsLowerCase("isPrototypeOf") by { assert IsUpperAscii("isPrototypeOf"[2]); }
    assert !IsLowerCase("propertyIsEnumerable") by { assert IsUpperAscii("propertyIsEnumerable"[8]); }
    assert !IsLowerCase("toLocaleString") by { assert IsUpperAscii("toLocaleString"[2]); }
    assert !IsLowerCase("toString") by { assert IsUpperAscii("toString"[2]); }
    assert !IsLowerCase("valueOf") by { assert IsUpperAscii("valueOf"[5]); }
    assert !IsLowerCase("__defineGetter__") by { assert IsUpperAscii("__defineGetter__"[8]); }
    assert !IsLowerCase("__defineSetter__") by { assert IsUpperAscii("__defineSetter__"[8]); }
    assert !IsLowerCase("__lookupGetter__") by { assert IsUpperAscii("__lookupGetter__"[8]); }
    assert !IsLowerCase("__lookupSetter__") by { assert IsUpperAscii("__lookupSetter__"[8]); }
  }

  /** Exactly the chains "constructor" and "__proto__", in any letter case,
      miss every endpoint. */
  lemma RpcChainMissesOnlyTwoNames(chain: string)
    ensures RpcChain(chain).None? <==> ToLower(chain) in {"constructor", "__proto__"}
  {
    LowerCaseInheritedKeys(ToLower(chain));
  }

  /** Two such chains as a caller might write them. */
  lemma RpcChainMissesExamples()
    ensures RpcChain("Constructor").None? && RpcChain("__PROTO__").None?
  {
    assert ToLower("Constructor") == "constructor";
    assert ToLower("__PROTO__") == "__proto__";
  }

  /** The native coin of a configured chain. */
  function NativeCoin(rpcChain: string): string {
    if rpcChain == "polygon" then "MATIC"
    else if rpcChain == "avalanche" then "AVAX"
    else "ETH"
  }

  /** The native symbol as `scanWithRPC` writes it: compared with the chain
      name as given, case-sensitively, with AVAX for everything else. */
  function NativeSymbolAsWritten(chain: string): (r: string)
    ensures r in {"ETH", "MATIC", "AVAX"}
    ensures r == "MATIC" <==> chain == "polygon"
    ensures r == "ETH" <==> chain == "ethereum" || chain == "arbitrum"
  {
    if chain == "ethereum" then "ETH"
    else if chain == "polygon" then "MATIC"
    else if chain == "arbitrum" then "ETH"
    else "AVAX"
  }

  /** A native balance read from one chain's endpoint can be labelled with
      another chain's coin: "Polygon" is read from the polygon endpoint but
      labelled AVAX, and "bsc" is read from the ethereum endpoint but labelled
      AVAX. */
  lemma NativeSymbolMislabels()
    ensures RpcChain("Polygon") == Some("polygon") && NativeSymbolAsWritten("Polygon") == "AVAX"
    ensures RpcChain("bsc") == Some("ethereum") && NativeSymbolAsWritten("bsc") == "AVAX"
  {
    assert ToLower("Polygon") == "polygon";
    assert ToLower("bsc") == "bsc";
  }

  /** The native symbol of the chain whose endpoint is actually read; `None`
      when no configured endpoint is read. */
  function NativeSymbol(chain: string): (r: Option<string>)
    ensures r.None? <==> RpcChain(chain).None?
    ensures r.Some? ==> r.value == NativeCoin(RpcChain(chain).value) && r.value in {"ETH", "MATIC", "AVAX"}
  {
    match RpcChain(chain)
    case Some(c) => Some(NativeCoin(c))
    case None => None
  }

  /** On the four configured lower-case names the corrected symbol is the
      written one, and it never depends on letter case. */
  lemma NativeSymbolAgrees(chain: string, other: string)
    ensures HasRpc(chain) ==> NativeSymbol(chain) == Some(NativeSymbolAsWritten(chain))
    ensures ToLower(chain) == ToLower(other) ==> NativeSymbol(chain) == NativeSymbol(other)
  {
    if HasRpc(chain) {
      assert IsLowerCase(chain);
      ToLowerOfLowerCase(chain);
    }
  }

  // --------------------------------------------------- position inference

  /** A token balance; `balance` is the parsed decimal string. */
  datatype TokenBalance = TokenBalance(address: string, symbol: string, balance: real, decimals: nat, chain: string)

  datatype WalletPosition = WalletPosition(
    protocol: string, poolId: string, asset: string, balance: real, apy: real, tvlUsd: real, chain: string)

  /** Balances at or below this are dust. */
  const DUST: real := 0.01
  /** A reference pool needs more TVL than this. */
  const MIN_POOL_TVL: real := 100000.0

  /** The pool can stand for a holding of `symbol`. */
  predicate Relevant(p: YieldPool, symbol: string) {
    Includes(p.symbol, symbol) && p.tvlUsd > MIN_POOL_TVL
  }

  function RelevantTo(symbol: string): YieldPool -> bool {
    (p: YieldPool) => Relevant(p, symbol)
  }

  /** The token is not dust and some pool is relevant to it. */
  predicate Qualifies(t: TokenBalance, pools: seq<YieldPool>) {
    t.balance > DUST && |Filter(pools, RelevantTo(t.symbol))| > 0
  }

  function QualifiesIn(pools: seq<YieldPool>): TokenBalance -> bool {
    (t: TokenBalance) => Qualifies(t, pools)
  }

  /** The first pool of the relevant pools sorted by APY, highest first: a
      relevant pool of maximal APY, and since the sort is stable, the first
      such pool in list order. */
  function TopPool(relevant: seq<YieldPool>): (p: YieldPool)
    requires |relevant| > 0
    ensures forall j :: 0 <= j < |relevant| ==> p.apy >= relevant[j].apy
    ensures exists i :: 0 <= i < |relevant| && relevant[i] == p &&
                        forall j :: 0 <= j < i ==> relevant[j].apy < p.apy
  {
    var sorted := SortBy(relevant, ApyGeq);
    ApyGeqIsTotalPreorder();
    SortBySorted(relevant, ApyGeq);
    forall j | 0 <= j < |relevant|
      ensures sorted[0].apy >= relevant[j].apy
    {
      assert relevant[j] in multiset(sorted);
      var k :| 0 <= k < |sorted| && sorted[k] == relevant[j];
      if k > 0 {
        assert ApyGeq(sorted[0], sorted[k]);
      }
    }
    SortByHeadIsFirstTied(relevant, ApyGeq);
    sorted[0]
  }

  /** The position inferred for a qualifying token: its symbol, balance and
      chain in the top relevant pool. */
  function PositionOf(t: TokenBalance, pools: seq<YieldPool>): (r: WalletPosition)
    requires Qualifies(t, pools)
    ensures r.asset == t.symbol && r.balance == t.balance && r.chain == t.chain
  {
    var top := TopPool(Filter(pools, RelevantTo(t.symbol)));
    WalletPosition(top.project, top.pool, t.symbol, t.balance, top.apy, top.tvlUsd, t.chain)
  }

  /** The inferred position is in a pool relevant to the token, no relevant
      pool has a higher APY, and no relevant pool listed before it has the
      same APY. */
  lemma PositionOfIsBest(t: TokenBalance, pools: seq<YieldPool>)
    requires Qualifies(t, pools)
    ensures exists j :: 0 <= j < |pools| && Relevant(pools[j], t.symbol) &&
                        PositionOf(t, pools) == WalletPosition(pools[j].project, pools[j].pool, t.symbol,
                                                               t.balance, pools[j].apy, pools[j].tvlUsd, t.chain) &&
                        forall k :: 0 <= k < j && Relevant(pools[k], t.symbol) ==> pools[k].apy < pools[j].apy
    ensures forall j :: 0 <= j < |pools| && Relevant(pools[j], t.symbol) ==> PositionOf(t, pools).apy >= pools[j].apy
  {
    var relevant := Filter(pools, RelevantTo(t.symbol));
    var top := TopPool(relevant);
    assert PositionOf(t, pools) == WalletPosition(top.project, top.pool, t.symbol, t.balance, top.apy, top.tvlUsd, t.chain);
    var j0 := TopPoolIndex(pools, t.symbol);
    forall j | 0 <= j < |pools| && Relevant(pools[j], t.symbol)
      ensures top.apy >= pools[j].apy
    {
      TopPoolBeats(pools, t.symbol, j);
    }
  }

  /** The top relevant pool is the first relevant pool of its APY in the pool
      list. */
  lemma TopPoolIndex(pools: seq<YieldPool>, symbol: string) returns (j: nat)
    requires |Filter(pools, RelevantTo(symbol))| > 0
    ensures j < |pools| && pools[j] == TopPool(Filter(pools, RelevantTo(symbol)))
    ensures Relevant(pools[j], symbol)
    ensures forall k :: 0 <= k < j && Relevant(pools[k], symbol) ==> pools[k].apy < pools[j].apy
  {
    var relevant := Filter(pools, RelevantTo(symbol));
    var top := TopPool(relevant);
    var i :| 0 <= i < |relevant| && relevant[i] == top &&
             forall k :: 0 <= k < i ==> relevant[k].apy < top.apy;
    forall k | 0 <= k < |pools| && Relevant(pools[k], symbol)
      ensures pools[k].apy <= top.apy
    {
      TopPoolBeats(pools, symbol, k);
    }
    j := FirstOfApyIndex(pools, symbol, top, i);
  }

  /** A relevant pool of maximal APY with no relevant pool of that APY before
      it in the relevant list has none before it in the pool list either. */
  lemma FirstOfApyIndex(pools: seq<YieldPool>, symbol: string, top: YieldPool, i: nat) returns (j: nat)
    requires i < |Filter(pools, RelevantTo(symbol))| && Filter(pools, RelevantTo(symbol))[i] == top
    requires forall k :: 0 <= k < i ==> Filter(pools, RelevantTo(symbol))[k].apy < top.apy
    requires forall k :: 0 <= k < |pools| && Relevant(pools[k], symbol) ==> pools[k].apy <= top.apy
    ensures j < |pools| && pools[j] == top && Relevant(top, symbol)
    ensures forall k :: 0 <= k < j && Relevant(pools[k], symbol) ==> pools[k].apy < top.apy
  {
    var atTop := (p: YieldPool) => p.apy == top.apy;
    var both := Both(RelevantTo(symbol), atTop);
    FindFirstOfBoth(pools, RelevantTo(symbol), atTop, i);
    j := FindFirst(pools, both).value;
    forall k | 0 <= k < j && Relevant(pools[k], symbol)
      ensures pools[k].apy < top.apy
    {
      assert !both(pools[k]);
    }
  }

  /** The top relevant pool's APY is at least that of any relevant pool. */
  lemma TopPoolBeats(pools: seq<YieldPool>, symbol: string, j: nat)
    requires |Filter(pools, RelevantTo(symbol))| > 0
    requires j < |pools| && Relevant(pools[j], symbol)
    ensures TopPool(Filter(pools, RelevantTo(symbol))).apy >= pools[j].apy
  {
    var relevant := Filter(pools, RelevantTo(symbol));
    assert RelevantTo(symbol)(pools[j]);
    assert pools[j] in relevant;
    var k :| 0 <= k < |relevant| && relevant[k] == pools[j];
  }

  /** The loop of `inferPositionsFromBalances` over the tokens. */
  function InferFrom(tokens: seq<TokenBalance>, pools: seq<YieldPool>): (r: seq<WalletPosition>)
    ensures |r| <= |tokens|
  {
    if |tokens| == 0 then []
    else
      var rest := InferFrom(tokens[1..], pools);
      if Qualifies(tokens[0], pools) then [PositionOf(tokens[0], pools)] + rest else rest
  }

  /** Positions of qualifying tokens in order. */
  predicate IsPositionsOf(r: seq<WalletPosition>, kept: seq<TokenBalance>, pools: seq<YieldPool>) {
    |r| == |kept| && forall k :: 0 <= k < |r| ==> Qualifies(kept[k], pools) && r[k] == PositionOf(kept[k], pools)
  }

  lemma PositionsOfCons(r: seq<WalletPosition>, kept: seq<TokenBalance>, pools: seq<YieldPool>, t: TokenBalance)
    requires IsPositionsOf(r, kept, pools) && Qualifies(t, pools)
    ensures IsPositionsOf([PositionOf(t, pools)] + r, [t] + kept, pools)
  {
    var r' := [PositionOf(t, pools)] + r;
    var kept' := [t] + kept;
    forall k | 0 <= k < |r'|
      ensures Qualifies(kept'[k], pools) && r'[k] == PositionOf(kept'[k], pools)
    {
      if k > 0 {
        assert r'[k] == r[k - 1] && kept'[k] == kept[k - 1];
      }
    }
  }

  /** The loop yields exactly the position of each qualifying token, in token
      order. */
  lemma {:induction false} InferFromIsPositionsOfKept(tokens: seq<TokenBalance>, pools: seq<YieldPool>)
    ensures IsPositionsOf(InferFrom(tokens, pools), Filter(tokens, QualifiesIn(pools)), pools)
    decreases |tokens|
  {
    if |tokens| > 0 {
      InferFromIsPositionsOfKept(tokens[1..], pools);
      var keptRest := Filter(tokens[1..], QualifiesIn(pools));
      if Qualifies(tokens[0], pools) {
        assert Filter(tokens, QualifiesIn(pools)) == [tokens[0]] + keptRest;
        assert InferFrom(tokens, pools) == [PositionOf(tokens[0], pools)] + InferFrom(tokens[1..], pools);
        PositionsOfCons(InferFrom(tokens[1..], pools), keptRest, pools, tokens[0]);
      } else {
        assert Filter(tokens, QualifiesIn(pools)) == keptRest;
      }
    }
  }

  /** `inferPositionsFromBalances(tokens)` given the pool list fetch: one
      position per qualifying token, in token order; nothing when the fetch
      fails. */
  function InferPositionsFromBalances(tokens: seq<TokenBalance>, fetched: Option<seq<YieldPool>>): (r: seq<WalletPosition>)
    ensures fetched.None? ==> r == []
    ensures fetched.Some? ==> IsPositionsOf(r, Filter(tokens, QualifiesIn(fetched.value)), fetched.value)
  {
    match fetched
    case None => []
    case Some(pools) =>
      InferFromIsPositionsOfKept(tokens, pools);
      InferFrom(tokens, pools)
  }

  /** Inference keeps token order: positions inferred from a concatenation
      are those of the first part followed by those of the second. */
  lemma {:induction false} InferConcat(a: seq<TokenBalance>, b: seq<TokenBalance>, pools: seq<YieldPool>)
    ensures InferFrom(a + b, pools) == InferFrom(a, pools) + InferFrom(b, pools)
    decreases |a|
  {
    if |a| == 0 {
      assert a + b == b;
    } else {
      assert (a + b)[1..] == a[1..] + b;
      InferConcat(a[1..], b, pools);
    }
  }

  /** Dust never yields a position, and every position is for a token of the
      input with more than dust. */
  lemma InferredAreNotDust(tokens: seq<TokenBalance>, pools: seq<YieldPool>, k: nat)
    requires k < |InferPositionsFromBalances(tokens, Some(pools))|
    ensures exists i :: 0 <= i < |tokens| && tokens[i].balance > DUST &&
                        InferPositionsFromBalances(tokens, Some(pools))[k].asset == tokens[i].symbol &&
                        InferPositionsFromBalances(tokens, Some(pools))[k].balance == tokens[i].balance
  {
    var r := InferPositionsFromBalances(tokens, Some(pools));
    var kept := Filter(tokens, QualifiesIn(pools));
    assert r[k] == PositionOf(kept[k], pools);
    assert kept[k] in tokens;
    var i :| 0 <= i < |tokens| && tokens[i] == kept[k];
    assert tokens[i].balance > DUST;
  }

  // ------------------------------------------------------------- DeBank

  datatype DebankPool = DebankPool(id: Option<string>, apy: Option<real>, tvl: Option<real>)

  /** A portfolio item: `stats.asset_usd_value`, `pool`, and the symbol of the
      first supplied token. */
  datatype PortfolioItem = PortfolioItem(assetUsdValue: Option<real>, pool: Option<DebankPool>, supplySymbol: Option<string>)

  /** A protocol entry; a missing item list is empty. */
  datatype DebankProtocol = DebankProtocol(name: string, chain: string, items: seq<PortfolioItem>)

  /** `asset_usd_value > 0` (an absent value compares false). */
  predicate Kept(item: PortfolioItem) {
    item.assetUsdValue.Some? && item.assetUsdValue.value > 0.0
  }

  /** A number field read with `|| 0`. */
  function NumberOrZero(x: Option<real>): real {
    if x.Some? then x.value else 0.0
  }

  function TextOr(s: Option<string>, default: string): (r: string)
    ensures r == default || (Truthy(s) && r == s.value)
  {
    if Truthy(s) then s.value else default
  }

  /** The position of a kept portfolio item. */
  function DebankPosition(p: DebankProtocol, item: PortfolioItem): (r: WalletPosition)
    requires Kept(item)
    ensures r.balance > 0.0 && r.protocol == p.name && r.chain == p.chain
    ensures r.poolId != "" && r.asset != ""
    ensures r.apy == 100.0 * (if item.pool.Some? then NumberOrZero(item.pool.value.apy) else 0.0)
    ensures item.pool.None? ==> r.poolId == "unknown" && r.apy == 0.0 && r.tvlUsd == 0.0
    ensures r.asset == (if Truthy(item.supplySymbol) then item.supplySymbol.value else "UNKNOWN")
    ensures r.balance == item.assetUsdValue.value
    ensures r.poolId == (if item.pool.Some? && Truthy(item.pool.value.id) then item.pool.value.id.value else "unknown")
    ensures r.tvlUsd == (if item.pool.Some? then NumberOrZero(item.pool.value.tvl) else 0.0)
  {
    var pool := item.pool;
    WalletPosition(
      p.name,
      TextOr(if pool.Some? then pool.value.id else None, "unknown"),
      TextOr(item.supplySymbol, "UNKNOWN"),
      item.assetUsdValue.value,
      (if pool.Some? then NumberOrZero(pool.value.apy) else 0.0) * 100.0,
      if pool.Some? then NumberOrZero(pool.value.tvl) else 0.0,
      p.chain)
  }

  function KeptIn(): PortfolioItem -> bool {
    (item: PortfolioItem) => Kept(item)
  }

  /** What every DeBank position satisfies: a positive dollar balance and a
      non-empty pool id and asset. */
  predicate Reported(p: WalletPosition) {
    p.balance > 0.0 && p.poolId != "" && p.asset != ""
  }

  /** The positions of one protocol entry, one per kept item in item order. */
  function ProtocolPositions(p: DebankProtocol): (r: seq<WalletPosition>)
    ensures var kept := Filter(p.items, KeptIn());
      |r| == |kept| && forall k :: 0 <= k < |r| ==> r[k] == DebankPosition(p, kept[k])
    ensures forall k :: 0 <= k < |r| ==> Reported(r[k])
  {
    var kept := Filter(p.items, KeptIn());
    seq(|kept|, k requires 0 <= k < |kept| => DebankPosition(p, kept[k]))
  }

  /** The protocol loop of `scanWithDeBank`. */
  function AllPositions(protocols: seq<DebankProtocol>): (r: seq<WalletPosition>)
    ensures forall k :: 0 <= k < |r| ==> Reported(r[k])
  {
    if |protocols| == 0 then []
    else ProtocolPositions(protocols[0]) + AllPositions(protocols[1..])
  }

  /** The number of kept items over all protocols. */
  function KeptCount(protocols: seq<DebankProtocol>): nat {
    if |protocols| == 0 then 0
    else Count(protocols[0].items, KeptIn()) + KeptCount(protocols[1..])
  }

  /** One position per kept item, and protocols contribute in order. */
  lemma {:induction false} AllPositionsConcat(a: seq<DebankProtocol>, b: seq<DebankProtocol>)
    ensures AllPositions(a + b) == AllPositions(a) + AllPositions(b)
    ensures |AllPositions(a)| == KeptCount(a)
    decreases |a|
  {
    if |a| == 0 {
      assert a + b == b;
    } else {
      assert (a + b)[1..] == a[1..] + b;
      AllPositionsConcat(a[1..], b);
    }
  }

  /** `scanWithDeBank(address)`: nothing without an API key or when the
      request fails or does not answer an array; otherwise every kept item
      of every protocol, in order. */
  function ScanWithDeBank(apiKey: Option<string>, response: Option<seq<DebankProtocol>>): (r: seq<WalletPosition>)
    ensures !Truthy(apiKey) || response.None? ==> r == []
    ensures Truthy(apiKey) && response.Some? ==> r == AllPositions(response.value)
    ensures forall k :: 0 <= k < |r| ==> Reported(r[k])
  {
    if !Truthy(apiKey) then []
    else match response
      case None => []
      case Some(protocols) => AllPositions(protocols)
  }

  // ----------------------------------------------------------------- save

  /** A row of the `positions` table; the chain is not stored. */
  datatype PositionRow = PositionRow(
    walletId: string, protocol: string, poolId: string, asset: string, balance: real, apy: real, tvlUsd: real)

  function ToRow(walletId: string, p: WalletPosition): PositionRow {
    PositionRow(walletId, p.protocol, p.poolId, p.asset, p.balance, p.apy, p.tvlUsd)
  }

  function OfWallet(walletId: string): PositionRow -> bool {
    (row: PositionRow) => row.walletId == walletId
  }

  function NotOfWallet(walletId: string): PositionRow -> bool {
    (row: PositionRow) => row.walletId != walletId
  }

  /** The table after a save, and whether the save threw. */
  datatype SaveOutcome = SaveOutcome(table: seq<PositionRow>, threw: bool)

  /** The rows inserted for a wallet's positions, in list order. */
  function RowsFor(walletId: string, positions: seq<WalletPosition>): (r: seq<PositionRow>)
    ensures |r| == |positions|
    ensures forall k :: 0 <= k < |r| ==> r[k] == ToRow(walletId, positions[k])
  {
    seq(|positions|, k requires 0 <= k < |positions| => ToRow(walletId, positions[k]))
  }

  /** The inserted rows all belong to the wallet. */
  lemma RowsForSplit(walletId: string, positions: seq<WalletPosition>)
    ensures Filter(RowsFor(walletId, positions), OfWallet(walletId)) == RowsFor(walletId, positions)
    ensures Filter(RowsFor(walletId, positions), NotOfWallet(walletId)) == []
  {
    var rows := RowsFor(walletId, positions);
    FilterAll(rows, OfWallet(walletId));
    FilterNone(rows, NotOfWallet(walletId));
  }

  /** After deleting a wallet's rows none of them remain. */
  lemma DeletedSplit(table: seq<PositionRow>, walletId: string)
    ensures Filter(Filter(table, NotOfWallet(walletId)), NotOfWallet(walletId)) == Filter(table, NotOfWallet(walletId))
    ensures Filter(Filter(table, NotOfWallet(walletId)), OfWallet(walletId)) == []
  {
    var kept := Filter(table, NotOfWallet(walletId));
    FilterAll(kept, NotOfWallet(walletId));
    FilterNone(kept, OfWallet(walletId));
  }

  /** `savePositions(walletId, positions)`: deletes the wallet's rows (an
      error there is ignored, leaving them, so the new rows are appended
      after the old ones), then inserts the new list; a failed insert throws
      after the delete. */
  function SavePositions(table: seq<PositionRow>, walletId: string, positions: seq<WalletPosition>,
                         deleteOk: bool, insertOk: bool): (r: SaveOutcome)
    ensures r.threw <==> |positions| > 0 && !insertOk
    ensures Filter(r.table, NotOfWallet(walletId)) == Filter(table, NotOfWallet(walletId))
    ensures deleteOk && !r.threw ==> Filter(r.table, OfWallet(walletId)) == RowsFor(walletId, positions)
    ensures deleteOk && r.threw ==> Filter(r.table, OfWallet(walletId)) == []
    ensures !deleteOk && !r.threw ==>
      Filter(r.table, OfWallet(walletId)) == Filter(table, OfWallet(walletId)) + RowsFor(walletId, positions)
    ensures !deleteOk && r.threw ==> r.table == table
  {
    var afterDelete := if deleteOk then Filter(table, NotOfWallet(walletId)) else table;
    var rows := RowsFor(walletId, positions);
    RowsForSplit(walletId, positions);
    DeletedSplit(table, walletId);
    if |positions| > 0 && !insertOk then SaveOutcome(afterDelete, true)
    else
      FilterConcat(afterDelete, rows, OfWallet(walletId));
      FilterConcat(afterDelete, rows, NotOfWallet(walletId));
      assert Filter(afterDelete + rows, NotOfWallet(walletId)) == Filter(afterDelete, NotOfWallet(walletId)) + [];
      SaveOutcome(afterDelete + rows, false)
  }

  /** Saving the same list twice leaves the table as saving it once. */
  lemma SaveTwiceIsSaveOnce(table: seq<PositionRow>, walletId: string, positions: seq<WalletPosition>)
    ensures var once := SavePositions(table, walletId, positions, true, true).table;
      Filter(SavePositions(once, walletId, positions, true, true).table, OfWallet(walletId))
        == Filter(once, OfWallet(walletId))
  {
  }
}

=== FILE: wrappers.dfy ===
/** Failure-compatible datatypes used across the model: an optional value (the
    source's `null`/`undefined`) and a success-or-error result (the source's
    thrown errors and `{ success: false, error }` returns). */
module Wrappers {

  datatype Option<+T> = None | Some(value: T) {

    /** The value, or `default` when absent (the source's `x || default` on a
        value that cannot be falsy otherwise). */
    function GetOr(default: T): T {
      match this
      case Some(v) => v
      case None => default
    }
  }

  datatype Result<+R, +E> = Success(value: R) | Failure(error: E) {

    predicate IsFailure() {
      Failure?
    }

    function PropagateFailure<U>(): Result<U, E>
      requires Failure?
    {
      Failure(error)
    }

    function Extract(): R
      requires Success?
    {
      value
    }
  }
}

=== FILE: yield_catalog.dfy ===
/** The backend's view of the public yield catalogue: `fetchTopYields` in
    backend/src/services/ai-recommendations.ts. The HTTP fetch is an input:
    `None` stands for a failed request. */
module YieldCatalog {
  import opened Wrappers
  import opened Seqs
  import opened Sorting

  /** One pool of the catalogue. A missing `symbol` or `project` is the empty
      string; a missing `ilRisk` is `None`. */
  datatype YieldPool = YieldPool(
    pool: string,
    chain: string,
    project: string,
    symbol: string,
    tvlUsd: real,
    apy: real,
    ilRisk: Option<string>)

  const DEFAULT_MIN_TVL: real := 1000000.0
  const DEFAULT_LIMIT: nat := 50
  /** APYs at or above this are treated as data errors. */
  const MAX_APY: real := 1000.0

  predicate HasIlRisk(y: YieldPool) {
    y.ilRisk == Some("yes")
  }

  /** The pool passes the catalogue filter. */
  predicate Listable(y: YieldPool, minTvl: real) {
    && y.tvlUsd >= minTvl
    && y.apy > 0.0
    && y.apy < MAX_APY
    && y.symbol != ""
    && y.project != ""
  }

  /** Comparator of `sort((a, b) => b.apy - a.apy)`. */
  predicate ApyGeq(a: YieldPool, b: YieldPool) {
    a.apy >= b.apy
  }

  lemma ApyGeqIsTotalPreorder()
    ensures TotalPreorder(ApyGeq)
  {
  }

  /** The catalogue filter as a function value, for `Filter`. */
  function ListableAt(minTvl: real): YieldPool -> bool {
    (y: YieldPool) => Listable(y, minTvl)
  }

  function Min(a: nat, b: nat): nat {
    if a <= b then a else b
  }

  /** The listable pools of `pools`, stably sorted by APY, first `limit`. */
  function TopListable(pools: seq<YieldPool>, minTvl: real, limit: nat): seq<YieldPool> {
    var sorted := SortBy(Filter(pools, ListableAt(minTvl)), ApyGeq);
    sorted[..Min(limit, |sorted|)]
  }

  lemma TopListableFacts(pools: seq<YieldPool>, minTvl: real, limit: nat)
    ensures var r := TopListable(pools, minTvl, limit);
      && |r| == Min(limit, Count(pools, ListableAt(minTvl)))
      && (forall i :: 0 <= i < |r| ==> Listable(r[i], minTvl) && r[i] in pools)
      && SortedBy(r, ApyGeq)
      && (forall i, y :: 0 <= i < |r| && y in pools && Listable(y, minTvl) && y !in r
            ==> r[i].apy >= y.apy)
      && multiset(r) <= multiset(pools)
  {
    var kept := Filter(pools, ListableAt(minTvl));
    var sorted := SortBy(kept, ApyGeq);
    var k := Min(limit, |sorted|);
    var r := sorted[..k];
    assert r == TopListable(pools, minTvl, limit);
    SortedMembers(kept, pools, minTvl);
    assert forall i :: 0 <= i < |r| ==> r[i] in sorted;
    assert SortedBy(r, ApyGeq) by {
      ApyGeqIsTotalPreorder();
      SortBySorted(kept, ApyGeq);
    }
    TopIsTop(pools, minTvl, sorted, k);
    TakeSubMultiset(sorted, k, pools);
  }

  lemma TopIsTop(pools: seq<YieldPool>, minTvl: real, sorted: seq<YieldPool>, k: nat)
    requires sorted == SortBy(Filter(pools, ListableAt(minTvl)), ApyGeq)
    requires k <= |sorted|
    ensures forall i, y ::
              0 <= i < k && y in pools && Listable(y, minTvl) && y !in sorted[..k]
              ==> sorted[..k][i].apy >= y.apy
  {
    var kept := Filter(pools, ListableAt(minTvl));
    assert SortedBy(sorted, ApyGeq) by {
      ApyGeqIsTotalPreorder();
      SortBySorted(kept, ApyGeq);
    }
    TakeIsTop(sorted, k, ApyGeq);
    forall i, y | 0 <= i < k && y in pools && Listable(y, minTvl) && y !in sorted[..k]
      ensures sorted[..k][i].apy >= y.apy
    {
      assert y in sorted by {
        SortedMembers(kept, pools, minTvl);
      }
      InDropIfNotInTake(sorted, k, y);
      assert ApyGeq(sorted[i], y);
    }
  }

  /** The sorted listable pools are exactly the listable pools of the input. */
  lemma SortedMembers(kept: seq<YieldPool>, pools: seq<YieldPool>, minTvl: real)
    requires kept == Filter(pools, ListableAt(minTvl))
    ensures forall y :: y in SortBy(kept, ApyGeq) ==> y in pools && Listable(y, minTvl)
    ensures forall y :: y in pools && Listable(y, minTvl) ==> y in SortBy(kept, ApyGeq)
  {
    var sorted := SortBy(kept, ApyGeq);
    forall y | y in sorted
      ensures y in pools && Listable(y, minTvl)
    {
      assert y in multiset(sorted);
      assert y in multiset(kept);
      var i :| 0 <= i < |kept| && kept[i] == y;
    }
    forall y | y in pools && Listable(y, minTvl)
      ensures y in sorted
    {
      var i :| 0 <= i < |pools| && pools[i] == y;
      assert ListableAt(minTvl)(pools[i]);
      assert y in kept;
      assert y in multiset(kept);
      assert y in multiset(sorted);
    }
  }

  /** `fetchTopYields(minTvl, limit)`: the listable pools, highest APY first,
      at most `limit` of them, no pool more often than it was fetched; no
      data on a failed fetch. Nothing listable is dropped unless `limit`
      pools with at least its APY are returned. */
  function FetchTopYields(fetched: Option<seq<YieldPool>>, minTvl: real, limit: nat): (r: seq<YieldPool>)
    ensures fetched.None? ==> r == []
    ensures |r| <= limit
    ensures forall i :: 0 <= i < |r| ==> Listable(r[i], minTvl)
    ensures fetched.Some? ==> forall i :: 0 <= i < |r| ==> r[i] in fetched.value
    ensures SortedBy(r, ApyGeq)
    ensures fetched.Some? ==>
      |r| == Min(limit, Count(fetched.value, ListableAt(minTvl)))
    ensures fetched.Some? ==>
      forall i, y :: 0 <= i < |r| && y in fetched.value && Listable(y, minTvl) && y !in r
        ==> r[i].apy >= y.apy
    ensures fetched.Some? ==> multiset(r) <= multiset(fetched.value)
  {
    match fetched
    case None => []
    case Some(pools) =>
      TopListableFacts(pools, minTvl, limit);
      TopListable(pools, minTvl, limit)
  }
}
